=== FILE: README.md ===
# Agropecuaria Juradó payment-receipt bot, modelled in Dafny

This project models the core of a WhatsApp bot through which the employees of Agropecuaria Juradó S.A.S. retrieve their payment receipts ("comprobantes de pago"), together with the administration back end around it. The Dafny model covers these parts:

- **The dialogue** (`bot_service.dfy`): a keyword menu in which the first keyword occurring in the message wins. A cancel list resets the dialogue from any state. Three dialogue states ask for the cedula (the national identity number), then the date the identity document was issued, then which of the two most recent receipts to send.
- **The identity validator** (`validation_service.dfy`, with `calendar.dfy`): the cedula format check, the `DD/MM/YYYY` parser with the Gregorian leap-year rule, and the registry cross-check, which accepts a stored expedition datetime within 24 hours of the given date.
- **The receipt search and sending** (`receipt_service.dfy`): the two-folder and one-folder searches, the classification of stored paths, and the creation of users and receipts.
- **The FTP receipt repository** (`ftp_service.dfy`):
  - remote path construction and the directory-creation sequence;
  - the digit-only search with sorting;
  - the LIST-line parser and its date inference;
  - the five-minute metadata cache.
- **The administration routers**:
  - the batch upload/delete/move protocol and the cedula extractor that reads identity numbers from file names (`receipts_router.dfy`);
  - consecutive file naming and the rename, move and delete path rewrites (`payments_router.dfy`).
- **The WhatsApp helpers**: template-name normalisation and the language cache (`templates.dfy`); text and button payloads (`messaging.dfy`); the contact upsert (`whatsapp_users.dfy`, `whatsapp_models.dfy`).
- **The role and permission gates** (`permissions.dfy`).
- **The WebSocket registry** (`websocket_manager.dfy`).
- **Two older entry points**:
  - the stateless legacy menu and its connection manager (`legacy_main.dfy`);
  - the scheduler-driven variant with the two-stage inactivity follow-up (`inactivity.dfy`).
- **Shared helpers**: `wrappers.dfy` holds `Option` and `Result`. `text.dfy` and `sorting.dfy` model the Python string operations the code relies on: `lower`, `strip`, `split`, `replace`, `int()` and list sorting.

External effects are parameters. These are the FTP server's replies, the WhatsApp Graph API's answers, the database clock, the local disk and the decoded access token. Database tables are classes holding a sequence of rows, and the operations that change them are methods with `modifies` clauses. Each method is proved against a specification function. The properties the code promises are stated as contracts and lemmas about those functions.

## Model

| member | source | states |
|---|---|---|
| ValidationService.DigitsOf | services/validation_service.py:22 | the cleaned cedula holds only digits, and it is empty exactly when the input has no digit (with `DigitsOfEmpty`) |
| ValidationService.DigitsOfEmpty | services/validation_service.py:22-26 | stripping the non-digits leaves nothing exactly when no character is a digit, the only way `isdigit()` fails on the cleaned string |
| ValidationService.ValidateCedulaFormat | services/validation_service.py:11-28 | a cedula is accepted if and only if it contains at least one digit; otherwise the "solo debe contener números" error |
| ValidationService.MatchDateGroups | services/validation_service.py:44-50 | the day, month and year groups of `(\d{1,2})/(\d{1,2})/(\d{4})`; the year has four digits |
| ValidationService.MatchDatePattern | services/validation_service.py:44-47 | `re.match` with `^...$`, where `$` also accepts one trailing newline |
| ValidationService.ValidateDateFormat | services/validation_service.py:33-77 | no match of the pattern gives the format error; on a match the checks come in the code's order, each error if and only if its condition holds and every earlier check passed: year outside 1900 to the current year, then month outside 1-12, then day outside 1-31, then a day past the end of the month; the date is accepted exactly when none holds, and it is the matched year, month and day |
| ValidationService.RenderedDateAccepted | services/validation_service.py:33-77 | round trip: every calendar date from 1900 to the current year, written DD/MM/YYYY, is accepted and gives back the same date |
| ValidationService.AcceptedGroups | services/validation_service.py:50-75 | any text whose groups form a real calendar date in range is accepted as that date |
| ValidationService.GroupsOfJoin | services/validation_service.py:44-50 | one- or two-digit day and month and a four-digit year joined by '/' match with those values |
| ValidationService.ActiveUser | services/validation_service.py:93-96 | the user found is an active row with exactly this cedula; none is found only when no such row exists |
| ValidationService.ValidateUserData | services/validation_service.py:80-108 | success yields an active row with the cedula whose stored expedition datetime is at most 24 hours from midnight of the given date; "not found" exactly when no active row has the cedula; when one exists, success if and only if its date is within one day, and the row returned is that first active row; otherwise a date mismatch |
| ValidationService.ToleranceIsOneCalendarDay | services/validation_service.py:103-105 | for a row stored at midnight, the 24-hour tolerance admits the same day and the neighbouring days, and never two days apart |
| ValidationService.MidnightToleranceIsCalendarDays | services/validation_service.py:103-105 | for a row stored at midnight, as create_user stores it, the 24-hour window is exactly "at most one calendar day apart", in both directions |
| ValidationService.TimeOfDayShiftsTolerance | services/validation_service.py:103-105 | for a row stored with a time of day after midnight (possible through routers/payments.py:82-83 and routers/operators.py:155), the previous calendar day is refused while the next one is still accepted |
| ValidationService.ActiveReceipts | services/validation_service.py:130-133 | exactly the active receipts of the cedula: each one is from the table, and every active row of the table with that cedula is in the list; empty exactly when there is none; the first is the first such row |
| ValidationService.FindUserReceipts | services/validation_service.py:111-138 | a user validation error is passed through unchanged; after a successful validation the search succeeds if and only if an active receipt exists, the list is then every active receipt of the cedula (ActiveReceipts), and a failure is "no receipts" |
| ValidationService.GetLatestReceipt | services/validation_service.py:164-183 | succeeds exactly when find_user_receipts does, and returns the first active receipt row of the cedula (table order) |
| ValidationService.IsCedulaRegistered | services/validation_service.py:141-161 | registered if and only if some active row has exactly this cedula, and that row is returned |
| FtpService.BasenameOfFile | services/ftp_service.py:38-44 | an entry that passes the filter (non-empty, no trailing '/') has a non-empty base name |
| FtpService.ValidFileNames | services/ftp_service.py:38-46 | the filtered names are never more than the entries and are bare names (no '/', not "." or ".."), kept in listing order |
| FtpService.FilterValidFiles | services/ftp_service.py:38-46 | the loop yields exactly the filtered names, each one a bare file name |
| FtpService.DirParts | services/ftp_service.py:104 | the components of the remote directory are the non-empty pieces between the '/' separators |
| FtpService.DirPrefixes | services/ftp_service.py:104-107 | one directory to create per component, outermost first |
| FtpService.EnsureDirs | services/ftp_service.py:103-113 | MKD is issued for each prefix in order; the call succeeds if and only if every reply is success or a 550, and on failure it stops right after the first other error |
| FtpService.MkdEach | services/ftp_service.py:104-113 | the loop issues MKD for the cumulative paths in order; it completes if and only if every reply is tolerated, and otherwise stops right after the first reply that is not |
| FtpService.GlobNames | services/ftp_service.py:253-259 | the glob branch keeps only non-empty base names |
| FtpService.CedulaMatches | services/ftp_service.py:275-286 | the fallback scan keeps exactly the PDFs (any letter case) whose base name contains the cedula: every name kept qualifies, and the base name of every listed path that qualifies is kept |
| FtpService.FindResult | services/ftp_service.py:197-297 | an empty cedula, a cedula that is not all digits or an empty folder is refused. Otherwise a failed connection, folder creation or glob listing is a connection error; glob matches, when there are any, come back sorted; else the cedula matches of the full listing, sorted; a 550 reply to the listing gives [] and any other failure a connection error |
| FtpService.SortedKeepsProperty | services/ftp_service.py:289-290 | sorting the matches keeps every name a PDF with the cedula |
| FtpService.CollectGlobNames | services/ftp_service.py:253-259 | the glob loop yields exactly the glob names |
| FtpService.CollectCedulaMatches | services/ftp_service.py:275-286 | the scan loop yields exactly the cedula matches |
| FtpService.FindFilesByCedula | services/ftp_service.py:197-297 | the imperative search returns exactly the specified result for every FTP session |
| FtpService.ListFilesInDirectory | services/ftp_service.py:379-412 | a listed folder gives exactly its filtered names; a connection failure or refused listing gives [] |
| FtpService.UploadFile | services/ftp_service.py:116-169 | a remote path is returned if and only if the local file exists, the connection works, the directories are created and STOR succeeds; it is "<remote dir>/<filename>"; a public URL exists exactly when a public base is configured and ends with "/<filename>" |
| FtpService.MoveFile | services/ftp_service.py:319-353 | the new path is returned if and only if the source exists, the target directories are created and RENAME succeeds, and it is "<target dir>/<filename>" |
| FtpService.RemotePathNamesFolder | services/ftp_service.py:31-35 | with a base directory set, a stored remote path contains "/<folder>/", which the folder inference of the payments router relies on |
| FtpService.MonthNumber | services/ftp_service.py:588-593 | month_map.get with default 1 is always a month from 1 to 12 |
| FtpService.RollBack | services/ftp_service.py:611-613 | a stamp not later than now is kept as is; a later one is moved back exactly one year, or replaced by now when that day does not exist in the earlier year (29 February); the result is a valid moment, and one from the current year is never later than now |
| FtpService.EarlierYearNotLater | services/ftp_service.py:611-613 | a stamp moved back into an earlier year is not in the future |
| FtpService.ParseFtpDate | services/ftp_service.py:571-623 | fewer than three fields give now; otherwise the month by its English abbreviation (1 when unknown), the day, and the year and time read by YearAndTime; a field that does not parse or a date that does not exist gives now; a valid stamp is passed through RollBack. The result is always a valid moment, and an "HH:MM" stamp is never in the future |
| FtpService.YearAndTime | services/ftp_service.py:602-613 | a field with ':' is a time in the current year, defined exactly when the parts before and after the first ':' both parse, and then gives those hour and minute; a field without ':' is a year at midnight, defined exactly when it parses |
| FtpService.ParseListLine | services/ftp_service.py:497-515 | a line yields an entry if and only if it has nine or more fields, does not start with 'd', and its last field is a .pdf (any letter case) other than "." and ".."; the entry is named by that last field, its size is the fifth field when that is all digits and 0 otherwise, its date text is fields six to eight joined by spaces, and its ISO date is ParseFtpDate of that text |
| FtpService.EntryOf | services/ftp_service.py:508-516 | the entry of a line's fields: named by the last field, sized by the fifth when it is all digits and 0 otherwise, dated by fields six to eight and by their parsed ISO form |
| FtpService.ParseListing | services/ftp_service.py:493-518 | at most one entry per LIST line, every one a PDF |
| FtpService.ParseListingAppend | services/ftp_service.py:493-518 | the listing of two consecutive pieces of a reply is the listing of the first followed by that of the second: entries keep the order of their lines |
| FtpService.ParseListingOfLine | services/ftp_service.py:500-518 | a single line contributes exactly its ParseListLine entry, or nothing |
| FtpService.WithCedula | services/ftp_service.py:232-236 | exactly the listed entries whose name contains the cedula |
| FtpService.FreshEntry | services/ftp_service.py:475-486 | a cached listing is served if and only if its key is present and it is younger than five minutes |
| FtpService.StoredListingServedForFiveMinutes | services/ftp_service.py:19 | a listing just stored is served for 300 seconds and not after |
| FtpService.MetadataCache.constructor | services/ftp_service.py:17 | the metadata cache starts empty |
| FtpService.ParseLines | services/ftp_service.py:502-518 | the line loop yields exactly the parsed listing: the entries of the PDF lines, in line order |
| FtpService.MetadataCache.GetFilesWithMetadata | services/ftp_service.py:469-549 | a fresh cached listing is returned with the cache unchanged; otherwise the parsed LIST reply, stored under "metadata_<subdir>" when caching is on; a failed connection gives [] |
| FtpService.MetadataCache.ClearMetadataCache | services/ftp_service.py:552-568 | a named folder loses only its own entry; no folder empties the cache |
| FtpService.FilterByCedula | services/ftp_service.py:232-236 | the filter loop keeps exactly the listed entries whose name contains the cedula, in listing order |
| FtpService.MetadataCache.FindFilesWithMetadata | services/ftp_service.py:219-236 | the metadata search succeeds exactly when the cedula is all digits and the folder is non-empty; a bad cedula or folder is refused without touching the cache; a success returns the entries of the listing read (cached or fresh, as GetFilesWithMetadata reads it) whose name contains the cedula, and leaves the cache as that read leaves it |
| Text.Lower | services/bot_service.py:43 | `str.lower()` keeps the length, and maps A-Z to a-z while keeping digits and whitespace |
| Text.LowerIdempotent | services/bot_service.py:43 | lowering twice is lowering once |
| Text.LowerStripIdempotent | services/bot_service.py:224 | normalising an already normalised message changes nothing, so the second lower().strip() in the conversation handler is a no-op |
| Text.Split | routers/payments.py:161 | `split(sep)` gives at least one part, at least two when the separator occurs, and no part contains it |
| Text.Basename | services/ftp_service.py:42 | `os.path.basename` holds no '/' and is a suffix of the path |
| Text.FormatPaddedParses | routers/payments.py:161-167 | round trip: `int(f"{n:04d}")` gives back n, for negative n too |
| Text.NatToStringValue | routers/payments.py:167 | the decimal rendering of n reads back as n |
| Text.PadZerosValue | routers/payments.py:167 | zero-padding keeps the value of a digit string |
| Sorting.Sort | services/ftp_service.py:289 | `list.sort()` on names: the result is ordered by code points and is a permutation of the input |
| Sorting.Insert | services/ftp_service.py:289 | inserting into a sorted list keeps it sorted and adds exactly the new element |
| Sorting.StrLeTotal | services/ftp_service.py:289 | code-point order is total |
| Sorting.StrLeTransitive | services/ftp_service.py:289 | code-point order is transitive |
| Sorting.StrLeAntisymmetric | services/ftp_service.py:289 | code-point order is antisymmetric |
| Calendar.DaysInMonth | services/validation_service.py:63-67 | 28 to 31 days, and 29 exactly for February of a Gregorian leap year |
| Calendar.NextDay | services/validation_service.py:103-105 | the day after a valid date is a valid date |
| Calendar.NextDayNumber | services/validation_service.py:103-105 | the day number of the next day is one more, which makes the one-day tolerance a difference of day numbers |
| Calendar.DaysInYear | services/validation_service.py:63-67 | the months of a year add up to 366 days in a leap year and 365 otherwise |
| Text.TrimStart | services/bot_service.py:43 | the leading half of `strip()`: the result is a suffix of the text that does not start with whitespace |
| Text.TrimEnd | services/bot_service.py:43 | the trailing half of `strip()`: the result is a prefix of the text that does not end with whitespace |
| Text.StripLeading | services/ftp_service.py:34-35 | the leading half of `strip('/')`: the result is a suffix of the text that does not start with the character |
| Text.StripTrailing | services/ftp_service.py:34 | `rstrip('/')`: the result is a prefix of the text that does not end with the character |
| Text.Words | services/ftp_service.py:587 | `split()` with no argument yields no empty word |
| Text.ParseDigits | routers/payments.py:161 | `int()` reads a digit string as its decimal value, leading zeros included |
| Text.ParseNegative | routers/payments.py:161 | `int()` reads '-' followed by digits as the negated value |
| ReceiptService.ReceiptPath | services/receipt_service.py:106-110 | the stored path ends with "/<folder>/<name>", and is exactly that when no base directory is set |
| ReceiptService.FolderReceipt | services/receipt_service.py:96-124 | a folder contributes a receipt if and only if the FTP search there succeeds with at least one name; it is the smallest name found, with that folder, the cedula, the count found and the path built from it |
| ReceiptService.Collected | services/receipt_service.py:93-124 | at most one receipt per folder searched |
| ReceiptService.CollectedTwoFolders | services/receipt_service.py:94-124 | the result is the "recientes" receipt, if any, followed by the "anteriores" one, if any |
| ReceiptService.LastTwoShape | services/receipt_service.py:76-132 | at most two receipts, each equal to its folder's own search result, "recientes" first; a folder is present if and only if its search finds something; a cedula that is not all digits finds nothing |
| ReceiptService.GetLastTwoReceipts | services/receipt_service.py:76-132 | the loop over the two folders succeeds exactly when something was collected, and then returns the collected receipts; otherwise the "no receipts" error |
| ReceiptService.SelectionButtonsValid | services/receipt_service.py:60-69 | the two selection buttons ("Quincena anterior", "Quincena actual") meet the WhatsApp button limits |
| ReceiptService.SearchOutcome | services/receipt_service.py:12-73 | an invalid cedula or date is reported first, in that order; success if and only if both validate and the FTP search finds a receipt; success implies an all-digit cedula |
| ReceiptService.SearchAndSendReceipt | services/receipt_service.py:12-73 | returns the specified outcome, and sends the button message if and only if it succeeded |
| ReceiptService.GetReceiptsByFolder | services/receipt_service.py:135-183 | a folder other than the two is refused; otherwise success exactly when that folder's search finds a receipt, and it is that receipt |
| ReceiptService.ByFolderAgreesWithLastTwo | services/receipt_service.py:135-183 | the one-folder search finds exactly the receipt the two-folder search lists for that folder |
| ReceiptService.SendReceiptFromData | services/receipt_service.py:210-268 | the confirmation is always sent first; success if and only if the download gave a file and the document was sent; a failed download sends only the confirmation |
| ReceiptService.RemoteTestIsFolderSubstring | services/receipt_service.py:286-291 | the remote-path test is the same as "contains recientes/ or anteriores/"; the absolute-path alternative adds nothing |
| ReceiptService.SearchPathsAreRemote | services/receipt_service.py:106-110 | every path the FTP search builds is recognised as a remote path when it is sent |
| ReceiptService.SendReceiptPdf | services/receipt_service.py:271-358 | "file missing" if and only if the path is neither a URL nor remote and the local file is absent, with nothing sent; "download failed" if and only if a remote, non-URL path could not be downloaded, after the confirmation alone; in every other case the confirmation and the document are sent (by URL, by downloaded copy or from the local path according to the path's kind) and the result is success if and only if the document send succeeded, a failed send otherwise |
| ReceiptService.SendSelectedReceipt | services/receipt_service.py:188-207 | a receipt row goes exactly through SendReceiptPdf and a search result exactly through SendReceiptFromData; so a search result or a row with a remote path is never refused as missing, and success implies the document was sent |
| ReceiptService.GetUserReceipts | services/receipt_service.py:361-379 | a date error is returned as is; a valid date gives exactly FindUserReceipts for the parsed date; success gives a non-empty list of the cedula's active receipts, and an active user with that cedula exists |
| ReceiptService.CreateReceipt | services/receipt_service.py:382-428 | a path missing on disk or already stored is refused with the table unchanged; otherwise exactly one active row is appended with the next id; distinct stored paths stay distinct |
| ReceiptService.CreateUser | services/receipt_service.py:431-481 | cedula then date errors are reported first, then a duplicate cedula; a valid cedula and date with no row holding that cedula always succeed, appending one active user row with the parsed date at midnight; a failure leaves the table as it was; distinct cedulas stay distinct |
| BotService.FirstHitIsFirstMatch | services/bot_service.py:130-134 | no option if and only if no keyword occurs in the message; otherwise the option of the first keyword, in table order, that occurs |
| BotService.ChooseOption | services/bot_service.py:130-134 | the keyword loop with its break returns exactly the first-match option |
| BotService.TwelvePicksOptionOne | services/bot_service.py:120-134 | substring matching makes "12" choose option 1 |
| BotService.ConverseCedula | services/bot_service.py:235-283 | a malformed cedula keeps the state and data; an unregistered one keeps waiting with the data cleared; the dialogue moves to the date if and only if the cedula is well formed and some active user has it, and then stores exactly that cedula |
| BotService.ConverseDate | services/bot_service.py:285-356 | a bad date or a failed identity check keeps the state and data; once both validate, a missing stored cedula resets to idle with no data and a process-error reply, and a failed search resets to idle with no data and that search's error; the dialogue either waits for the date, moves to the receipt choice, or resets to idle with no data; it never shows the menu |
| BotService.ConverseDateAdvances | services/bot_service.py:285-356 | the dialogue moves to the receipt choice if and only if the date and identity validate, a cedula is stored and the search finds receipts; it then sets the found flag and sends no text reply |
| BotService.ConverseSelection | services/bot_service.py:358-427 | anything but "1" or "2" repeats the prompt and keeps the state; "1" or "2" always ends the dialogue; "receipt sent" if and only if there is a stored cedula, the chosen folder holds a receipt, the download gives a non-empty file and WhatsApp accepts the document; "no current receipt" exactly when "2" finds nothing in recientes, "no previous receipt" exactly when "1" finds nothing in anteriores |
| BotService.ConverseSelectionFailures | services/bot_service.py:358-427 | an answer of "1" or "2" without a stored cedula is exactly the process error; with the folder's receipt found, an empty or missing download is exactly "not sent: download failed" and a refused document is exactly "not sent: send failed" |
| BotService.Converse | services/bot_service.py:211-434 | a cancel word resets to idle with the welcome; idle carries no data; each turn either stays, returns to idle or moves one step forward; no menu reply is given |
| BotService.MenuTurn | services/bot_service.py:137-187 | no option gives the welcome and no change; only the state and the active flag can change; option 2 starts the cedula dialogue; option 6 and only option 6 switches the subscription off |
| BotService.BotTurn | services/bot_service.py:99-187 | a turn never changes the phone, name, last interaction or warning flag; inside a dialogue it leaves the active flag alone and gives no menu reply; on the menu it leaves the dialogue data alone |
| BotService.CancelResetsFromAnyState | services/bot_service.py:223-233 | from any dialogue state a cancel word returns the contact to idle, clears the data and gives the welcome |
| BotService.IdleRowsCarryNoData | services/bot_service.py:229-230 | when idle rows carry no dialogue data before a turn, they carry none after it |
| BotService.MenuStep | services/bot_service.py:130-187 | the imperative menu step gives exactly the menu turn of the first-match option |
| BotService.ProcessMessage | services/bot_service.py:40-209 | the contact is upserted, found by phone, and gets exactly one turn on the lowered and stripped message; the rest of the table is as upserted and phones stay distinct |
| BotService.SamePhoneKeepsDistinct | services/bot_service.py:139-141 | rewriting a row without changing its phone keeps phones distinct |
| BotService.ExtractText | services/bot_service.py:474-484 | the text of a text message, the button id of a button reply, otherwise "" |
| BotService.HandleWebhookMessage | services/bot_service.py:465-509 | a message with text is logged once as a "user" message, and succeeds if and only if the text is non-empty; otherwise nothing is stored |
| WhatsappModels.FindPhone | services/whatsapp/users.py:55-66 | the row found has the phone and no earlier row has it; none is found exactly when no row has it |
| WhatsappModels.ContactTable.constructor | models/whatsapp_models.py:26-33 | an empty contact table, with phones distinct |
| PaymentModels.PaymentDb.constructor | models/payment_models.py:13-37 | empty payment_users and payment_receipts tables |
| WhatsappUsers.NewContact | services/whatsapp/users.py:33-37 | a new contact is named by the given name, or by its phone when there is none; it is active, unwarned and idle, stamped now |
| WhatsappUsers.Refreshed | services/whatsapp/users.py:25-30 | only the stamp and, while the name is still the phone number, the name change |
| WhatsappUsers.Upsert | services/whatsapp/users.py:11-41 | an existing contact is refreshed in place; an unknown phone is appended as a new contact |
| WhatsappUsers.UpsertProperties | services/whatsapp/users.py:11-41 | after the upsert phones stay distinct, the phone is present and stamped now, other contacts are unchanged, and the table grows exactly when the phone was new |
| WhatsappUsers.CustomNameKept | services/whatsapp/users.py:27-31 | a name that differs from the phone number is never overwritten |
| WhatsappUsers.CreateOrUpdateWhatsappUser | services/whatsapp/users.py:11-41 | the table becomes the upsert of the old table and the returned row is the phone's row |
| WhatsappUsers.UpdateUserLastInteraction | services/whatsapp/users.py:68-89 | true if and only if the phone is known; then only that row's stamp changes, otherwise nothing changes |
| WhatsappUsers.Without | services/whatsapp/users.py:103-105 | no row has the phone, every other row is kept and nothing new appears |
| WhatsappUsers.DeleteWhatsappUser | services/whatsapp/users.py:91-112 | true if and only if the phone was known; the table loses exactly that row, one row shorter |
| WhatsappUsers.WithoutAbsent | services/whatsapp/users.py:103-108 | deleting an unknown phone leaves the table as it was |
| WhatsappUsers.WithoutOne | services/whatsapp/users.py:103-107 | deleting a known phone removes just its row and keeps phones distinct |
| WhatsappMessaging.SendWhatsappMessage | services/whatsapp/messaging.py:16-54 | a request is built if and only if the configuration is complete, and it is the text body for that recipient; success exactly when the request was posted successfully |
| WhatsappMessaging.SendInteractiveButtons | services/whatsapp/messaging.py:56-123 | a request is built if and only if there are one to three buttons each with a title of at most 20 characters; it holds one reply button per input, in order; success exactly when it was posted successfully |
| WhatsappMessaging.CheckButtons | services/whatsapp/messaging.py:74-80 | true exactly when every button is a dict with 'id' and 'title' whose title has at most 20 characters |
| WhatsappMessaging.BuildReplies | services/whatsapp/messaging.py:86-94 | the reply objects are exactly one per button, in order, each carrying that button's id and title |
| ReceiptsRouter.DigitRunLength | routers/receipts.py:756 | the digit run at the start of the text: all digits, and followed by a non-digit or the end |
| ReceiptsRouter.DigitRuns | routers/receipts.py:756 | `re.findall(r'\d+')`: every piece is a non-empty digit string; that the pieces are all the runs, left to right, is DigitRunsSplit with DigitRunsOfDigits |
| ReceiptsRouter.DigitRunsAreMaximal | routers/receipts.py:756 | every piece found is a maximal run of digits of the name, neither preceded nor followed by a digit |
| ReceiptsRouter.DigitRunsOfDigits | routers/receipts.py:756 | a text of digits only is found as one run, itself |
| ReceiptsRouter.DigitRunsSplit | routers/receipts.py:756 | a non-digit character cuts the text: the runs found are those before it followed by those after it, so none is lost, merged or reordered |
| ReceiptsRouter.RunLengthStopsAt | routers/receipts.py:756 | the leading run of digits ends at the first non-digit whatever follows it |
| ReceiptsRouter.Candidates | routers/receipts.py:762-794 | exactly the runs that survive the filters (not a YYYYMMDD date, not an HHMMSS time, 6 to 12 digits): each one kept survives and is a run, and every run that survives is kept; the order is CandidatesAppend |
| ReceiptsRouter.CandidatesOfOne | routers/receipts.py:762-794 | a single run is kept exactly when it survives the filters |
| ReceiptsRouter.CandidatesAppend | routers/receipts.py:762-794 | filtering two pieces one after the other is filtering their concatenation: the survivors keep their original order |
| ReceiptsRouter.Longest | routers/receipts.py:803-809 | the first candidate of greatest length within the bounds; none exactly when no candidate fits |
| ReceiptsRouter.PickCedula | routers/receipts.py:798-809 | among surviving runs: "N/A" exactly when there are none; otherwise the first longest run of 8 to 10 digits when one exists, else the first longest run |
| ReceiptsRouter.ExtractCedula | routers/receipts.py:745-809 | "N/A" if and only if no run survives; otherwise a surviving run, the first longest one of 8 to 10 digits if any, else the first longest one |
| ReceiptsRouter.ExtractedIsSurvivingRun | routers/receipts.py:745-806 | an extracted cedula is a maximal digit run of the name without extension, of 6 to 12 digits, that looks like neither a date nor a time |
| ReceiptsRouter.February31LooksLikeDate | routers/receipts.py:766-773 | the date filter checks the day against 31 only, so "20230231" is skipped as a date |
| ReceiptsRouter.ParseReceiptId | routers/receipts.py:382-383 | `split("_", 1)` succeeds if and only if the id contains '_'; the folder part has no '_' and joining the parts gives the id back |
| ReceiptsRouter.ReceiptIdRoundTrip | routers/receipts.py:380-383 | round trip: an id built as "<folder>_<name>" splits back into that folder and name, even when the name contains '_' |
| ReceiptsRouter.ListedIdsRoundTrip | routers/receipts.py:43-69 | the ids the listing builds for both folders split back into their folder and file |
| ReceiptsRouter.IdFolder | routers/receipts.py:382-385 | the id names a folder exactly when it splits and its folder part is one of the two |
| ReceiptsRouter.ResolveDownload | routers/receipts.py:664-715 | a download resolves if and only if the id splits into a valid folder and a name, and those rebuild the id; an id without '_' is invalid |
| ReceiptsRouter.WorkerCap | routers/receipts.py:186 | `min(n, limit)`: within both bounds and equal to one of them |
| ReceiptsRouter.Batches | routers/receipts.py:298-299 | every batch is non-empty and at most the batch size, and all but the last are full |
| ReceiptsRouter.BatchesCover | routers/receipts.py:298-307 | the batches, concatenated, are the items in their order |
| ReceiptsRouter.RunBatches | routers/receipts.py:298-307 | batch by batch, one result per item in item order |
| ReceiptsRouter.ClearFolders | routers/receipts.py:484-485 | exactly the cache entries of the given folders are dropped |
| ReceiptsRouter.StoredName | routers/receipts.py:212-214 | the stored name is the name without ".pdf", an '_' and a stamp, ending in ".pdf" |
| ReceiptsRouter.UploadOne | routers/receipts.py:189-290 | a file is uploaded if and only if it is a PDF with an extractable cedula and the first try or the retry succeeds; then it is recorded under its stored name with the cedula and folder; no FTP call is made for a rejected file, and a second only after a failed first |
| ReceiptsRouter.UploadedOf | routers/receipts.py:314-324 | only the successful results, none invented |
| ReceiptsRouter.FailedOf | routers/receipts.py:314-329 | only the failed results, none invented |
| ReceiptsRouter.UploadPartition | routers/receipts.py:314-329 | every result is counted exactly once; no failures exactly when every file uploaded |
| ReceiptsRouter.PartitionUploads | routers/receipts.py:314-329 | the partition loop yields exactly the uploaded and the failed results |
| ReceiptsRouter.UploadReportFacts | routers/receipts.py:314-344 | the totals add up to the number of files; success if and only if every file uploaded; every upload names the requested folder and a cedula |
| ReceiptsRouter.UploadMultipleReceipts | routers/receipts.py:163-349 | no files or a bad folder is a 400; otherwise the report of the batches, each file meeting the FTP replies of its own position in the request; the folder's cache entry is cleared exactly when something was uploaded |
| ReceiptsRouter.DeleteOne | routers/receipts.py:378-442 | an item is deleted if and only if its id names a valid folder and the FTP delete succeeds; an id without '_' is invalid |
| ReceiptsRouter.MoveOne | routers/receipts.py:529-602 | an item is moved if and only if its id names a valid folder other than the target and the FTP move succeeds; a receipt already in the target is refused |
| ReceiptsRouter.DoneIds | routers/receipts.py:466-473 | exactly the ids of the successful items, empty exactly when none succeeded |
| ReceiptsRouter.ItemPartition | routers/receipts.py:466-473 | every item is counted once, as done or as an error; no errors exactly when all succeeded |
| ReceiptsRouter.PartitionItems | routers/receipts.py:466-473 | the partition loop yields exactly the done ids and the errors |
| ReceiptsRouter.FoldersOf | routers/receipts.py:477-482 | the affected folders are all valid folders |
| ReceiptsRouter.AffectedFolders | routers/receipts.py:477-482 | the loop collects exactly the folders of the given ids |
| ReceiptsRouter.InvalidateDeleted | routers/receipts.py:476-485 | the cache loses exactly the entries of the folders of deleted receipts |
| ReceiptsRouter.InvalidateMoved | routers/receipts.py:636-646 | the cache loses exactly the entries of the source folders and the target |
| ReceiptsRouter.DeletedFoldersExact | routers/receipts.py:476-485 | the folders re-derived from the deleted ids are exactly the folders of the successful deletions |
| ReceiptsRouter.DeleteReportFacts | routers/receipts.py:466-496 | the totals add up; success if and only if every id named a valid folder and was deleted |
| ReceiptsRouter.DeleteReceiptsBatch | routers/receipts.py:353-501 | an empty list is a 400 with the cache untouched; otherwise the report of the batches and the cache entries of the affected folders dropped |
| ReceiptsRouter.MoveReportFacts | routers/receipts.py:626-657 | the totals add up; success if and only if every id named a valid source other than the target and was moved |
| ReceiptsRouter.MovedFoldersExact | routers/receipts.py:636-643 | the folders re-derived from the moved ids are exactly the sources of the successful moves plus the target |
| ReceiptsRouter.MoveReceipts | routers/receipts.py:504-662 | no ids or a bad target is a 400 with the cache untouched; otherwise the report of the batches and the cache entries of the sources and the target dropped |
| PaymentsRouter.ConsecutivesAreReadings | routers/payments.py:156-164 | a number is collected exactly when some listed file ends in "_{cedula}.pdf" and its text before the first '_' parses as an integer; unparsable prefixes are skipped |
| PaymentsRouter.MaxOf | routers/payments.py:166 | `max` of a non-empty list is one of its elements and bounds every element |
| PaymentsRouter.LargestOf | routers/payments.py:166 | the left-to-right scan for `max(consecutivos)` returns exactly the largest element of the list |
| PaymentsRouter.NextConsecutive | routers/payments.py:155-166 | the next consecutive exceeds every collected one, is 1 when none was collected, and is otherwise one more than a collected number |
| PaymentsRouter.NextExceedsListed | routers/payments.py:155-166 | every counted file's consecutive is below the one allocated next |
| PaymentsRouter.AllocateConsecutive | routers/payments.py:155-166 | the loop over the directory listing computes exactly the next consecutive |
| PaymentsRouter.PaddedHasNoUnderscore | routers/payments.py:167 | the zero-padded consecutive contains no '_' |
| PaymentsRouter.NewFilenameCounts | routers/payments.py:159-167 | the new "NNNN_{cedula}.pdf" name passes the suffix test of the next allocation for the same cedula |
| PaymentsRouter.NewFilenameReadsBack | routers/payments.py:161-167 | splitting the new name at '_' and parsing the head gives back the consecutive it was built from |
| PaymentsRouter.NewFilenameIsFresh | routers/payments.py:155-167 | the allocated name is never one of the files already listed |
| PaymentsRouter.NewFilenameWidth | routers/payments.py:167 | `{n:04d}` is a digit string of at least four characters whose value is n |
| PaymentsRouter.StoredPath | routers/payments.py:182-183 | the stored path is the public URL when there is one, else the remote path when there is one, else the local path |
| PaymentsRouter.PdfFiles | routers/payments.py:155 | the kept listing entries are exactly the listed names ending in ".pdf" |
| PaymentsRouter.UploadReceiptFile | routers/payments.py:131-198 | a non-PDF name and an unknown folder are refused before anything else; as written, a ".pdf" already in the upload directory makes the save fail, so a success has found no PDF there, uses the name 0001_<cedula>.pdf, has saved the file, has a non-empty cedula, and appends exactly one receipt holding the stored path; a failure leaves the receipts unchanged. Without an FTP upload the stored path is the local file just written, so a PDF with a known folder, an empty PDF listing, a successful save, a non-empty cedula and no receipt already holding that path always succeeds; with an upload, success also requires the returned remote path or URL to exist on local disk, and an upload answered outside the local "static/" tree with a path that is not on disk is always refused |
| PaymentsRouter.FileAfterScan | routers/payments.py:155-158 | the handler's `file` is still the upload exactly when no ".pdf" was listed, and the last listed name otherwise |
| PaymentsRouter.ListedPdfBreaksSave | routers/payments.py:155-173 | one ".pdf" anywhere in the upload directory leaves `file` bound to a name when the body is copied |
| PaymentsRouter.EmptyListingStartsAtOne | routers/payments.py:166 | with no ".pdf" listed the consecutive is 1 |
| PaymentsRouter.FtpUploadIsRefused | routers/payments.py:182-191 | when the hosting answers with a URL or remote path outside the local "static/" tree that is not a local file, the stored path differs from the local path and is not on disk for every folder and name, so the existence argument handed to create_receipt is false |
| PaymentsRouter.UploadReceiptFileChecked | routers/payments.py:131-198 | the corrected upload: the same refusals and the same receipt on success under a freshly allocated name not already listed, and a PDF in a known folder, saved, with a cedula and a stored path not yet registered is always accepted, whatever the directory already holds |
| PaymentsRouter.FolderOf | routers/payments.py:233 | the inferred folder is "recientes" exactly when the path contains "/recientes/", and "anteriores" otherwise |
| PaymentsRouter.RelativePathReadsAsAnteriores | routers/payments.py:233 | a local path "recientes/NAME" has no leading '/', so it is read as being in "anteriores" |
| PaymentsRouter.PdfName | routers/payments.py:235-236 | the renamed file ends in ".pdf" case-insensitively; a name that already does is kept, and any other name only gains the suffix |
| PaymentsRouter.WithLastSegment | routers/payments.py:245 | only the last '/'-segment of the path is replaced by the new name; a path with no '/' gains "/" and the name |
| PaymentsRouter.RenameKeepsDirectory | routers/payments.py:245 | after a rename the path's basename is the new name and its directory part is unchanged |
| PaymentsRouter.FindActive | routers/payments.py:228 | the first row with the id that is active, and none exactly when no such row exists |
| PaymentsRouter.RenameReceipt | routers/payments.py:225-248 | a missing or inactive receipt is refused; otherwise the hosting rename is asked in the inferred folder, and only on success are the row's name and path replaced, nothing else changing |
| PaymentsRouter.ReplaceLeavesReplacement | routers/payments.py:270 | `str.replace` on a string holding the pattern leaves the replacement text in the result |
| PaymentsRouter.MoveToRecientesIsSeen | routers/payments.py:261-270 | a move from "anteriores" to "recientes" answered with a relative path is read as "recientes" afterwards; an absolute answer is stored as returned |
| PaymentsRouter.MoveReceipt | routers/payments.py:251-273 | an unknown target folder is refused; a missing receipt is refused; a receipt already in the target is returned unchanged; a failed or empty hosting answer changes nothing; otherwise only the row's path is rewritten |
| PaymentsRouter.DeleteReceiptHosting | routers/payments.py:276-291 | a missing receipt is refused; the row is marked inactive only when the hosting delete succeeds, after which no active row with that id remains |
| Templates.Kept | services/whatsapp/templates.py:29 | the characters of the name that survive the character mask are all lowercase ASCII letters or digits, and there are no more of them than the name has |
| Templates.Mask | services/whatsapp/templates.py:29 | `re.sub(r'[^a-z0-9]', '_', …)` keeps the length, keeps every a-z/0-9 character in place and puts '_' everywhere else |
| Templates.MaskKeptLetters | services/whatsapp/templates.py:29 | the non-underscore characters of the masked name are exactly its lowercase letters and digits, in order |
| Templates.Squash | services/whatsapp/templates.py:31 | `re.sub(r'_+', '_', …)` leaves no two consecutive '_', keeps the first and last characters, never lengthens, and empties only the empty string |
| Templates.SquashKeepsLetters | services/whatsapp/templates.py:31 | squashing removes only underscores: the other characters stay, in order |
| Templates.SquashKeepsSingles | services/whatsapp/templates.py:31 | a string with no double '_' is left unchanged by the squash |
| Templates.StripUnderscores | services/whatsapp/templates.py:33 | `strip('_')` leaves no '_' at either end and introduces no double '_' or foreign character |
| Templates.FormatTemplateName | services/whatsapp/templates.py:20-37 | the result is a valid template name: non-empty, only a-z, 0-9 and '_', no '_' at either end and no double '_'. It is "template" when no letter or digit survives the lowering, and otherwise keeps exactly the surviving letters and digits in order |
| Templates.SeparatorBecomesOneUnderscore | services/whatsapp/templates.py:27-32 | between two valid names, any non-empty run of characters outside [a-z0-9] after lowering becomes exactly one '_', and the names on either side come through unchanged |
| Templates.JoinedIsName | services/whatsapp/templates.py:27-32 | two valid names joined by one '_' form a valid name |
| Templates.MaskLowerConcat | services/whatsapp/templates.py:27-29 | lowering and masking work character by character: around a separator, valid names are left as they are |
| Templates.SquashRunAfterName | services/whatsapp/templates.py:31 | a run of underscores after a valid name is squashed to one |
| Templates.SquashAppendBare | services/whatsapp/templates.py:31 | text with single underscores that does not start with one is carried through the squash unchanged |
| Templates.NameCharsKeptAsNonUnderscores | services/whatsapp/templates.py:29 | over a-z, 0-9 and '_', the characters the mask keeps are exactly the non-underscore ones |
| Templates.TemplateNameIsFixed | services/whatsapp/templates.py:20-37 | a name that is already a valid template name is returned unchanged |
| Templates.FormatTemplateNameIdempotent | services/whatsapp/templates.py:20-37 | formatting twice is formatting once |
| Templates.ListedLanguage | services/whatsapp/templates.py:51-57 | the scan finds the language of the first listing entry with the name, "es_CO" when that entry has none; it finds nothing when no entry matches or an entry before the match lacks a name, which is the error the handler catches |
| Templates.TemplateLanguageCache.constructor | services/whatsapp/templates.py:18 | the memo cache starts empty |
| Templates.TemplateLanguageCache.GetTemplateLanguage | services/whatsapp/templates.py:39-64 | a cached name is answered from the cache with the cache unchanged; otherwise the listed language is returned, or "es_CO" when the listing fails or has no match, and in every case the name is cached with the value returned |
| Permissions.AnyHeld | middleware/permissions.py:61 | `any(x in held for x in required)` holds exactly when some required entry is held |
| Permissions.RequireRole | middleware/permissions.py:5-23 | the gate either passes the current user through unchanged or answers 403 naming the required role |
| Permissions.RequirePermission | middleware/permissions.py:25-48 | the gate either passes the current user through unchanged or answers 403 naming the required permission |
| Permissions.RequireAnyRole | middleware/permissions.py:50-68 | the gate either passes the current user through unchanged or answers 403 naming the list of roles |
| Permissions.RequireAnyPermission | middleware/permissions.py:70-89 | the gate either passes the current user through unchanged or answers 403 naming the list of permissions |
| Permissions.SuperAdminPassesEverything | middleware/permissions.py:11-13 | a user holding "Super Administrador" passes the four gates and the two boolean checks, whatever they ask for |
| Permissions.GatesAgreeWithChecks | middleware/permissions.py:92-115 | require_role passes exactly when check_role holds, and require_permission exactly when check_permission holds |
| Permissions.AnyGatesAreIntersections | middleware/permissions.py:61-82 | for anyone but the super administrator, an any-gate passes exactly when a required entry is among the user's roles or permissions |
| Permissions.EmptyAnyListDenies | middleware/permissions.py:61-82 | an empty list of required roles or permissions refuses everybody but the super administrator |
| Permissions.SingletonAnyIsSingle | middleware/permissions.py:16-82 | asking for any of a one-element list is asking for that one role or permission |
| Permissions.MissingKeysAreEmpty | middleware/permissions.py:97-115 | a token without "roles" and "permissions" keys is treated as holding none, so it passes no gate and no check |
| Permissions.GatesAreMonotone | middleware/permissions.py:50-89 | holding more roles and permissions never closes an any-gate that was open |
| WebsocketManager.Discarded | utils/websocket_manager.py:26-31 | the registry after discarding sockets from one phone: other phones are untouched, the phone's key stays exactly while sockets remain, an unknown phone is left alone, and no empty set is ever stored |
| WebsocketManager.DiscardedTwice | utils/websocket_manager.py:51-52 | discarding sockets one batch after another is discarding their union, so the per-socket disconnect loop ends where a single discard would |
| WebsocketManager.DiscardedNothing | utils/websocket_manager.py:26-31 | discarding sockets the phone does not hold changes nothing |
| WebsocketManager.ConnectionManager.constructor | utils/websocket_manager.py:8-10 | the registry starts with no phone and no general socket |
| WebsocketManager.ConnectionManager.Connect | utils/websocket_manager.py:12-18 | the socket joins the phone's set, which is created when absent; every other phone and the general set are unchanged, and no empty set is stored |
| WebsocketManager.ConnectionManager.ConnectGeneral | utils/websocket_manager.py:20-24 | only the general set grows, by exactly the socket |
| WebsocketManager.ConnectionManager.Disconnect | utils/websocket_manager.py:26-32 | the socket leaves the phone's set and the key is deleted once the set is empty; an unknown phone is a no-op |
| WebsocketManager.ConnectionManager.DisconnectGeneral | utils/websocket_manager.py:34-37 | only the general set shrinks, by exactly the socket |
| WebsocketManager.ConnectionManager.SendMessageToPhone | utils/websocket_manager.py:39-52 | the message reaches exactly the phone's sockets that did not fail; afterwards the failing ones are disconnected, the key is gone if none remain, nothing else changes, and an unknown phone is a no-op |
| WebsocketManager.ConnectionManager.SendMessageToAll | utils/websocket_manager.py:54-66 | the message reaches exactly the general sockets that did not fail, and those that failed are removed from the general set; the per-phone registry is unchanged |
| WebsocketManager.ConnectThenDisconnect | utils/websocket_manager.py:12-31 | connecting a new socket and then disconnecting it restores the registry |
| LegacyMain.FindName | main.py:162-163 | the first contact whose name equals the profile name, and none exactly when no contact has it |
| LegacyMain.LegacyDisplayName | main.py:121-124 | the stored name of the phone's contact, even an empty one, and the profile name when the phone is unknown |
| LegacyMain.LegacyTurn | main.py:140-197 | "menu" and "hola" get the welcome with nothing changed; a message matching no keyword gets the invalid-option reply; the table changes only for option 5 with a contact of that name, and then only that contact's active flag is cleared, while option 5 with no such contact gets "not found"; option 1 gets the contact numbers, option 4 the data-treatment text with the display name, and any other option its own reply, all with the table unchanged |
| LegacyMain.CancellationKeepsTable | main.py:161-168 | a legacy turn keeps the table's length and its distinct phone numbers, and changes any row only by clearing its active flag |
| LegacyMain.LegacyTwelvePicksOptionOne | main.py:140-144 | keyword matching is by substring in table order, so "12" selects option 1 |
| LegacyMain.LegacyProcessMessage | main.py:126-197 | the handler lower-cases and strips the message and then performs exactly one legacy turn on the contact table; the keyword loop stops at the first match |
| LegacyMain.LegacySendMessageToPhone | main.py:85-100 | the legacy cleanup collects the failed sockets, discards them in one pass and deletes the key once the set is empty. It ends in the same registry state as the per-socket disconnect cleanup, and the message reaches exactly the sockets that did not fail |
| Inactivity.Tick | main1.py:23-58 | one tick changes only the two flags of a contact. An inactive contact is left alone; a contact is switched off only when it matched the close query; the warning is raised only on a contact that matched the warn query and stays active |
| Inactivity.PassesAreTicks | main1.py:31-56 | the close pass followed by the warn pass is one tick per contact, so each contact is treated independently of the others |
| Inactivity.ClosedOnlyAfterWarning | main1.py:31-43 | a conversation is closed only once "¿Estás ahí?" has been sent, and closing resets the warning; a contact warned by a tick stays active through it |
| Inactivity.RecentContactUntouched | main1.py:27-51 | a contact heard from within the last ten minutes is not changed by a tick |
| Inactivity.WarnThenClose | main1.py:23-58 | an active, unwarned contact silent for over ten minutes is warned by one tick and closed by a later tick once silent for over eleven, ending inactive with the warning reset |
| Inactivity.CheckInactiveUsers | main1.py:23-58 | the scheduled job runs the close pass and then the warn pass over the contact table, sending the goodbye and the warning to exactly the matching phones in table order |
| Inactivity.CloseInactive | main1.py:31-44 | the close loop leaves the table as the close pass does and sends the goodbye to exactly the matching phones |
| Inactivity.WarnInactive | main1.py:47-56 | the warn loop leaves the table as the warn pass does and sends "¿Estás ahí?" to exactly the matching phones |
| Inactivity.SamePhonesKeepDistinct | main1.py:37-56 | updates that keep every row's phone keep phone numbers distinct |
| Inactivity.Touched | main1.py:133-141 | a text message finds or creates the sender's row, stamps it with the current time, re-activates it and clears the warning; an unknown sender is appended and every other row is unchanged |
| Inactivity.MenuReply | main1.py:176-219 | "menu" and "hola" get the welcome; option 5 gets the cancellation; a message with no keyword gets the invalid-option reply; option 1 gets the contact numbers, option 4 the data-treatment text with the sender's name, and any other option its own reply |
| Inactivity.Deactivated | main1.py:189-191 | option 5 clears the active flag of the sender's own row and changes nothing else |
| Inactivity.WebhookTurn | main1.py:112-226 | a non-text notification changes nothing and gets no reply. A text message always gets a reply and leaves its sender stamped with the current time and unwarned, active unless the reply is the cancellation |
| Inactivity.MessageDefersFollowUp | main1.py:138-140 | a contact that has just written is not warned or closed by any tick in the next ten minutes |
| Inactivity.TouchedKeepsDistinct | main1.py:133-136 | the upsert by phone keeps phone numbers distinct |
| Inactivity.WebhookNotification | main1.py:112-226 | the webhook handler leaves the table and reply exactly as one webhook turn does |
| Inactivity.TouchSender | main1.py:133-140 | the sender's row ends as the reset turn defines it: the existing row of the phone refreshed (time, active, warning cleared), or a new row appended, with phone numbers kept distinct |

## Left out

- Network I/O: the WhatsApp Graph API calls (message and document sends, media upload, the templates listing) are not modelled. Each call is replaced by its outcome, passed in as a parameter (a success flag, the returned listing or nothing).
- FTP socket I/O: connecting, CWD, LIST, NLST, STOR, RETR, RNFR/RNTO, DELE, MKD and the temporary download are not modelled. Each becomes the reply it would produce, given as input; the server's own directory contents are not modelled.
- Concurrency: the thread pools of the batch endpoints, asyncio, the cache lock and the scheduler thread are not modelled. Batches and their items run sequentially in list order, which is one of the orders the pool may produce. Results are gathered in the same order.
- The clock: the database `now()`, `datetime.now()` and the current year are parameters; time is whole seconds, and microseconds are dropped.
- Floating point: file sizes and their human-readable formatting (`_format_file_size`), and the statistics endpoints, are not modelled.
- Authentication: JWT decoding is not modelled. A gate receives the already decoded user as its input.
- The WebSocket accept handshake and JSON frames are not modelled. A socket is an identity, and which sends raise is given as a set. The WebSocket broadcasts of the batch endpoints are not modelled.
- main.py's own `connect`, `connect_general`, `disconnect`, `disconnect_general` and `send_message_to_all` (main.py:58-113) are the same code as utils/websocket_manager.py and are modelled once, in `WebsocketManager.ConnectionManager`. Only the differing `send_message_to_phone` has its own member.
- Query-only endpoints are not modelled: the receipt and user listings, the contact lists, `get_all_whatsapp_users`, the FTP status and the files listing endpoint (routers/payments.py:217-222). The sort of `list_receipts` by date string is also out.
- Not part of this model:
  - the chat endpoint backed by Gemini and the webhook verification handshake of main1.py (main1.py:83-108);
  - `send_message_to_user`;
  - main_old.py and the old WhatsApp service module;
  - the schema and configuration scripts and the manual test scripts.
- The repository defines no ORM class for the messages table; `WhatsappModels.MessageLog` holds only the fields the webhook handler writes.
- upload_receipt_file (routers/payments.py:193-204): removing the local copy, after a failed insert or after a hosted upload, is a disk effect and is not modelled; the receipt rows are.
- delete_file_from_ftp (services/ftp_service.py:353-371, 428-433) is a parameter returning a boolean. Its error_perm branch never runs: ftp_connection (services/ftp_service.py:63-91) turns every exception raised inside its `with` block, a 550 reply included, into ConnectionError, which delete_file maps to False.
- Set iteration order: a WebSocket set is iterated in an order Python leaves unspecified. The model quantifies over every order, and its results are order-independent.
- SQL NULL: a NULL `last_interaction` is not modelled (every row carries a time), and neither is the distinction between a None and an empty cedula in the dialogue data.
- Text.Lower: models `str.lower()` for ASCII and Latin-1 upper-case letters only; other Unicode case mappings are not modelled.
- Text.IsDigit: the digit test is ASCII 0-9 only, while Python's `\d`, `isdigit()` and `int()` also accept other Unicode decimal digits. This affects `ValidateCedulaFormat`, the date pattern (`MatchDateGroups`, services/validation_service.py:44), the all-digits check of find_files_by_cedula (services/ftp_service.py:224), the extractor's `\d+` (routers/receipts.py:756), and the LIST size field (services/ftp_service.py:510): there '²' passes `isdigit()` but `int()` raises and the entry is skipped, while the model keeps the entry with size 0. `ParseInt` also refuses underscores that `int()` accepts, such as "1_0" (routers/payments.py:161).
- Row order: the tables are sequences in insertion order, and `.first()` and `.all()` are modelled as reading them in that order. The queries have no ORDER BY, so SQL does not guarantee that order; which of several matching rows `.first()` returns is not captured.
- Inactivity.Tick: the two queries compare against `now - 10 min` and `now - 11 min` in whole seconds; SQL time zones are not modelled.

The model follows the code, and reproduces these behaviours as written:
- `validate_cedula_format` accepts "abc123" because it strips non-digits first (`ValidationService.ValidateCedulaFormat`).
- The bot stores the lowered and stripped message, not the digit-only cedula, in the dialogue data (`BotService.ConverseCedula`).
- Menu option 2 enters the cedula dialogue without clearing earlier dialogue data (`BotService.MenuTurn`).
- Keyword matching is by substring, so "12" selects option 1 (`BotService.TwelvePicksOptionOne`, `LegacyMain.LegacyTwelvePicksOptionOne`).
- The file-name extractor's date filter checks the day against 31 for every month (`ReceiptsRouter.February31LooksLikeDate`). Only the date format validator is calendar-exact.
- The cancel words are the Spanish and English list in the code: 'cancelar', 'cancel', 'menu', 'menú', 'volver', 'atras', 'atrás', 'salir', '0'.
- The legacy option 5 switches off the first contact whose name equals the sender's profile name, not the sender's row (`LegacyMain.LegacyTurn`). The legacy display name is the stored name even when that is empty (`LegacyMain.LegacyDisplayName`).
- Folder inference looks for "/recientes/" in the stored path, so a relative local path "recientes/NAME" is read as "anteriores" (`PaymentsRouter.RelativePathReadsAsAnteriores`).

## Findings

| source | as written | input that shows it | evidently intended | confidence | as-written member | corrected member |
|---|---|---|---|---|---|---|
| routers/payments.py:158-174 | the scan of existing files reuses `file` as its loop variable, so after the loop `file` is the last listed ".pdf" name, a string. `shutil.copyfileobj(file.file, …)` then raises AttributeError, which the handler turns into a 500 "Error al guardar archivo", after `open(file_path, "wb")` has already created an empty file. | an upload when static/receipts/recientes already holds "0001_123.pdf" | scan with another variable name, so that the upload's body is copied | not executed | PaymentsRouter.UploadReceiptFile, PaymentsRouter.ListedPdfBreaksSave | PaymentsRouter.UploadReceiptFileChecked |
| routers/payments.py:182-191 | upload_receipt_file hands create_receipt the public URL or the remote FTP path as `file_path`. create_receipt refuses any `file_path` for which `os.path.exists` is false (services/receipt_service.py:401-402), and a URL or remote path is not a local file, so every upload that reached the hosting is refused. | FTP configured with a public base URL: the upload returns "https://host/comprobantes/recientes/0001_123.pdf", which does not exist on local disk, and the endpoint answers 400 | check the existence of the local copy that was just saved, then record the stored path | not executed | PaymentsRouter.UploadReceiptFile, PaymentsRouter.FtpUploadIsRefused | PaymentsRouter.UploadReceiptFileChecked |

=== FILE: bot_service.dfy ===
/**
 * The chatbot: the keyword menu an idle contact sees, and the receipt
 * dialogue (cedula, then expedition date, then the choice between the
 * current and the previous fortnight) driven by the conversation state kept
 * on the contact's row. The outcome of sending the reply is not observed by
 * the bot, so a turn is its new row and the reply it chose.
 */
module BotService {
  import opened Wrappers
  import opened Text
  import opened PaymentModels
  import opened ValidationService
  import opened FtpService
  import opened ReceiptService
  import opened WhatsappModels
  import opened WhatsappUsers

  /** The reply of one turn; each case stands for one fixed text of the bot. */
  datatype Reply =
    | Welcome
    | ContactLines
    | ReceiptInit
    | Mood(displayName: string)
    | Complaint(displayName: string)
    | DataTreatment(displayName: string)
    | SubscriptionCancelled
    | OptionPending(option: nat)
    | CedulaRejected(reason: ValidationError)
    | CedulaUnknown(cedula: string)
    | AskDate(employeeName: string)
    | DateRejected(reason: ValidationError)
    | IdentityRejected(reason: ValidationError)
    | ProcessError
    | OptionsSent                          // the empty reply: the buttons already went out
    | ReceiptSearchFailed(failure: ReceiptError)
    | NoCurrentReceipt
    | NoPreviousReceipt
    | ReceiptSent
    | ReceiptNotSent(failure: ReceiptError)
    | SelectionPrompt

  /** The replies only the idle menu gives. */
  predicate MenuReply(r: Reply)
  {
    r.ContactLines? || r.ReceiptInit? || r.Mood? || r.Complaint? || r.DataTreatment?
    || r.SubscriptionCancelled? || r.OptionPending?
  }

  /**
   * Everything a turn may consult besides the contact row: the payment
   * registry, the current year, FTP_BASE_DIR and one FTP session per folder,
   * what download_to_temp returns and whether the document send succeeds.
   */
  datatype BotEnv = BotEnv(
    users: seq<PaymentUser>,
    currentYear: int,
    ftpBase: string,
    ftp: string -> FtpSession,
    download: Option<string>,
    documentSent: bool)

  /** Messages that, alone, abandon the dialogue. */
  const CancelWords: seq<string> := ["cancelar", "cancel", "menu", "menú", "volver", "atras", "atrás", "salir", "0"]

  /** The menu keywords and their options, in the order they are tried. */
  const OptionTable: seq<(string, nat)> := [
    ("1", 1), ("contacto", 1),
    ("2", 2), ("pago", 2), ("comprobante", 2),
    ("3", 3), ("animo", 3), ("ánimo", 3),
    ("4", 4), ("queja", 4), ("denuncia", 4),
    ("5", 5), ("datos", 5),
    ("6", 6), ("suscripcion", 6), ("suscripción", 6)]

  /** message.lower().strip(). */
  function Normalise(message: string): string
  {
    Strip(Lower(message))
  }

  /** The option of the first keyword of `table` that occurs in `message`. */
  function FirstHit(table: seq<(string, nat)>, message: string): Option<nat>
  {
    if table == [] then None
    else if Contains(message, table[0].0) then Some(table[0].1)
    else FirstHit(table[1..], message)
  }

  /** FirstHit picks the earliest keyword that occurs; None means no keyword occurs. */
  lemma {:induction false} FirstHitIsFirstMatch(table: seq<(string, nat)>, message: string)
    ensures FirstHit(table, message).None? <==> forall k :: 0 <= k < |table| ==> !Contains(message, table[k].0)
    ensures FirstHit(table, message).Some? ==>
      exists k :: (0 <= k < |table| && Contains(message, table[k].0) && table[k].1 == FirstHit(table, message).value
                   && forall j :: 0 <= j < k ==> !Contains(message, table[j].0))
  {
    if table != [] && !Contains(message, table[0].0) {
      FirstHitIsFirstMatch(table[1..], message);
      assert forall k :: 1 <= k < |table| ==> table[k] == table[1..][k - 1];
      if FirstHit(table, message).Some? {
        var k :| 0 <= k < |table[1..]| && Contains(message, table[1..][k].0)
          && table[1..][k].1 == FirstHit(table, message).value && forall j :: 0 <= j < k ==> !Contains(message, table[1..][j].0);
        assert table[k + 1] == table[1..][k];
      }
    }
  }

  /** The option lookup of process_message: a loop that stops at the first keyword found. */
  method ChooseOption(table: seq<(string, nat)>, message: string) returns (option: Option<nat>)
    ensures option == FirstHit(table, message)
  {
    var i := 0;
    while i < |table|
      invariant 0 <= i <= |table|
      invariant FirstHit(table[i..], message) == FirstHit(table, message)
    {
      assert table[i..][1..] == table[i + 1..];
      if Contains(message, table[i].0) {
        return Some(table[i].1);
      }
      i := i + 1;
    }
    return None;
  }

  /** Substring matching: "12" picks option 1, because "1" comes first in the table. */
  lemma TwelvePicksOptionOne()
    ensures FirstHit(OptionTable, "12") == Some(1)
  {
    assert StartsWith("12", "1");
  }

  // ---------------------------------------------------------------------
  // _handle_receipt_conversation

  /** The state, data and reply after one turn of the dialogue. */
  datatype Turn = Turn(state: ConvState, data: Option<ConvData>, reply: Reply)

  /** conversation_data.get("cedula"), with missing data read as {}. */
  function CedulaOf(data: Option<ConvData>): Option<string>
  {
    if data.Some? then data.value.cedula else None
  }

  /** Python truthiness of the stored cedula. */
  predicate HasCedula(data: Option<ConvData>)
  {
    CedulaOf(data).Some? && CedulaOf(data).value != ""
  }

  /** waiting_cedula: the message is the cedula. */
  function ConverseCedula(data: Option<ConvData>, message: string, env: BotEnv): (t: Turn)
    ensures ValidateCedulaFormat(message).Err? ==> t.state == WaitingCedula && t.data == data
    ensures ValidateCedulaFormat(message).Ok? && IsCedulaRegistered(env.users, message).Err?
      ==> t == Turn(WaitingCedula, None, CedulaUnknown(message))
    ensures t.state == WaitingDate
      <==> ValidateCedulaFormat(message).Ok?
           && exists k :: 0 <= k < |env.users| && env.users[k].isActive && env.users[k].cedula == message
    ensures t.state == WaitingDate ==> t.data == Some(ConvData(Some(message), false))
    ensures t.state == WaitingCedula || t.state == WaitingDate
    ensures !MenuReply(t.reply)
  {
    match ValidateCedulaFormat(message)
    case Err(e) => Turn(WaitingCedula, data, CedulaRejected(e))
    case Ok(_) =>
      match IsCedulaRegistered(env.users, message)
      case Err(_) => Turn(WaitingCedula, None, CedulaUnknown(message))
      case Ok(u) => Turn(WaitingDate, Some(ConvData(Some(message), false)), AskDate(u.name))
  }

  /** waiting_date: the message is the expedition date; the search runs only for a validated identity. */
  function ConverseDate(data: Option<ConvData>, message: string, env: BotEnv): (t: Turn)
    ensures ValidateDateFormat(message, env.currentYear).Err? ==> t.state == WaitingDate && t.data == data
    ensures ValidateDateFormat(message, env.currentYear).Ok?
      && ValidateUserData(env.users, CedulaOf(data), ValidateDateFormat(message, env.currentYear).value).Err?
      ==> t.state == WaitingDate && t.data == data
    ensures ValidateDateFormat(message, env.currentYear).Ok?
      && ValidateUserData(env.users, CedulaOf(data), ValidateDateFormat(message, env.currentYear).value).Ok?
      && !HasCedula(data)
      ==> t == Turn(Idle, None, ProcessError)
    ensures ValidateDateFormat(message, env.currentYear).Ok?
      && ValidateUserData(env.users, CedulaOf(data), ValidateDateFormat(message, env.currentYear).value).Ok?
      && HasCedula(data)
      && SearchOutcome(CedulaOf(data).value, message, env.currentYear, env.ftpBase, env.ftp).Err?
      ==> t == Turn(Idle, None, ReceiptSearchFailed(SearchOutcome(CedulaOf(data).value, message, env.currentYear, env.ftpBase, env.ftp).error))
    ensures t.state == WaitingDate || t.state == WaitingReceiptSelection || (t.state == Idle && t.data == None)
    ensures !MenuReply(t.reply)
  {
    match ValidateDateFormat(message, env.currentYear)
    case Err(e) => Turn(WaitingDate, data, DateRejected(e))
    case Ok(date) =>
      match ValidateUserData(env.users, CedulaOf(data), date)
      case Err(e) => Turn(WaitingDate, data, IdentityRejected(e))
      case Ok(_) =>
        if !HasCedula(data) then Turn(Idle, None, ProcessError)
        else
          match SearchOutcome(CedulaOf(data).value, message, env.currentYear, env.ftpBase, env.ftp)
          case Ok(_) => Turn(WaitingReceiptSelection, Some(ConvData(CedulaOf(data), true)), OptionsSent)
          case Err(e) => Turn(Idle, None, ReceiptSearchFailed(e))
  }

  /**
   * The dialogue moves on to the receipt choice exactly when the date and the
   * identity validate, a cedula is stored and the search finds receipts; it
   * then remembers that receipts were found and sends no text reply.
   */
  lemma ConverseDateAdvances(data: Option<ConvData>, message: string, env: BotEnv)
    ensures var t := ConverseDate(data, message, env);
      t.state == WaitingReceiptSelection
      <==> ValidateDateFormat(message, env.currentYear).Ok?
           && ValidateUserData(env.users, CedulaOf(data), ValidateDateFormat(message, env.currentYear).value).Ok?
           && HasCedula(data)
           && SearchOutcome(CedulaOf(data).value, message, env.currentYear, env.ftpBase, env.ftp).Ok?
    ensures var t := ConverseDate(data, message, env);
      t.state == WaitingReceiptSelection ==> t.data == Some(ConvData(CedulaOf(data), true)) && t.reply == OptionsSent
  {
  }

  /** The folder a button answer selects: '2' the current fortnight, '1' the previous one. */
  function SelectedFolder(message: string): string
  {
    if message == "2" then Recientes else Anteriores
  }

  /** waiting_receipt_selection: only '1' and '2' are answers; every answer ends the dialogue. */
  function ConverseSelection(data: Option<ConvData>, message: string, phone: string, env: BotEnv): (t: Turn)
    ensures message != "1" && message != "2" ==> t == Turn(WaitingReceiptSelection, data, SelectionPrompt)
    ensures message == "1" || message == "2" ==> t.state == Idle && t.data == None
    ensures t.reply == ReceiptSent
      <==> (message == "1" || message == "2") && HasCedula(data)
           && GetReceiptsByFolder(env.ftpBase, CedulaOf(data).value, SelectedFolder(message), env.ftp(SelectedFolder(message))).Ok?
           && env.download.Some? && env.download.value != "" && env.documentSent
    ensures t.reply == NoCurrentReceipt
      <==> message == "2" && HasCedula(data)
           && GetReceiptsByFolder(env.ftpBase, CedulaOf(data).value, Recientes, env.ftp(Recientes)).Err?
    ensures t.reply == NoPreviousReceipt
      <==> message == "1" && HasCedula(data)
           && GetReceiptsByFolder(env.ftpBase, CedulaOf(data).value, Anteriores, env.ftp(Anteriores)).Err?
    ensures !MenuReply(t.reply)
  {
    if message == "1" || message == "2" then
      if !HasCedula(data) then Turn(Idle, None, ProcessError)
      else
        var folder := SelectedFolder(message);
        match GetReceiptsByFolder(env.ftpBase, CedulaOf(data).value, folder, env.ftp(folder))
        case Err(_) => Turn(Idle, None, if message == "2" then NoCurrentReceipt else NoPreviousReceipt)
        case Ok(info) =>
          var (outcome, _) := SendReceiptFromData(info, phone, env.download, env.documentSent);
          Turn(Idle, None, if outcome.Ok? then ReceiptSent else ReceiptNotSent(outcome.error))
    else Turn(WaitingReceiptSelection, data, SelectionPrompt)
  }

  /**
   * The failure replies of a button answer: a missing cedula is a process
   * error; once the folder's receipt is found, an empty download and a
   * refused send are reported as such.
   */
  lemma ConverseSelectionFailures(data: Option<ConvData>, message: string, phone: string, env: BotEnv)
    ensures ConverseSelection(data, message, phone, env).reply == ProcessError
      <==> (message == "1" || message == "2") && !HasCedula(data)
    ensures ConverseSelection(data, message, phone, env).reply == ReceiptNotSent(DownloadFailed)
      <==> (message == "1" || message == "2") && HasCedula(data)
           && GetReceiptsByFolder(env.ftpBase, CedulaOf(data).value, SelectedFolder(message), env.ftp(SelectedFolder(message))).Ok?
           && (env.download.None? || env.download.value == "")
    ensures ConverseSelection(data, message, phone, env).reply == ReceiptNotSent(SendFailed)
      <==> (message == "1" || message == "2") && HasCedula(data)
           && GetReceiptsByFolder(env.ftpBase, CedulaOf(data).value, SelectedFolder(message), env.ftp(SelectedFolder(message))).Ok?
           && env.download.Some? && env.download.value != "" && !env.documentSent
  {
  }

  /**
   * _handle_receipt_conversation. A cancel word resets before any state is
   * looked at; an unknown state resets too. Each turn stays, resets, or moves
   * one step forward, and every reset clears the data.
   */
  function Converse(state: ConvState, data: Option<ConvData>, message: string, phone: string, env: BotEnv): (t: Turn)
    ensures Normalise(message) in CancelWords ==> t == Turn(Idle, None, Welcome)
    ensures t.state == Idle ==> t.data == None
    ensures t.state == state || t.state == Idle
            || (state == WaitingCedula && t.state == WaitingDate)
            || (state == WaitingDate && t.state == WaitingReceiptSelection)
    ensures !MenuReply(t.reply)
  {
    if Normalise(message) in CancelWords then Turn(Idle, None, Welcome)
    else
      match state
      case WaitingCedula => ConverseCedula(data, message, env)
      case WaitingDate => ConverseDate(data, message, env)
      case WaitingReceiptSelection => ConverseSelection(data, message, phone, env)
      case _ => Turn(Idle, None, ProcessError)
  }

  // ---------------------------------------------------------------------
  // process_message

  /** get_display_name: the stored name when there is one, else the WhatsApp profile name. */
  function DisplayName(row: Contact, userName: string): string
  {
    if row.name != "" then row.name else userName
  }

  /** The idle menu: option 2 starts the dialogue, option 6 unsubscribes, no keyword shows the menu. */
  function MenuTurn(row: Contact, option: Option<nat>, displayName: string): (r: (Contact, Reply))
    requires row.state == Idle
    ensures option.None? ==> r == (row, Welcome)
    ensures r.0 == row.(state := r.0.state, isActive := r.0.isActive)
    ensures r.0.state == (if option == Some(2) then WaitingCedula else Idle)
    ensures r.0.isActive == (row.isActive && option != Some(6))
  {
    match option
    case None => (row, Welcome)
    case Some(n) =>
      if n == 6 then (row.(isActive := false), SubscriptionCancelled)
      else if n == 1 then (row, ContactLines)
      else if n == 2 then (row.(state := WaitingCedula), ReceiptInit)
      else if n == 4 then (row, Complaint(displayName))
      else if n == 5 then (row, DataTreatment(displayName))
      else if n == 3 then (row, Mood(displayName))
      else (row, OptionPending(n))
  }

  /**
   * One turn on the contact's row, with the message already normalised: a
   * contact in the dialogue never reaches the menu, an idle one always does.
   */
  function BotTurn(row: Contact, message: string, userName: string, phone: string, env: BotEnv): (r: (Contact, Reply))
    ensures r.0.phone == row.phone && r.0.name == row.name && r.0.lastInteraction == row.lastInteraction
    ensures r.0.warningSent == row.warningSent
    ensures row.state != Idle ==> r.0.isActive == row.isActive && !MenuReply(r.1)
    ensures row.state == Idle ==> r.0.data == row.data
  {
    if row.state != Idle then
      var t := Converse(row.state, row.data, message, phone, env);
      (row.(state := t.state, data := t.data), t.reply)
    else
      MenuTurn(row, FirstHit(OptionTable, message), DisplayName(row, userName))
  }

  /**
   * From any dialogue state, known or not, a message that normalises to a
   * cancel word leaves the contact idle with no data and shows the menu:
   * process_message has already normalised it, and normalising again changes nothing.
   */
  lemma CancelResetsFromAnyState(row: Contact, rawMessage: string, userName: string, phone: string, env: BotEnv)
    requires row.state != Idle
    requires Normalise(rawMessage) in CancelWords
    ensures BotTurn(row, Normalise(rawMessage), userName, phone, env) == (row.(state := Idle, data := None), Welcome)
  {
    LowerStripIdempotent(rawMessage);
  }

  /** Idle rows carry no conversation data before a turn, and still do after it. */
  lemma IdleRowsCarryNoData(row: Contact, message: string, userName: string, phone: string, env: BotEnv)
    requires row.state == Idle ==> row.data == None
    ensures var r := BotTurn(row, message, userName, phone, env).0; r.state == Idle ==> r.data == None
  {
  }

  /** The menu branch of process_message, with its option loop. */
  method MenuStep(user: Contact, message: string, userName: string) returns (updated: Contact, reply: Reply)
    requires user.state == Idle
    ensures (updated, reply) == MenuTurn(user, FirstHit(OptionTable, message), DisplayName(user, userName))
  {
    var option := ChooseOption(OptionTable, message);
    var displayName := DisplayName(user, userName);
    updated, reply := user, Welcome;
    if option.Some? {
      var n := option.value;
      if n == 6 {
        updated, reply := user.(isActive := false), SubscriptionCancelled;
      } else if n == 1 {
        reply := ContactLines;
      } else if n == 2 {
        updated, reply := user.(state := WaitingCedula), ReceiptInit;
      } else if n == 4 {
        reply := Complaint(displayName);
      } else if n == 5 {
        reply := DataTreatment(displayName);
      } else if n == 3 {
        reply := Mood(displayName);
      } else {
        reply := OptionPending(n);
      }
    }
  }

  /** process_message: upsert the contact, then one turn on its row. */
  method ProcessMessage(table: ContactTable, rawMessage: string, userName: string, phone: string, now: int, env: BotEnv)
    returns (reply: Reply)
    requires table.Valid()
    modifies table
    ensures table.Valid()
    ensures var rows := Upsert(old(table.rows), phone, userName, now);
      FindPhone(rows, phone).Some?
      && var k := FindPhone(rows, phone).value;
      var turn := BotTurn(rows[k], Normalise(rawMessage), userName, phone, env);
      table.rows == rows[k := turn.0] && reply == turn.1
  {
    var message := Normalise(rawMessage);
    var user := CreateOrUpdateWhatsappUser(table, phone, userName, now);
    var k := FindPhone(table.rows, phone).value;
    var updated: Contact;
    if user.state != Idle {
      var t := Converse(user.state, user.data, message, phone, env);
      updated, reply := user.(state := t.state, data := t.data), t.reply;
    } else {
      updated, reply := MenuStep(user, message, userName);
    }
    assert (updated, reply) == BotTurn(user, message, userName, phone, env);
    SamePhoneKeepsDistinct(table.rows, k, updated);
    table.rows := table.rows[k := updated];
  }

  lemma SamePhoneKeepsDistinct(rows: seq<Contact>, k: nat, c: Contact)
    requires DistinctPhones(rows) && k < |rows| && c.phone == rows[k].phone
    ensures DistinctPhones(rows[k := c])
  {
  }

  // ---------------------------------------------------------------------
  // handle_webhook_message

  /** The fields of an inbound webhook message the handler reads; absent keys are None. */
  datatype Inbound = Inbound(
    id: string,
    sender: string,
    kind: string,
    textBody: Option<string>,
    interactiveKind: Option<string>,
    buttonId: Option<string>)

  /** The text of a message: the body of a text, the id of a pressed reply button, otherwise "". */
  function ExtractText(m: Inbound): (t: string)
    ensures m.kind == "text" ==> t == m.textBody.GetOr("")
    ensures m.kind == "interactive" && m.interactiveKind == Some("button_reply") ==> t == m.buttonId.GetOr("")
    ensures m.kind != "text" && !(m.kind == "interactive" && m.interactiveKind == Some("button_reply")) ==> t == ""
  {
    if m.kind == "text" then m.textBody.GetOr("")
    else if m.kind == "interactive" && m.interactiveKind == Some("button_reply") then m.buttonId.GetOr("")
    else ""
  }

  /** handle_webhook_message: stores the user's message iff it has text. */
  method HandleWebhookMessage(log: MessageLog, m: Inbound) returns (success: bool, text: string)
    modifies log
    ensures text == ExtractText(m)
    ensures success <==> text != ""
    ensures success ==> log.rows == old(log.rows) + [MessageRow(m.id, m.sender, text, "user")]
    ensures !success ==> log.rows == old(log.rows)
  {
    text := ExtractText(m);
    if text == "" {
      return false, text;
    }
    log.rows := log.rows + [MessageRow(m.id, m.sender, text, "user")];
    return true, text;
  }
}

=== FILE: calendar.dfy ===
/**
 * The proleptic Gregorian calendar as Python's datetime module uses it:
 * leap years, month lengths, day numbers (date.toordinal() - 1) and
 * timestamps in whole seconds.
 */
module Calendar {
  predicate IsLeap(y: int)
  {
    y % 4 == 0 && (y % 100 != 0 || y % 400 == 0)
  }

  function DaysInMonth(y: int, m: int): (d: int)
    requires 1 <= m <= 12
    ensures 28 <= d <= 31
    ensures d == 29 <==> m == 2 && IsLeap(y)
  {
    if m == 2 then (if IsLeap(y) then 29 else 28)
    else if m == 4 || m == 6 || m == 9 || m == 11 then 30
    else 31
  }

  datatype Date = Date(year: int, month: int, day: int)

  /** What `datetime(year, month, day)` accepts without raising ValueError. */
  predicate ValidDate(d: Date)
  {
    1 <= d.year <= 9999 && 1 <= d.month <= 12 && 1 <= d.day <= DaysInMonth(d.year, d.month)
  }

  function DaysBeforeYear(y: int): int
    requires y >= 1
  {
    365 * (y - 1) + (y - 1) / 4 - (y - 1) / 100 + (y - 1) / 400
  }

  /** Days in the months of year `y` before month `m`. */
  function DaysBeforeMonth(y: int, m: int): int
    requires 1 <= m <= 13
  {
    if m == 1 then 0 else DaysBeforeMonth(y, m - 1) + DaysInMonth(y, m - 1)
  }

  /** Days elapsed since 1 January of year 1. */
  function DayNumber(d: Date): int
    requires ValidDate(d)
  {
    DaysBeforeYear(d.year) + DaysBeforeMonth(d.year, d.month) + d.day - 1
  }

  /** The calendar day after `d`. */
  function NextDay(d: Date): (n: Date)
    requires ValidDate(d) && d.year < 9999
    ensures ValidDate(n)
  {
    if d.day < DaysInMonth(d.year, d.month) then Date(d.year, d.month, d.day + 1)
    else if d.month < 12 then Date(d.year, d.month + 1, 1)
    else Date(d.year + 1, 1, 1)
  }

  lemma DaysInYear(y: int)
    ensures DaysBeforeMonth(y, 13) == if IsLeap(y) then 366 else 365
  {
    var feb := if IsLeap(y) then 29 else 28;
    assert DaysBeforeMonth(y, 2) == 31;
    assert DaysBeforeMonth(y, 3) == 31 + feb;
    assert DaysBeforeMonth(y, 4) == 62 + feb;
    assert DaysBeforeMonth(y, 5) == 92 + feb;
    assert DaysBeforeMonth(y, 6) == 123 + feb;
    assert DaysBeforeMonth(y, 7) == 153 + feb;
    assert DaysBeforeMonth(y, 8) == 184 + feb;
    assert DaysBeforeMonth(y, 9) == 215 + feb;
    assert DaysBeforeMonth(y, 10) == 245 + feb;
    assert DaysBeforeMonth(y, 11) == 276 + feb;
    assert DaysBeforeMonth(y, 12) == 306 + feb;
  }

  lemma NextYearStart(y: int)
    requires y >= 1
    ensures DaysBeforeYear(y + 1) == DaysBeforeYear(y) + if IsLeap(y) then 366 else 365
  {
    var a := y - 1;
    QuotientStep(a, 4);
    QuotientStep(a, 100);
    QuotientStep(a, 400);
  }

  /** Going from a to a + 1 raises a / d by one exactly when d divides a + 1. */
  lemma QuotientStep(a: nat, d: int)
    requires d == 4 || d == 100 || d == 400
    ensures (a + 1) / d == a / d + (if (a + 1) % d == 0 then 1 else 0)
  {
    if d == 4 {
      assert (a + 1) / 4 == a / 4 + (if (a + 1) % 4 == 0 then 1 else 0);
    } else if d == 100 {
      assert (a + 1) / 100 == a / 100 + (if (a + 1) % 100 == 0 then 1 else 0);
    } else {
      assert (a + 1) / 400 == a / 400 + (if (a + 1) % 400 == 0 then 1 else 0);
    }
  }

  /** Consecutive calendar days have consecutive day numbers. */
  lemma NextDayNumber(d: Date)
    requires ValidDate(d) && d.year < 9999
    ensures DayNumber(NextDay(d)) == DayNumber(d) + 1
  {
    if d.day == DaysInMonth(d.year, d.month) && d.month == 12 {
      DaysInYear(d.year);
      NextYearStart(d.year);
    }
  }

  /** A moment with whole-second resolution. */
  datatype DateTime = DateTime(date: Date, hour: int, minute: int, second: int)

  /** What `datetime(...)` accepts without raising ValueError. */
  predicate ValidDateTime(t: DateTime)
  {
    ValidDate(t.date) && 0 <= t.hour < 24 && 0 <= t.minute < 60 && 0 <= t.second < 60
  }

  function Midnight(d: Date): DateTime
  {
    DateTime(d, 0, 0, 0)
  }

  /** Seconds elapsed since the start of year 1. */
  function Seconds(t: DateTime): int
    requires ValidDateTime(t)
  {
    DayNumber(t.date) * 86400 + t.hour * 3600 + t.minute * 60 + t.second
  }

  /** Python's `a > b` on naive datetimes: field by field, most significant first. */
  predicate Later(a: DateTime, b: DateTime)
  {
    var x := [a.date.year, a.date.month, a.date.day, a.hour, a.minute, a.second];
    var y := [b.date.year, b.date.month, b.date.day, b.hour, b.minute, b.second];
    LexGreater(x, y)
  }

  predicate LexGreater(x: seq<int>, y: seq<int>)
    requires |x| == |y|
  {
    |x| > 0 && (x[0] > y[0] || (x[0] == y[0] && LexGreater(x[1..], y[1..])))
  }
}

=== FILE: ftp_service.dfy ===
/**
 * The FTP side of receipt storage: remote path building, directory creation,
 * the search for a cedula's PDF files, listing with metadata and its
 * five-minute cache, and the path bookkeeping of uploads and moves.
 *
 * The server is not modelled; each exchange with it is an input: whether the
 * connection and login succeed, the reply to each MKD, the reply to each
 * NLST, the lines of a LIST, whether STOR/SIZE/RENAME succeed.
 */
module FtpService {
  import opened Wrappers
  import opened Text
  import opened Calendar
  import opened Sorting

  /** CACHE_DURATION_MINUTES, in seconds. */
  const CacheDurationSeconds: int := 5 * 60

  /** _build_remote_path; `base` is FTP_BASE_DIR with "" standing for unset. */
  function BuildRemotePath(base: string, subdir: string): string
  {
    if base != "" then StripTrailing(base, '/') + "/" + StripChar(subdir, '/')
    else StripChar(subdir, '/')
  }

  /** A bare file name as the listing helpers return it. */
  predicate PlainName(n: string)
  {
    n != "" && '/' !in n && n != "." && n != ".."
  }

  lemma BasenameOfFile(f: string)
    requires f != "" && !EndsWith(f, "/")
    ensures Basename(f) != ""
  {
    if '/' in f {
      var i := LastIndexOf(f, '/');
      assert f[|f| - 1] != '/' by { assert f[|f| - 1..] == [f[|f| - 1]]; }
      assert i < |f| - 1;
    }
  }

  /** The test _filter_valid_files applies to one NLST entry. */
  predicate Listable(f: string)
  {
    f != "" && !EndsWith(f, "/") && f != "." && f != ".." && Basename(f) != "." && Basename(f) != ".."
  }

  /** What _filter_valid_files returns: the base names of the listable entries, in order. */
  function ValidFileNames(files: seq<string>): (names: seq<string>)
    ensures |names| <= |files|
    ensures forall k :: 0 <= k < |names| ==> PlainName(names[k])
  {
    if files == [] then []
    else
      var last := files[|files| - 1];
      var rest := ValidFileNames(files[..|files| - 1]);
      if Listable(last) then
        BasenameOfFile(last);
        rest + [Basename(last)]
      else rest
  }

  /** _filter_valid_files. */
  method FilterValidFiles(files: seq<string>) returns (result: seq<string>)
    ensures result == ValidFileNames(files)
    ensures forall k :: 0 <= k < |result| ==> PlainName(result[k])
  {
    result := [];
    var i := 0;
    while i < |files|
      invariant 0 <= i <= |files|
      invariant result == ValidFileNames(files[..i])
    {
      var f := files[i];
      assert files[..i + 1][..i] == files[..i];
      if f != "" && !EndsWith(f, "/") && f != "." && f != ".." {
        var filename := Basename(f);
        if filename != "." && filename != ".." {
          result := result + [filename];
        }
      }
      i := i + 1;
    }
    assert files[..i] == files;
  }

  // ---------------------------------------------------------------------
  // _ensure_dirs

  /** The server's reply to one MKD. */
  datatype MkdReply = MkdOk | MkdPermError(message: string) | MkdFailure

  /** A 550 reply ("already exists") is ignored; any other failure aborts. */
  predicate MkdTolerated(r: MkdReply)
  {
    r.MkdOk? || (r.MkdPermError? && StartsWith(r.message, "550"))
  }

  /** The non-empty components of a '/'-separated path. */
  function DirParts(path: string): (parts: seq<string>)
    ensures forall k :: 0 <= k < |parts| ==> parts[k] != ""
  {
    NonEmpty(Split(path, '/'))
  }

  function NonEmpty(pieces: seq<string>): (r: seq<string>)
    ensures forall k :: 0 <= k < |r| ==> r[k] != ""
  {
    if pieces == [] then []
    else (if pieces[0] != "" then [pieces[0]] else []) + NonEmpty(pieces[1..])
  }

  /** "/p0/p1/.../p(n-1)". */
  function AbsolutePath(parts: seq<string>): string
  {
    if parts == [] then "" else AbsolutePath(parts[..|parts| - 1]) + "/" + parts[|parts| - 1]
  }

  /** The cumulative paths of some components, outermost first: "/a", "/a/b", ... */
  function PrefixesOf(parts: seq<string>): (ps: seq<string>)
    ensures |ps| == |parts|
  {
    seq(|parts|, i requires 0 <= i < |parts| => AbsolutePath(parts[..i + 1]))
  }

  /** The directories _ensure_dirs creates, outermost first. */
  function DirPrefixes(path: string): (ps: seq<string>)
    ensures |ps| == |DirParts(path)|
  {
    PrefixesOf(DirParts(path))
  }

  /** _ensure_dirs raises exactly when some MKD fails with something other than 550. */
  predicate EnsureDirsOk(path: string, mkd: string -> MkdReply)
  {
    forall k :: 0 <= k < |DirPrefixes(path)| ==> MkdTolerated(mkd(DirPrefixes(path)[k]))
  }

  /**
   * _ensure_dirs: issues MKD for each prefix in order and stops at the first
   * failure that is not a 550.
   */
  method EnsureDirs(path: string, mkd: string -> MkdReply) returns (issued: seq<string>, ok: bool)
    ensures ok <==> EnsureDirsOk(path, mkd)
    ensures ok ==> issued == DirPrefixes(path)
    ensures !ok ==> 0 < |issued| <= |DirPrefixes(path)| && issued == DirPrefixes(path)[..|issued|]
    ensures !ok ==> !MkdTolerated(mkd(issued[|issued| - 1]))
    ensures !ok ==> forall k :: 0 <= k < |issued| - 1 ==> MkdTolerated(mkd(issued[k]))
  {
    var parts := DirParts(path);
    issued, ok := MkdEach(parts, mkd);
    assert DirPrefixes(path) == PrefixesOf(parts);
  }

  /** The loop of _ensure_dirs over the components, building the path as it goes. */
  method MkdEach(parts: seq<string>, mkd: string -> MkdReply) returns (issued: seq<string>, ok: bool)
    ensures ok <==> forall k :: 0 <= k < |parts| ==> MkdTolerated(mkd(PrefixesOf(parts)[k]))
    ensures ok ==> issued == PrefixesOf(parts)
    ensures !ok ==> 0 < |issued| <= |parts| && issued == PrefixesOf(parts)[..|issued|]
    ensures !ok ==> !MkdTolerated(mkd(issued[|issued| - 1]))
    ensures !ok ==> forall k :: 0 <= k < |issued| - 1 ==> MkdTolerated(mkd(issued[k]))
  {
    ghost var prefixes := PrefixesOf(parts);
    var current := "";
    issued := [];
    var i := 0;
    while i < |parts|
      invariant 0 <= i <= |parts|
      invariant current == AbsolutePath(parts[..i])
      invariant issued == prefixes[..i]
      invariant forall k :: 0 <= k < i ==> MkdTolerated(mkd(prefixes[k]))
    {
      assert parts[..i + 1][..i] == parts[..i];
      assert AbsolutePath(parts[..i + 1]) == AbsolutePath(parts[..i]) + "/" + parts[i];
      current := current + "/" + parts[i];
      issued := issued + [current];
      assert prefixes[i] == current;
      assert issued == prefixes[..i + 1];
      var reply := mkd(current);
      if !MkdTolerated(reply) {
        ok := false;
        return;
      }
      i := i + 1;
    }
    assert prefixes[..i] == prefixes;
    ok := true;
  }

  // ---------------------------------------------------------------------
  // find_files_by_cedula (names only)

  /** The server's reply to one NLST. */
  datatype NlstReply = Listed(names: seq<string>) | NlstPermError(message: string) | NlstFailure

  /** How one FTP connection goes, as far as the callers can observe it. */
  datatype FtpSession = FtpSession(
    connects: bool,              // connect + login succeed (credentials present)
    mkd: string -> MkdReply,     // reply to MKD of each path
    globReply: NlstReply,        // reply to NLST "<dir>/*<cedula>*.pdf"
    dirReply: NlstReply)         // reply to NLST "<dir>"

  datatype FtpError = EmptyCedula | NonNumericCedula | EmptySubdir | ConnectionFailed

  /** The names the glob branch keeps: base names that are not empty. */
  function GlobNames(paths: seq<string>): (names: seq<string>)
    ensures forall k :: 0 <= k < |names| ==> names[k] != "" && '/' !in names[k]
  {
    if paths == [] then []
    else
      var rest := GlobNames(paths[..|paths| - 1]);
      var name := Basename(paths[|paths| - 1]);
      if name != "" && !EndsWith(name, "/") then rest + [name] else rest
  }

  /** The test of the fallback scan: a PDF (any letter case) whose name contains the cedula. */
  predicate CedulaFile(name: string, cedula: string)
  {
    name != "" && name != "." && name != ".." && '/' !in name && EndsWith(Lower(name), ".pdf") && Contains(name, cedula)
  }

  /** The names the fallback scan keeps, in listing order. */
  function CedulaMatches(paths: seq<string>, cedula: string): (names: seq<string>)
    ensures forall k :: 0 <= k < |names| ==> CedulaFile(names[k], cedula)
    ensures forall k :: 0 <= k < |paths| && CedulaFile(Basename(paths[k]), cedula) ==> Basename(paths[k]) in names
  {
    if paths == [] then []
    else
      var rest := CedulaMatches(paths[..|paths| - 1], cedula);
      var name := Basename(paths[|paths| - 1]);
      NoSlashNoSlashEnd(name);
      var names :=
        if name == "" || name == "." || name == ".." || EndsWith(name, "/") then rest
        else if EndsWith(Lower(name), ".pdf") && Contains(name, cedula) then rest + [name]
        else rest;
      LastStepComplete(paths, paths[..|paths| - 1], cedula, rest, names);
      names
  }

  lemma NoSlashNoSlashEnd(name: string)
    requires '/' !in name
    ensures !EndsWith(name, "/")
  {
    if |name| > 0 { assert name[|name| - 1..][0] == name[|name| - 1]; }
  }

  /** Completeness carries over from the listing without its last entry. */
  lemma LastStepComplete(paths: seq<string>, front: seq<string>, cedula: string, rest: seq<string>, names: seq<string>)
    requires paths != [] && front == paths[..|paths| - 1]
    requires forall k :: 0 <= k < |front| && CedulaFile(Basename(front[k]), cedula) ==> Basename(front[k]) in rest
    requires forall x :: x in rest ==> x in names
    requires CedulaFile(Basename(paths[|paths| - 1]), cedula) ==> Basename(paths[|paths| - 1]) in names
    ensures forall k :: 0 <= k < |paths| && CedulaFile(Basename(paths[k]), cedula) ==> Basename(paths[k]) in names
  {
    forall k | 0 <= k < |paths| && CedulaFile(Basename(paths[k]), cedula)
      ensures Basename(paths[k]) in names
    {
      if k < |paths| - 1 {
        assert front[k] == paths[k];
      }
    }
  }

  /** The base names the glob reply yields, [] when it failed or was empty. */
  function GlobResult(reply: NlstReply): seq<string>
  {
    if reply.Listed? then GlobNames(reply.names) else []
  }

  /** What find_files_by_cedula returns or raises for one session. */
  function FindResult(base: string, subdir: string, cedula: string, session: FtpSession): (r: Result<seq<string>, FtpError>)
    ensures cedula == "" ==> r == Err(EmptyCedula)
    ensures !IsDigitString(cedula) ==> r.Err?
    ensures subdir == "" ==> r.Err?
    ensures r.Ok? ==> Sorted(r.value)
    ensures r.Ok? && GlobResult(session.globReply) == [] ==> forall k :: 0 <= k < |r.value| ==> CedulaFile(r.value[k], cedula)
    ensures IsDigitString(cedula) && subdir != "" ==>
      if !session.connects || !EnsureDirsOk(BuildRemotePath(base, subdir), session.mkd) || session.globReply.NlstFailure? then
        r == Err(ConnectionFailed)
      else if GlobResult(session.globReply) != [] then
        r == Ok(Sort(GlobResult(session.globReply)))
      else if session.dirReply.Listed? then
        r == Ok(Sort(CedulaMatches(session.dirReply.names, cedula)))
      else if session.dirReply.NlstPermError? && StartsWith(session.dirReply.message, "550") then
        r == Ok([])
      else
        r == Err(ConnectionFailed)
  {
    if cedula == "" then Err(EmptyCedula)
    else if !IsDigitString(cedula) then Err(NonNumericCedula)
    else if subdir == "" then Err(EmptySubdir)
    else if !session.connects || !EnsureDirsOk(BuildRemotePath(base, subdir), session.mkd) then Err(ConnectionFailed)
    else if session.globReply.NlstFailure? then Err(ConnectionFailed)
    else if GlobResult(session.globReply) != [] then Ok(Sort(GlobResult(session.globReply)))
    else
      match session.dirReply
      case NlstFailure => Err(ConnectionFailed)
      case NlstPermError(msg) => if StartsWith(msg, "550") then Ok([]) else Err(ConnectionFailed)
      case Listed(all) =>
        var found := CedulaMatches(all, cedula);
        SortedKeepsProperty(found, cedula);
        Ok(Sort(found))
  }

  lemma SortedKeepsProperty(found: seq<string>, cedula: string)
    requires forall k :: 0 <= k < |found| ==> CedulaFile(found[k], cedula)
    ensures forall k :: 0 <= k < |Sort(found)| ==> CedulaFile(Sort(found)[k], cedula)
  {
    var s := Sort(found);
    forall k | 0 <= k < |s| ensures CedulaFile(s[k], cedula) {
      assert s[k] in multiset(s);
      assert s[k] in multiset(found);
      var j :| 0 <= j < |found| && found[j] == s[k];
    }
  }

  /** The loop of the glob branch. */
  method CollectGlobNames(paths: seq<string>) returns (result: seq<string>)
    ensures result == GlobNames(paths)
  {
    result := [];
    var i := 0;
    while i < |paths|
      invariant 0 <= i <= |paths|
      invariant result == GlobNames(paths[..i])
    {
      assert paths[..i + 1][..i] == paths[..i];
      var filename := Basename(paths[i]);
      if filename != "" && !EndsWith(filename, "/") {
        result := result + [filename];
      }
      i := i + 1;
    }
    assert paths[..i] == paths;
  }

  /** The loop of the fallback scan. */
  method CollectCedulaMatches(all: seq<string>, cedula: string) returns (matching: seq<string>)
    ensures matching == CedulaMatches(all, cedula)
  {
    matching := [];
    var i := 0;
    while i < |all|
      invariant 0 <= i <= |all|
      invariant matching == CedulaMatches(all[..i], cedula)
    {
      assert all[..i + 1][..i] == all[..i];
      var filename := Basename(all[i]);
      if !(filename == "" || filename == "." || filename == ".." || EndsWith(filename, "/")) {
        if EndsWith(Lower(filename), ".pdf") && Contains(filename, cedula) {
          matching := matching + [filename];
        }
      }
      i := i + 1;
    }
    assert all[..i] == all;
  }

  /** find_files_by_cedula(subdir, cedula) without metadata. */
  method FindFilesByCedula(base: string, subdir: string, cedula: string, session: FtpSession) returns (r: Result<seq<string>, FtpError>)
    ensures r == FindResult(base, subdir, cedula, session)
  {
    if cedula == "" { return Err(EmptyCedula); }
    if !IsDigitString(cedula) { return Err(NonNumericCedula); }
    if subdir == "" { return Err(EmptySubdir); }
    var remoteDir := BuildRemotePath(base, subdir);
    if !session.connects { return Err(ConnectionFailed); }
    var _, dirsOk := EnsureDirs(remoteDir, session.mkd);
    if !dirsOk { return Err(ConnectionFailed); }
    if session.globReply.NlstFailure? { return Err(ConnectionFailed); }
    if session.globReply.Listed? && session.globReply.names != [] {
      var result := CollectGlobNames(session.globReply.names);
      if result != [] {
        return Ok(Sort(result));
      }
    }
    assert GlobResult(session.globReply) == [];
    match session.dirReply {
      case NlstFailure => return Err(ConnectionFailed);
      case NlstPermError(msg) =>
        if StartsWith(msg, "550") { return Ok([]); }
        return Err(ConnectionFailed);
      case Listed(all) =>
        var matching := CollectCedulaMatches(all, cedula);
        return Ok(Sort(matching));
    }
  }

  /** list_files_in_directory(subdir) without metadata: every failure yields []. */
  method ListFilesInDirectory(base: string, subdir: string, connects: bool, reply: NlstReply) returns (names: seq<string>)
    ensures reply.Listed? && connects ==> names == ValidFileNames(reply.names)
    ensures !(reply.Listed? && connects) ==> names == []
    ensures forall k :: 0 <= k < |names| ==> PlainName(names[k])
  {
    if !connects { return []; }
    match reply {
      case Listed(all) => names := FilterValidFiles(all);
      case NlstPermError(_) => names := [];
      case NlstFailure => names := [];
    }
  }

  // ---------------------------------------------------------------------
  // upload_file, move_file

  /** What upload_file depends on besides its arguments. */
  datatype UploadSession = UploadSession(localExists: bool, connects: bool, mkd: string -> MkdReply, storOk: bool)

  /** The pair (public_url, remote_path) upload_file returns. */
  datatype UploadResult = UploadResult(publicUrl: Option<string>, remotePath: Option<string>)

  /** upload_file; `publicBase` is FTP_PUBLIC_BASE_URL, "" when unset. */
  function UploadFile(base: string, publicBase: string, subdir: string, filename: string, s: UploadSession): (r: UploadResult)
    ensures r.remotePath.Some? <==> s.localExists && s.connects && EnsureDirsOk(BuildRemotePath(base, subdir), s.mkd) && s.storOk
    ensures r.remotePath.Some? ==> r.remotePath.value == BuildRemotePath(base, subdir) + "/" + filename
    ensures r.publicUrl.Some? <==> r.remotePath.Some? && publicBase != ""
    ensures r.publicUrl.Some? ==> StartsWith(r.publicUrl.value, StripTrailing(publicBase, '/') + "/")
    ensures r.publicUrl.Some? ==> EndsWith(r.publicUrl.value, "/" + filename)
  {
    var remoteDir := BuildRemotePath(base, subdir);
    if !s.localExists || !s.connects || !EnsureDirsOk(remoteDir, s.mkd) || !s.storOk then UploadResult(None, None)
    else
      var head := StripTrailing(publicBase, '/') + "/";
      var tail := "/" + filename;
      var url := head + StripChar(subdir, '/') + tail;
      Framed(head, StripChar(subdir, '/'), tail);
      UploadResult(if publicBase != "" then Some(url) else None, Some(remoteDir + "/" + filename))
  }

  /** move_file: SIZE on the source, then the target directories, then RENAME. */
  function MoveFile(base: string, oldSubdir: string, newSubdir: string, filename: string,
                    connects: bool, sourceExists: bool, mkd: string -> MkdReply, renameOk: bool): (r: Option<string>)
    ensures r.Some? <==> connects && sourceExists && EnsureDirsOk(BuildRemotePath(base, newSubdir), mkd) && renameOk
    ensures r.Some? ==> r.value == BuildRemotePath(base, newSubdir) + "/" + filename
  {
    if !connects || !sourceExists || !EnsureDirsOk(BuildRemotePath(base, newSubdir), mkd) || !renameOk then None
    else Some(BuildRemotePath(base, newSubdir) + "/" + filename)
  }

  /** With FTP_BASE_DIR set, the remote path of a file in a folder contains "/<folder>/". */
  lemma RemotePathNamesFolder(base: string, folder: string, filename: string)
    requires base != "" && folder != "" && '/' !in folder
    ensures Contains(BuildRemotePath(base, folder) + "/" + filename, "/" + folder + "/")
  {
    SlashFreeUnstripped(folder);
    assert BuildRemotePath(base, folder) == StripTrailing(base, '/') + "/" + folder;
    SegmentInPath(StripTrailing(base, '/'), folder, filename);
  }

  /** A string begins with its first part and ends with its last. */
  lemma Framed(head: string, middle: string, tail: string)
    ensures StartsWith(head + middle + tail, head) && EndsWith(head + middle + tail, tail)
  {
    var s := head + middle + tail;
    assert s[..|head|] == head;
    assert s[|s| - |tail|..] == tail;
  }

  /** "/<folder>/" occurs in "<prefix>/<folder>/<filename>". */
  lemma SegmentInPath(prefix: string, folder: string, filename: string)
    ensures Contains(prefix + "/" + folder + "/" + filename, "/" + folder + "/")
  {
    assert prefix + "/" + folder + "/" + filename == prefix + ("/" + folder + "/") + filename;
    ContainsInMiddle(prefix, "/" + folder + "/", filename);
  }

  /** A name with no slash in it is left alone by strip("/"). */
  lemma SlashFreeUnstripped(folder: string)
    requires folder != "" && '/' !in folder
    ensures StripChar(folder, '/') == folder
  {
    assert folder[0] != '/' && folder[|folder| - 1] != '/';
    assert StripLeading(folder, '/') == folder;
  }

  lemma ContainsInMiddle(a: string, needle: string, b: string)
    ensures Contains(a + needle + b, needle)
  {
    var p := a + needle + b;
    assert p[|a|..][..|needle|] == needle;
    ContainsAt(p, needle, |a|);
  }

  // ---------------------------------------------------------------------
  // _parse_ftp_date_to_iso

  /** month_map.get(name, 1). */
  function MonthNumber(name: string): (m: int)
    ensures 1 <= m <= 12
  {
    if name == "Jan" then 1 else if name == "Feb" then 2 else if name == "Mar" then 3
    else if name == "Apr" then 4 else if name == "May" then 5 else if name == "Jun" then 6
    else if name == "Jul" then 7 else if name == "Aug" then 8 else if name == "Sep" then 9
    else if name == "Oct" then 10 else if name == "Nov" then 11 else if name == "Dec" then 12
    else 1
  }

  /** (year, hour, minute) read from the third field: "HH:MM" means this year, otherwise a year. */
  function YearAndTime(field: string, currentYear: int): (r: Option<(int, int, int)>)
    ensures ':' in field ==>
      var tp := Split(field, ':');
      |tp| >= 2
      && (r.Some? <==> ParseInt(tp[0]).Some? && ParseInt(tp[1]).Some?)
      && (r.Some? ==> r.value == (currentYear, ParseInt(tp[0]).value, ParseInt(tp[1]).value))
    ensures ':' !in field ==>
      (r.Some? <==> ParseInt(field).Some?) && (r.Some? ==> r.value == (ParseInt(field).value, 0, 0))
  {
    if ':' in field then
      var tp := Split(field, ':');
      match (ParseInt(tp[0]), ParseInt(tp[1]))
      case (Some(h), Some(mi)) => Some((currentYear, h, mi))
      case _ => None
    else
      match ParseInt(field)
      case Some(y) => Some((y, 0, 0))
      case None => None
  }

  lemma {:induction false} LexIrreflexive(x: seq<int>)
    ensures !LexGreater(x, x)
  {
    if |x| > 0 { LexIrreflexive(x[1..]); }
  }

  /** A moment in an earlier year is never later. */
  lemma EarlierYearNotLater(a: DateTime, b: DateTime)
    requires a.date.year < b.date.year
    ensures !Later(a, b)
  {
  }

  /** The source's correction: a stamp in the future is moved one year back, `now` when that date does not exist. */
  function RollBack(stamp: DateTime, now: DateTime): (r: DateTime)
    requires ValidDateTime(stamp) && ValidDateTime(now)
    ensures ValidDateTime(r)
    ensures stamp.date.year == now.date.year ==> !Later(r, now)
    ensures !Later(stamp, now) ==> r == stamp
    ensures Later(stamp, now) ==>
      var back := Date(stamp.date.year - 1, stamp.date.month, stamp.date.day);
      r == if ValidDate(back) then stamp.(date := back) else now
  {
    if !Later(stamp, now) then stamp
    else if ValidDate(Date(stamp.date.year - 1, stamp.date.month, stamp.date.day)) then
      var r := stamp.(date := Date(stamp.date.year - 1, stamp.date.month, stamp.date.day));
      assert stamp.date.year == now.date.year ==> !Later(r, now) by {
        if stamp.date.year == now.date.year { EarlierYearNotLater(r, now); }
      }
      r
    else
      LexIrreflexive([now.date.year, now.date.month, now.date.day, now.hour, now.minute, now.second]);
      now
  }

  /**
   * _parse_ftp_date_to_iso on "Mon DD HH:MM" or "Mon DD YYYY": a stamp in
   * the future is taken to be from the previous year; anything that fails
   * to parse (or to exist in the calendar) yields `now`.
   */
  function ParseFtpDate(dateStr: string, now: DateTime): (r: DateTime)
    requires ValidDateTime(now)
    ensures ValidDateTime(r)
    ensures |Words(dateStr)| >= 3 && ':' in Words(dateStr)[2] ==> !Later(r, now)
    ensures |Words(dateStr)| < 3 ==> r == now
    ensures |Words(dateStr)| >= 3 ==>
      var parts := Words(dateStr);
      var day := ParseInt(parts[1]);
      var yt := YearAndTime(parts[2], now.date.year);
      if day.Some? && yt.Some? then
        var stamp := DateTime(Date(yt.value.0, MonthNumber(parts[0]), day.value), yt.value.1, yt.value.2, 0);
        r == if ValidDateTime(stamp) then RollBack(stamp, now) else now
      else
        r == now
  {
    var parts := Words(dateStr);
    LexIrreflexive([now.date.year, now.date.month, now.date.day, now.hour, now.minute, now.second]);
    if |parts| < 3 then now
    else
      match (ParseInt(parts[1]), YearAndTime(parts[2], now.date.year))
      case (Some(day), Some((year, hour, minute))) =>
        var stamp := DateTime(Date(year, MonthNumber(parts[0]), day), hour, minute, 0);
        if !ValidDateTime(stamp) then now
        else
          assert ':' in parts[2] ==> year == now.date.year;
          RollBack(stamp, now)
      case _ => now
  }

  // ---------------------------------------------------------------------
  // _get_files_with_metadata and its cache

  /** One entry of a metadata listing. */
  datatype FileMeta = FileMeta(filename: string, size: nat, date: string, dateIso: DateTime)

  /** The entry read from the fields of a LIST line: size in the fifth field, date in the sixth to eighth. */
  function EntryOf(parts: seq<string>, now: DateTime): (r: FileMeta)
    requires |parts| >= 9 && ValidDateTime(now)
    ensures r.filename == parts[|parts| - 1]
    ensures r.date == parts[5] + " " + parts[6] + " " + parts[7]
    ensures r.size == if IsDigitString(parts[4]) then NatValue(parts[4]) else 0
    ensures r.dateIso == ParseFtpDate(r.date, now)
  {
    var size := if IsDigitString(parts[4]) then NatValue(parts[4]) else 0;
    var dateStr := parts[5] + " " + parts[6] + " " + parts[7];
    FileMeta(parts[|parts| - 1], size, dateStr, ParseFtpDate(dateStr, now))
  }

  /** The last field names a PDF: ".pdf" in any case, and neither "." nor "..". */
  predicate ListedPdf(filename: string)
  {
    EndsWith(Lower(filename), ".pdf") && filename != "." && filename != ".."
  }

  /** The entry of a line whose fields are `parts`; `directory` when the line starts with 'd'. */
  function EntryOfFields(parts: seq<string>, directory: bool, now: DateTime): (r: Option<FileMeta>)
    requires ValidDateTime(now)
    ensures r.Some? <==> |parts| >= 9 && !directory && ListedPdf(parts[|parts| - 1])
    ensures r.Some? ==> r.value == EntryOf(parts, now)
  {
    if |parts| < 9 || directory then None
    else if !ListedPdf(parts[|parts| - 1]) then None
    else Some(EntryOf(parts, now))
  }

  /** One LIST line: at least nine fields, not a directory, a PDF name in the last field. */
  function ParseListLine(line: string, now: DateTime): (r: Option<FileMeta>)
    requires ValidDateTime(now)
    ensures r.Some? ==> ListedPdf(r.value.filename)
    ensures r.Some? ==> |Words(line)| >= 9 && !StartsWith(line, "d") && r.value.filename == Words(line)[|Words(line)| - 1]
    ensures r.Some? ==> r.value == EntryOf(Words(line), now)
    ensures |Words(line)| >= 9 && !StartsWith(line, "d") && ListedPdf(Words(line)[|Words(line)| - 1]) ==> r.Some?
  {
    EntryOfFields(Words(line), StartsWith(line, "d"), now)
  }

  /** The entries of a LIST reply, in line order. */
  function ParseListing(lines: seq<string>, now: DateTime): (files: seq<FileMeta>)
    requires ValidDateTime(now)
    ensures |files| <= |lines|
    ensures forall k :: 0 <= k < |files| ==> ListedPdf(files[k].filename)
  {
    if lines == [] then []
    else
      var rest := ParseListing(lines[..|lines| - 1], now);
      match ParseListLine(lines[|lines| - 1], now)
      case Some(f) => rest + [f]
      case None => rest
  }

  /** What one LIST line adds to the listing. */
  function LineEntries(line: string, now: DateTime): seq<FileMeta>
    requires ValidDateTime(now)
  {
    if ParseListLine(line, now).Some? then [ParseListLine(line, now).value] else []
  }

  lemma ParseListingSnoc(lines: seq<string>, line: string, now: DateTime)
    requires ValidDateTime(now)
    ensures ParseListing(lines + [line], now) == ParseListing(lines, now) + LineEntries(line, now)
  {
    assert (lines + [line])[..|lines|] == lines;
  }

  /** The listing of a reply split in two is the listing of the first part followed by that of the second. */
  lemma {:induction false} ParseListingAppend(a: seq<string>, b: seq<string>, now: DateTime)
    requires ValidDateTime(now)
    ensures ParseListing(a + b, now) == ParseListing(a, now) + ParseListing(b, now)
    decreases |b|
  {
    if b == [] {
      assert a + b == a;
    } else {
      var front := b[..|b| - 1];
      var last := b[|b| - 1];
      ParseListingAppend(a, front, now);
      SplitLast(a, b);
      ParseListingSnoc(a + front, last, now);
      ParseListingSnoc(front, last, now);
      AppendAssoc(ParseListing(a, now), ParseListing(front, now), LineEntries(last, now));
    }
  }

  /** One line contributes its entry, or nothing when it is not a PDF file line. */
  lemma ParseListingOfLine(line: string, now: DateTime)
    requires ValidDateTime(now)
    ensures ParseListing([line], now) == if ParseListLine(line, now).Some? then [ParseListLine(line, now).value] else []
  {
    ParseListingSnoc([], line, now);
    assert [] + [line] == [line];
  }

  /** The entries of a listing whose file name contains the cedula. */
  function WithCedula(files: seq<FileMeta>, cedula: string): (r: seq<FileMeta>)
    ensures forall k :: 0 <= k < |r| ==> Contains(r[k].filename, cedula)
    ensures forall f :: f in files && Contains(f.filename, cedula) ==> f in r
  {
    if files == [] then []
    else
      var rest := WithCedula(files[..|files| - 1], cedula);
      var f := files[|files| - 1];
      assert files == files[..|files| - 1] + [f];
      if Contains(f.filename, cedula) then rest + [f] else rest
  }

  datatype CacheEntry = CacheEntry(files: seq<FileMeta>, timestamp: int)

  /** "metadata_<subdir>". */
  function CacheKey(subdir: string): string
  {
    "metadata_" + subdir
  }

  /** The cached listing of `subdir` when it is younger than the cache duration. */
  function FreshEntry(entries: map<string, CacheEntry>, subdir: string, now: int): (r: Option<seq<FileMeta>>)
    ensures r.Some? <==> CacheKey(subdir) in entries && now - entries[CacheKey(subdir)].timestamp < CacheDurationSeconds
  {
    var key := CacheKey(subdir);
    if key in entries && now - entries[key].timestamp < CacheDurationSeconds then Some(entries[key].files) else None
  }

  /** A listing stored at time t is served again exactly while less than five minutes have passed. */
  lemma StoredListingServedForFiveMinutes(entries: map<string, CacheEntry>, subdir: string, files: seq<FileMeta>, t: int, later: int)
    ensures var after := entries[CacheKey(subdir) := CacheEntry(files, t)];
      FreshEntry(after, subdir, later) == (if later - t < 300 then Some(files) else None)
  {
  }

  /** The line loop of _get_files_with_metadata: each LIST line in turn, the PDF entries kept. */
  method ParseLines(lines: seq<string>, now: DateTime) returns (files: seq<FileMeta>)
    requires ValidDateTime(now)
    ensures files == ParseListing(lines, now)
  {
    files := [];
    var i := 0;
    while i < |lines|
      invariant 0 <= i <= |lines|
      invariant files == ParseListing(lines[..i], now)
    {
      assert lines[..i + 1][..i] == lines[..i];
      var entry := ParseListLine(lines[i], now);
      if entry.Some? {
        files := files + [entry.value];
      }
      i := i + 1;
    }
    assert lines[..i] == lines;
  }

  /** The filter loop of find_files_by_cedula over a metadata listing. */
  method FilterByCedula(all: seq<FileMeta>, cedula: string) returns (matching: seq<FileMeta>)
    ensures matching == WithCedula(all, cedula)
  {
    matching := [];
    var i := 0;
    while i < |all|
      invariant 0 <= i <= |all|
      invariant matching == WithCedula(all[..i], cedula)
    {
      assert all[..i + 1][..i] == all[..i];
      if Contains(all[i].filename, cedula) {
        matching := matching + [all[i]];
      }
      i := i + 1;
    }
    assert all[..i] == all;
  }

  /** The listing _get_files_with_metadata returns and the cache it leaves behind. */
  function MetadataListing(entries: map<string, CacheEntry>, subdir: string, useCache: bool, now: DateTime,
                           listing: Option<seq<string>>): (seq<FileMeta>, map<string, CacheEntry>)
    requires ValidDateTime(now)
  {
    if useCache && FreshEntry(entries, subdir, Seconds(now)).Some? then (FreshEntry(entries, subdir, Seconds(now)).value, entries)
    else match listing
      case None => ([], entries)
      case Some(lines) =>
        var files := ParseListing(lines, now);
        (files, if useCache then entries[CacheKey(subdir) := CacheEntry(files, Seconds(now))] else entries)
  }

  /** _file_metadata_cache: one process-wide map from cache key to listing. */
  class MetadataCache {
    var entries: map<string, CacheEntry>

    constructor ()
      ensures entries == map[]
    {
      entries := map[];
    }

    /**
     * _get_files_with_metadata. `listing` is the LIST reply after CWD, None
     * when connecting, CWD or LIST failed.
     */
    method GetFilesWithMetadata(subdir: string, useCache: bool, now: DateTime, listing: Option<seq<string>>)
      returns (files: seq<FileMeta>)
      requires ValidDateTime(now)
      modifies this
      ensures useCache && FreshEntry(old(entries), subdir, Seconds(now)).Some? ==>
        files == FreshEntry(old(entries), subdir, Seconds(now)).value && entries == old(entries)
      ensures !(useCache && FreshEntry(old(entries), subdir, Seconds(now)).Some?) ==>
        match listing
        case None => files == [] && entries == old(entries)
        case Some(lines) =>
          files == ParseListing(lines, now)
          && entries == if useCache then old(entries)[CacheKey(subdir) := CacheEntry(files, Seconds(now))] else old(entries)
      ensures (files, entries) == MetadataListing(old(entries), subdir, useCache, now, listing)
    {
      if useCache {
        var hit := FreshEntry(entries, subdir, Seconds(now));
        if hit.Some? {
          return hit.value;
        }
      }
      if listing.None? {
        return [];
      }
      files := ParseLines(listing.value, now);
      if useCache {
        entries := entries[CacheKey(subdir) := CacheEntry(files, Seconds(now))];
      }
    }

    /** clear_metadata_cache: a non-empty subdir drops its entry; None or "" drops everything. */
    method ClearMetadataCache(subdir: Option<string>)
      modifies this
      ensures subdir.Some? && subdir.value != "" ==> entries == old(entries) - {CacheKey(subdir.value)}
      ensures !(subdir.Some? && subdir.value != "") ==> entries == map[]
    {
      if subdir.Some? && subdir.value != "" {
        var key := CacheKey(subdir.value);
        if key in entries {
          entries := entries - {key};
        }
      } else {
        entries := map[];
      }
    }

    /** find_files_by_cedula(subdir, cedula, with_metadata=True). */
    method FindFilesWithMetadata(subdir: string, cedula: string, now: DateTime, listing: Option<seq<string>>)
      returns (r: Result<seq<FileMeta>, FtpError>)
      requires ValidDateTime(now)
      modifies this
      ensures cedula == "" ==> r == Err(EmptyCedula) && entries == old(entries)
      ensures (!IsDigitString(cedula) || subdir == "") ==> r.Err? && entries == old(entries)
      ensures r.Ok? <==> IsDigitString(cedula) && subdir != ""
      ensures r.Ok? ==> forall k :: 0 <= k < |r.value| ==> Contains(r.value[k].filename, cedula)
      ensures r.Ok? ==>
        var read := MetadataListing(old(entries), subdir, true, now, listing);
        r.value == WithCedula(read.0, cedula) && entries == read.1
    {
      if cedula == "" { return Err(EmptyCedula); }
      if !IsDigitString(cedula) { return Err(NonNumericCedula); }
      if subdir == "" { return Err(EmptySubdir); }
      var all := GetFilesWithMetadata(subdir, true, now, listing);
      var matching := FilterByCedula(all, cedula);
      return Ok(matching);
    }
  }
}

=== FILE: inactivity.dfy ===
/**
 * The inactivity follow-up of the scheduler-driven variant of the bot. Every
 * minute a tick first closes the conversations of active contacts that were
 * already asked "¿Estás ahí?" and have been silent for more than eleven
 * minutes, then asks every active, not yet warned contact silent for more
 * than ten minutes. An inbound text message re-activates its contact and
 * resets the warning. Times are seconds; the database clock is a parameter.
 */
module Inactivity {
  import opened Wrappers
  import opened WhatsappModels
  import BotService
  import opened LegacyMain

  const WarnAfter := 10 * 60
  const CloseAfter := 11 * 60

  /** The filter of the close query. */
  predicate ShouldClose(c: Contact, now: int)
  {
    c.isActive && c.warningSent && c.lastInteraction < now - CloseAfter
  }

  /** The filter of the warn query. */
  predicate ShouldWarn(c: Contact, now: int)
  {
    c.isActive && !c.warningSent && c.lastInteraction < now - WarnAfter
  }

  /** A closed conversation: inactive, warning reset for the next one. */
  function Closed(c: Contact): Contact
  {
    c.(isActive := false, warningSent := false)
  }

  function Warned(c: Contact): Contact
  {
    c.(warningSent := true)
  }

  /** The table after the close pass. */
  function ClosePass(rows: seq<Contact>, now: int): (r: seq<Contact>)
    ensures |r| == |rows|
  {
    seq(|rows|, i requires 0 <= i < |rows| => if ShouldClose(rows[i], now) then Closed(rows[i]) else rows[i])
  }

  /** The table after the warn pass. */
  function WarnPass(rows: seq<Contact>, now: int): (r: seq<Contact>)
    ensures |r| == |rows|
  {
    seq(|rows|, i requires 0 <= i < |rows| => if ShouldWarn(rows[i], now) then Warned(rows[i]) else rows[i])
  }

  /** The phones the goodbye goes to, in table order. */
  function ClosedPhones(rows: seq<Contact>, now: int): seq<string>
  {
    if rows == [] then []
    else ClosedPhones(rows[..|rows| - 1], now) + (if ShouldClose(rows[|rows| - 1], now) then [rows[|rows| - 1].phone] else [])
  }

  /** The phones "¿Estás ahí?" goes to, in table order. */
  function WarnedPhones(rows: seq<Contact>, now: int): seq<string>
  {
    if rows == [] then []
    else WarnedPhones(rows[..|rows| - 1], now) + (if ShouldWarn(rows[|rows| - 1], now) then [rows[|rows| - 1].phone] else [])
  }

  /** One contact through one tick. */
  function Tick(c: Contact, now: int): (r: Contact)
    ensures r.phone == c.phone && r.name == c.name && r.lastInteraction == c.lastInteraction
    ensures r.state == c.state && r.data == c.data
    ensures !c.isActive ==> r == c
    ensures r.isActive != c.isActive ==> ShouldClose(c, now)
    ensures r.warningSent && !c.warningSent ==> r.isActive && ShouldWarn(c, now)
  {
    var closed := if ShouldClose(c, now) then Closed(c) else c;
    if ShouldWarn(closed, now) then Warned(closed) else closed
  }

  /** The two passes act on each row as one tick does. */
  lemma PassesAreTicks(rows: seq<Contact>, now: int)
    ensures var r := WarnPass(ClosePass(rows, now), now);
      |r| == |rows| && forall i :: 0 <= i < |rows| ==> r[i] == Tick(rows[i], now)
  {
  }

  /** A contact is only ever closed after having been warned, and never closed and warned in one tick. */
  lemma ClosedOnlyAfterWarning(c: Contact, now: int)
    ensures c.isActive && !Tick(c, now).isActive ==> c.warningSent && !Tick(c, now).warningSent
    ensures Tick(c, now).warningSent && !c.warningSent ==> Tick(c, now).isActive
  {
  }

  /** A contact heard from within the last ten minutes is left alone. */
  lemma RecentContactUntouched(c: Contact, now: int)
    requires c.lastInteraction >= now - WarnAfter
    ensures Tick(c, now) == c
  {
  }

  /**
   * The escalation: a silent active contact is warned on one tick and, once
   * eleven minutes have passed without a message, closed on a later one.
   */
  lemma WarnThenClose(c: Contact, first: int, later: int)
    requires c.isActive && !c.warningSent
    requires c.lastInteraction < first - WarnAfter
    requires c.lastInteraction < later - CloseAfter
    ensures Tick(c, first) == c.(warningSent := true)
    ensures Tick(Tick(c, first), later) == c.(isActive := false, warningSent := false)
  {
  }

  /** check_inactive_users: the close pass, then the warn pass. */
  method CheckInactiveUsers(table: ContactTable, now: int) returns (goodbyes: seq<string>, warnings: seq<string>)
    requires table.Valid()
    modifies table
    ensures table.Valid()
    ensures table.rows == WarnPass(ClosePass(old(table.rows), now), now)
    ensures goodbyes == ClosedPhones(old(table.rows), now)
    ensures warnings == WarnedPhones(ClosePass(old(table.rows), now), now)
  {
    goodbyes := CloseInactive(table, now);
    warnings := WarnInactive(table, now);
  }

  /** The close loop: goodbye, is_active False and the warning reset, for each matching row. */
  method CloseInactive(table: ContactTable, now: int) returns (goodbyes: seq<string>)
    requires table.Valid()
    modifies table
    ensures table.Valid()
    ensures table.rows == ClosePass(old(table.rows), now)
    ensures goodbyes == ClosedPhones(old(table.rows), now)
  {
    ghost var start := table.rows;
    goodbyes := [];
    var i := 0;
    while i < |table.rows|
      invariant 0 <= i <= |table.rows| == |start|
      invariant forall j :: 0 <= j < i ==> table.rows[j] == ClosePass(start, now)[j]
      invariant forall j :: i <= j < |start| ==> table.rows[j] == start[j]
      invariant goodbyes == ClosedPhones(start[..i], now)
    {
      assert start[..i + 1][..i] == start[..i];
      var user := table.rows[i];
      if ShouldClose(user, now) {
        goodbyes := goodbyes + [user.phone];
        table.rows := table.rows[i := Closed(user)];
      }
      i := i + 1;
    }
    assert start[..i] == start;
    assert forall j :: 0 <= j < |start| ==> table.rows[j].phone == start[j].phone;
    SamePhonesKeepDistinct(start, table.rows);
  }

  /** The warn loop: "¿Estás ahí?" and the warning flag, for each matching row. */
  method WarnInactive(table: ContactTable, now: int) returns (warnings: seq<string>)
    requires table.Valid()
    modifies table
    ensures table.Valid()
    ensures table.rows == WarnPass(old(table.rows), now)
    ensures warnings == WarnedPhones(old(table.rows), now)
  {
    ghost var start := table.rows;
    warnings := [];
    var i := 0;
    while i < |table.rows|
      invariant 0 <= i <= |table.rows| == |start|
      invariant forall j :: 0 <= j < i ==> table.rows[j] == WarnPass(start, now)[j]
      invariant forall j :: i <= j < |start| ==> table.rows[j] == start[j]
      invariant warnings == WarnedPhones(start[..i], now)
    {
      assert start[..i + 1][..i] == start[..i];
      var user := table.rows[i];
      if ShouldWarn(user, now) {
        warnings := warnings + [user.phone];
        table.rows := table.rows[i := Warned(user)];
      }
      i := i + 1;
    }
    assert start[..i] == start;
    assert forall j :: 0 <= j < |start| ==> table.rows[j].phone == start[j].phone;
    SamePhonesKeepDistinct(start, table.rows);
  }

  lemma SamePhonesKeepDistinct(rows: seq<Contact>, updated: seq<Contact>)
    requires DistinctPhones(rows) && |updated| == |rows|
    requires forall j :: 0 <= j < |rows| ==> updated[j].phone == rows[j].phone
    ensures DistinctPhones(updated)
  {
  }

  /** The fields of the first message of a webhook notification that the handler reads. */
  datatype Notification =
    | TextMessage(phone: string, profileName: Option<string>, body: string)
    | OtherMessage

  const DefaultUserName := "Usuario"

  /** The sender's row after the reset every text message performs. */
  function Touched(rows: seq<Contact>, phone: string, name: string, now: int): (r: seq<Contact>)
    ensures FindPhone(rows, phone).Some? ==> |r| == |rows|
    ensures FindPhone(rows, phone).None? ==> |r| == |rows| + 1 && r[..|rows|] == rows
    ensures FindPhone(r, phone).Some?
    ensures var c := r[FindPhone(r, phone).value];
      c.lastInteraction == now && c.isActive && !c.warningSent
    ensures forall j :: 0 <= j < |rows| && rows[j].phone != phone ==> r[j] == rows[j]
  {
    match FindPhone(rows, phone)
    case Some(k) =>
      var r := rows[k := rows[k].(lastInteraction := now, isActive := true, warningSent := false)];
      assert r[k].phone == phone;
      assert forall j :: 0 <= j < k ==> r[j].phone != phone;
      assert FindPhone(r, phone) == Some(k);
      r
    case None =>
      var r := rows + [Contact(phone, name, now, true, false, Idle, None)];
      assert r[|rows|].phone == phone;
      assert forall j :: 0 <= j < |rows| ==> r[j].phone != phone;
      assert FindPhone(r, phone) == Some(|rows|);
      r
  }

  /** The reply of the scheduler-driven menu, which names the sender by the profile name. */
  function MenuReply(message: string, option: Option<nat>, name: string): (r: LegacyReply)
    ensures message == "menu" || message == "hola" ==> r == LegacyWelcome
    ensures r == SubscriptionCancelled <==> message != "menu" && message != "hola" && option == Some(5)
    ensures r == InvalidOption <==> message != "menu" && message != "hola" && option.None?
    ensures message != "menu" && message != "hola" && option == Some(1) ==> r == ContactNumbers
    ensures message != "menu" && message != "hola" && option == Some(4) ==> r == DataTreatment(name)
    ensures message != "menu" && message != "hola" && option.Some? && option.value !in {1, 4, 5}
      ==> r == OptionChosen(option.value)
  {
    if message == "menu" || message == "hola" then LegacyWelcome
    else if option.None? then InvalidOption
    else if option.value == 5 then SubscriptionCancelled
    else if option.value == 1 then ContactNumbers
    else if option.value == 4 then DataTreatment(name)
    else OptionChosen(option.value)
  }

  /** The sender switched off by option 5. */
  function Deactivated(rows: seq<Contact>, phone: string): (r: seq<Contact>)
    requires FindPhone(rows, phone).Some?
    ensures |r| == |rows| && FindPhone(r, phone) == FindPhone(rows, phone)
    ensures var k := FindPhone(rows, phone).value;
      r == rows[k := rows[k].(isActive := false)]
  {
    var k := FindPhone(rows, phone).value;
    var r := rows[k := rows[k].(isActive := false)];
    assert r[k].phone == phone;
    assert forall j :: 0 <= j < k ==> r[j].phone != phone;
    r
  }

  /**
   * webhook_notification on a table: a text message resets its sender and
   * gets a menu reply, and option 5 switches the sender off; any other
   * message changes nothing and gets no reply.
   */
  function WebhookTurn(rows: seq<Contact>, n: Notification, now: int): (r: (seq<Contact>, Option<LegacyReply>))
    ensures n.OtherMessage? ==> r == (rows, None)
    ensures n.TextMessage? ==>
      && r.1.Some?
      && FindPhone(r.0, n.phone).Some?
      && var c := r.0[FindPhone(r.0, n.phone).value];
      c.lastInteraction == now && !c.warningSent
      && (c.isActive <==> r.1.value != SubscriptionCancelled)
  {
    match n
    case OtherMessage => (rows, None)
    case TextMessage(phone, profileName, body) =>
      var name := profileName.GetOr(DefaultUserName);
      var touched := Touched(rows, phone, name, now);
      var message := BotService.Normalise(body);
      var reply := MenuReply(message, BotService.FirstHit(LegacyOptionTable, message), name);
      if reply == SubscriptionCancelled then (Deactivated(touched, phone), Some(reply))
      else (touched, Some(reply))
  }

  /** A contact that just wrote is not followed up for the next ten minutes. */
  lemma MessageDefersFollowUp(rows: seq<Contact>, phone: string, name: Option<string>, body: string, now: int, later: int)
    requires later <= now + WarnAfter
    ensures var r := WebhookTurn(rows, TextMessage(phone, name, body), now).0;
      var k := FindPhone(r, phone).value;
      Tick(r[k], later) == r[k]
  {
    var r := WebhookTurn(rows, TextMessage(phone, name, body), now).0;
    RecentContactUntouched(r[FindPhone(r, phone).value], later);
  }

  lemma TouchedKeepsDistinct(rows: seq<Contact>, phone: string, name: string, now: int)
    requires DistinctPhones(rows)
    ensures DistinctPhones(Touched(rows, phone, name, now))
  {
  }

  /** The reset of the sender's row: found by phone and refreshed, or appended. */
  method TouchSender(table: ContactTable, phone: string, name: string, now: int)
    requires table.Valid()
    modifies table
    ensures table.Valid()
    ensures table.rows == Touched(old(table.rows), phone, name, now)
  {
    TouchedKeepsDistinct(table.rows, phone, name, now);
    var found := FindPhone(table.rows, phone);
    if found.Some? {
      var k := found.value;
      table.rows := table.rows[k := table.rows[k].(lastInteraction := now, isActive := true, warningSent := false)];
    } else {
      table.rows := table.rows + [Contact(phone, name, now, true, false, Idle, None)];
    }
  }

  /** webhook_notification: the sender reset, then the option loop and the reply. */
  method WebhookNotification(table: ContactTable, n: Notification, now: int) returns (reply: Option<LegacyReply>)
    requires table.Valid()
    modifies table
    ensures table.Valid()
    ensures (table.rows, reply) == WebhookTurn(old(table.rows), n, now)
  {
    if n.OtherMessage? {
      return None;
    }
    var name := n.profileName.GetOr(DefaultUserName);
    ghost var touched := Touched(table.rows, n.phone, name, now);
    TouchSender(table, n.phone, name, now);
    var message := BotService.Normalise(n.body);
    var option := BotService.ChooseOption(LegacyOptionTable, message);
    var text := MenuReply(message, option, name);
    if text == SubscriptionCancelled {
      var k := FindPhone(table.rows, n.phone).value;
      table.rows := table.rows[k := table.rows[k].(isActive := false)];
      assert table.rows == Deactivated(touched, n.phone);
    }
    reply := Some(text);
  }
}

=== FILE: legacy_main.dfy ===
/**
 * The first version of the bot, kept in the application entry point: a
 * stateless keyword menu with five options, where option 5 switches off the
 * contact's subscription, and its own copy of the WebSocket registry whose
 * send-to-phone cleanup discards the failed sockets in one pass.
 */
module LegacyMain {
  import opened Wrappers
  import opened Text
  import opened WhatsappModels
  import BotService
  import opened WebsocketManager

  /** option_map, in insertion order, which is the order the keywords are tried. */
  const LegacyOptionTable: seq<(string, nat)> := [
    ("1", 1), ("contacto", 1),
    ("2", 2), ("pago", 2), ("comprobante", 2),
    ("3", 3), ("animo", 3), ("ánimo", 3),
    ("4", 4), ("datos", 4),
    ("5", 5), ("cancelar", 5), ("suscripcion", 5), ("suscripción", 5)]

  /** The replies of the legacy menu, one per message text. */
  datatype LegacyReply =
    | LegacyWelcome
    | SubscriptionCancelled
    | SubscriptionNotFound
    | ContactNumbers
    | DataTreatment(displayName: string)
    | OptionChosen(option: nat)
    | InvalidOption

  /** The first row whose name is `name`: `.filter(name == user_name).first()`. */
  function FindName(rows: seq<Contact>, name: string): (r: Option<nat>)
    ensures r.Some? ==> r.value < |rows| && rows[r.value].name == name
    ensures r.Some? ==> forall j :: 0 <= j < r.value ==> rows[j].name != name
    ensures r.None? <==> forall j :: 0 <= j < |rows| ==> rows[j].name != name
  {
    if rows == [] then None
    else if rows[0].name == name then Some(0)
    else
      match FindName(rows[1..], name)
      case Some(k) => Some(k + 1)
      case None => None
  }

  /** get_display_name: the stored name of the phone's row, else the profile name. */
  function LegacyDisplayName(rows: seq<Contact>, phone: string, userName: string): (r: string)
    ensures FindPhone(rows, phone).None? ==> r == userName
    ensures FindPhone(rows, phone).Some? ==> r == rows[FindPhone(rows, phone).value].name
  {
    match FindPhone(rows, phone)
    case Some(k) => rows[k].name
    case None => userName
  }

  /** The table and the reply after one legacy turn on an already normalised message. */
  function LegacyTurn(rows: seq<Contact>, message: string, userName: string, phone: string): (r: (seq<Contact>, LegacyReply))
    ensures message == "menu" || message == "hola" ==> r == (rows, LegacyWelcome)
    ensures r.1 == InvalidOption <==>
      message != "menu" && message != "hola" && BotService.FirstHit(LegacyOptionTable, message).None?
    ensures r.0 != rows ==>
      && BotService.FirstHit(LegacyOptionTable, message) == Some(5)
      && FindName(rows, userName).Some?
      && r.0 == rows[FindName(rows, userName).value := rows[FindName(rows, userName).value].(isActive := false)]
    ensures r.1 == SubscriptionCancelled <==>
      message != "menu" && message != "hola"
      && BotService.FirstHit(LegacyOptionTable, message) == Some(5) && FindName(rows, userName).Some?
    ensures message != "menu" && message != "hola" && BotService.FirstHit(LegacyOptionTable, message) == Some(5)
      && FindName(rows, userName).None?
      ==> r == (rows, SubscriptionNotFound)
    ensures message != "menu" && message != "hola" && BotService.FirstHit(LegacyOptionTable, message) == Some(1)
      ==> r == (rows, ContactNumbers)
    ensures message != "menu" && message != "hola" && BotService.FirstHit(LegacyOptionTable, message) == Some(4)
      ==> r == (rows, DataTreatment(LegacyDisplayName(rows, phone, userName)))
    ensures message != "menu" && message != "hola" && BotService.FirstHit(LegacyOptionTable, message).Some?
      && BotService.FirstHit(LegacyOptionTable, message).value !in {1, 4, 5}
      ==> r == (rows, OptionChosen(BotService.FirstHit(LegacyOptionTable, message).value))
  {
    var option := BotService.FirstHit(LegacyOptionTable, message);
    if message == "menu" || message == "hola" then (rows, LegacyWelcome)
    else if option.None? then (rows, InvalidOption)
    else if option.value == 5 then
      match FindName(rows, userName)
      case Some(k) => (rows[k := rows[k].(isActive := false)], SubscriptionCancelled)
      case None => (rows, SubscriptionNotFound)
    else if option.value == 1 then (rows, ContactNumbers)
    else if option.value == 4 then (rows, DataTreatment(LegacyDisplayName(rows, phone, userName)))
    else (rows, OptionChosen(option.value))
  }

  /** Option 5 deactivates exactly one row and leaves phone numbers distinct. */
  lemma CancellationKeepsTable(rows: seq<Contact>, message: string, userName: string, phone: string)
    requires DistinctPhones(rows)
    ensures var r := LegacyTurn(rows, message, userName, phone).0;
      DistinctPhones(r) && |r| == |rows|
      && forall j :: 0 <= j < |rows| ==> r[j] == rows[j] || r[j] == rows[j].(isActive := false)
  {
  }

  /** Substring matching: "12" is option 1, because "1" is tried first. */
  lemma LegacyTwelvePicksOptionOne()
    ensures LegacyTurn([], "12", "", "") == ([], ContactNumbers)
  {
    assert StartsWith("12", "1");
  }

  /** process_message (legacy): normalise, then one turn; the option loop stops at the first keyword. */
  method LegacyProcessMessage(table: ContactTable, rawMessage: string, userName: string, phone: string)
    returns (reply: LegacyReply)
    requires table.Valid()
    modifies table
    ensures table.Valid()
    ensures (table.rows, reply) == LegacyTurn(old(table.rows), BotService.Normalise(rawMessage), userName, phone)
  {
    var message := BotService.Normalise(rawMessage);
    CancellationKeepsTable(table.rows, message, userName, phone);
    var option := BotService.ChooseOption(LegacyOptionTable, message);
    if message == "menu" || message == "hola" {
      reply := LegacyWelcome;
    } else if option.None? {
      reply := InvalidOption;
    } else if option.value == 5 {
      var k := FindName(table.rows, userName);
      if k.Some? {
        table.rows := table.rows[k.value := table.rows[k.value].(isActive := false)];
        reply := SubscriptionCancelled;
      } else {
        reply := SubscriptionNotFound;
      }
    } else if option.value == 1 {
      reply := ContactNumbers;
    } else if option.value == 4 {
      reply := DataTreatment(LegacyDisplayName(table.rows, phone, userName));
    } else {
      reply := OptionChosen(option.value);
    }
  }

  /**
   * send_message_to_phone of the legacy registry: the failed sockets are
   * collected, discarded from the phone's set in one pass, and the key is
   * deleted afterwards if the set is empty. It ends in the same state as the
   * disconnect-per-socket cleanup of the registry module.
   */
  method LegacySendMessageToPhone(manager: ConnectionManager, phone: string, failing: set<Socket>)
    returns (reached: set<Socket>)
    requires manager.Valid()
    modifies manager
    ensures manager.Valid()
    ensures manager.activeConnections == Discarded(old(manager.activeConnections), phone, failing)
    ensures reached == (if phone in old(manager.activeConnections) then old(manager.activeConnections)[phone] - failing else {})
    ensures manager.generalConnections == old(manager.generalConnections)
  {
    reached := {};
    if phone !in manager.activeConnections {
      return;
    }
    var targets := manager.activeConnections[phone];
    var pending := targets;
    var disconnected: set<Socket> := {};
    while pending != {}
      invariant pending <= targets
      invariant reached == (targets - pending) - failing
      invariant disconnected == (targets - pending) * failing
      decreases pending
    {
      var w :| w in pending;
      if w in failing {
        disconnected := disconnected + {w};
      } else {
        reached := reached + {w};
      }
      pending := pending - {w};
    }
    var remaining := disconnected;
    assert targets - (disconnected - remaining) == targets;
    while remaining != {}
      invariant remaining <= disconnected
      invariant phone in manager.activeConnections
      invariant manager.activeConnections ==
        old(manager.activeConnections)[phone := targets - (disconnected - remaining)]
      invariant manager.generalConnections == old(manager.generalConnections)
      decreases remaining
    {
      var w :| w in remaining;
      assert targets - (disconnected - remaining) - {w} == targets - (disconnected - (remaining - {w}));
      manager.activeConnections := manager.activeConnections[phone := manager.activeConnections[phone] - {w}];
      remaining := remaining - {w};
    }
    assert disconnected - remaining == disconnected;
    assert targets - disconnected == targets - failing;
    ghost var start := old(manager.activeConnections);
    if manager.activeConnections[phone] == {} {
      manager.activeConnections := manager.activeConnections - {phone};
      assert manager.activeConnections == start - {phone};
    } else {
      assert start[phone] == targets;
      assert manager.activeConnections == start[phone := start[phone] - failing];
    }
  }
}

=== FILE: messaging.dfy ===
/**
 * Outgoing WhatsApp Cloud API requests: the JSON body of a text message and
 * of a reply-button message, and the checks made before a request is sent.
 * The HTTP POST itself is an input: `post(body)` says whether the API
 * answered with a success status.
 */
module WhatsappMessaging {
  import opened Wrappers

  /** The JSON values the request bodies are made of. */
  datatype Json = JString(s: string) | JObject(fields: map<string, Json>) | JArray(items: seq<Json>)

  /** validate_whatsapp_config: access token, phone number id and business account id all set. */
  predicate ConfigValid(accessToken: string, phoneNumberId: string, businessAccountId: string)
  {
    accessToken != "" && phoneNumberId != "" && businessAccountId != ""
  }

  /** get_base_whatsapp_data. */
  function BaseData(to: string, messageType: string): map<string, Json>
  {
    map["messaging_product" := JString("whatsapp"), "to" := JString(to), "type" := JString(messageType)]
  }

  /** The body of a text message. */
  function TextBody(to: string, message: string): Json
  {
    JObject(BaseData(to, "text")["text" := JObject(map["body" := JString(message)])])
  }

  /** send_whatsapp_message: nothing is posted when the configuration is incomplete. */
  method SendWhatsappMessage(to: string, message: string, configOk: bool, post: Json -> bool)
    returns (ok: bool, request: Option<Json>)
    ensures request.Some? <==> configOk
    ensures request.Some? ==> request.value == TextBody(to, message)
    ensures ok <==> request.Some? && post(request.value)
  {
    if !configOk {
      return false, None;
    }
    var data := TextBody(to, message);
    return post(data), Some(data);
  }

  /** A button as a caller passes it: a dict of strings, or something else. */
  datatype ButtonInput = DictButton(fields: map<string, string>) | NotADict

  /** The per-button check: a dict with 'id' and 'title', the title at most 20 characters. */
  predicate ValidButton(b: ButtonInput)
  {
    b.DictButton? && "id" in b.fields && "title" in b.fields && |b.fields["title"]| <= 20
  }

  /** Between one and three buttons, each valid. */
  predicate ValidButtons(buttons: seq<ButtonInput>)
  {
    1 <= |buttons| <= 3 && forall i :: 0 <= i < |buttons| ==> ValidButton(buttons[i])
  }

  /** {"type": "reply", "reply": {"id": ..., "title": ...}} for one valid button. */
  function ReplyButton(b: ButtonInput): Json
    requires ValidButton(b)
  {
    JObject(map["type" := JString("reply"),
                "reply" := JObject(map["id" := JString(b.fields["id"]), "title" := JString(b.fields["title"])])])
  }

  /** The body of a reply-button message. */
  function InteractiveBody(to: string, bodyText: string, replies: seq<Json>): Json
  {
    JObject(BaseData(to, "interactive")["interactive" := JObject(map[
      "type" := JString("button"),
      "body" := JObject(map["text" := JString(bodyText)]),
      "action" := JObject(map["buttons" := JArray(replies)])])])
  }

  /** The reply buttons of a request, one per input button, in order. */
  function ReplyButtons(buttons: seq<ButtonInput>): seq<Json>
    requires forall i :: 0 <= i < |buttons| ==> ValidButton(buttons[i])
  {
    seq(|buttons|, i requires 0 <= i < |buttons| => ReplyButton(buttons[i]))
  }

  /**
   * send_whatsapp_interactive_buttons: rejects an empty list, more than three
   * buttons, a button without 'id' or 'title', or a title over 20 characters;
   * otherwise posts one reply button per input button, in order.
   */
  method SendInteractiveButtons(to: string, bodyText: string, buttons: seq<ButtonInput>, post: Json -> bool)
    returns (ok: bool, request: Option<Json>)
    ensures request.Some? <==> ValidButtons(buttons)
    ensures request.Some? ==> ValidButtons(buttons) && request.value == InteractiveBody(to, bodyText, ReplyButtons(buttons))
    ensures ok <==> request.Some? && post(request.value)
  {
    if |buttons| == 0 || |buttons| > 3 {
      return false, None;
    }
    var valid := CheckButtons(buttons);
    if !valid {
      return false, None;
    }
    var replies := BuildReplies(buttons);
    var data := InteractiveBody(to, bodyText, replies);
    return post(data), Some(data);
  }

  /** The validation loop: stops at the first button that is not a dict with 'id' and a short 'title'. */
  method CheckButtons(buttons: seq<ButtonInput>) returns (valid: bool)
    ensures valid <==> forall i :: 0 <= i < |buttons| ==> ValidButton(buttons[i])
  {
    var i := 0;
    while i < |buttons|
      invariant 0 <= i <= |buttons|
      invariant forall j :: 0 <= j < i ==> ValidButton(buttons[j])
    {
      var b := buttons[i];
      if !(b.DictButton? && "id" in b.fields && "title" in b.fields) {
        return false;
      }
      if |b.fields["title"]| > 20 {
        return false;
      }
      i := i + 1;
    }
    return true;
  }

  /** The loop building the reply buttons. */
  method BuildReplies(buttons: seq<ButtonInput>) returns (replies: seq<Json>)
    requires forall i :: 0 <= i < |buttons| ==> ValidButton(buttons[i])
    ensures replies == ReplyButtons(buttons)
  {
    replies := [];
    var i := 0;
    while i < |buttons|
      invariant 0 <= i <= |buttons|
      invariant |replies| == i
      invariant forall j :: 0 <= j < i ==> replies[j] == ReplyButton(buttons[j])
    {
      replies := replies + [ReplyButton(buttons[i])];
      i := i + 1;
    }
  }
}

=== FILE: payment_models.dfy ===
/**
 * The two payment tables: registered employees (payment_users) and their
 * receipt rows (payment_receipts). Rows are kept in insertion order, and
 * `.first()` and `.all()` are read as scanning them in that order; ids are
 * assigned 1, 2, 3, ... and receipts are only ever deactivated, never removed.
 */
module PaymentModels {
  import opened Calendar

  /** A calendar date that `datetime(...)` accepts. */
  type CalendarDate = d: Date | ValidDate(d) witness Date(2000, 1, 1)

  /** A moment that `datetime(...)` accepts. */
  type Moment = t: DateTime | ValidDateTime(t) witness DateTime(Date(2000, 1, 1), 0, 0, 0)

  /**
   * A row of payment_users. The expedition date column is a full datetime:
   * create_user stores midnight, while the admin create and update routes
   * store whatever time of day they are sent.
   */
  datatype PaymentUser = PaymentUser(id: nat, cedula: string, name: string, expeditionDate: Moment, isActive: bool)

  /** A row of payment_receipts. */
  datatype PaymentReceipt = PaymentReceipt(id: nat, cedula: string, filePath: string, fileName: string, isActive: bool)

  class PaymentDb {
    var users: seq<PaymentUser>
    var receipts: seq<PaymentReceipt>

    /** Auto-increment ids: the row at position i has id i + 1. */
    ghost predicate Valid()
      reads this
    {
      (forall i :: 0 <= i < |users| ==> users[i].id == i + 1)
      && (forall i :: 0 <= i < |receipts| ==> receipts[i].id == i + 1)
    }

    constructor ()
      ensures Valid() && users == [] && receipts == []
    {
      users := [];
      receipts := [];
    }
  }
}

=== FILE: payments_router.dfy ===
/**
 * The payments router's file handling: the consecutive number a newly
 * uploaded receipt gets ("0007_<cedula>.pdf"), the choice of the path that is
 * stored, and the rename and move handlers that rewrite a receipt row's
 * file name and path in place. The directory listing, the local save, the
 * FTP calls and os.path.exists are inputs.
 */
module PaymentsRouter {
  import opened Wrappers
  import opened Text
  import opened PaymentModels
  import opened FtpService
  import opened ReceiptService

  /* ---------------- consecutive allocation ---------------- */

  /** A listed file counts for `cedula` when it ends with ".pdf" and with "_<cedula>.pdf". */
  predicate CountsFor(file: string, cedula: string)
  {
    EndsWith(file, ".pdf") && EndsWith(file, "_" + cedula + ".pdf")
  }

  /** int(file.split('_')[0]); None where int() raises. */
  function ConsecutiveOf(file: string): Option<int>
  {
    ParseInt(Split(file, '_')[0])
  }

  /** What one listed file contributes: its number when it counts and int() reads it. */
  function Reading(file: string, cedula: string): Option<int>
  {
    if CountsFor(file, cedula) then ConsecutiveOf(file) else None
  }

  /** The values present in a list of optional readings, in order. */
  function Present(rs: seq<Option<int>>): (xs: seq<int>)
    ensures forall x :: x in xs <==> exists k :: 0 <= k < |rs| && rs[k] == Some(x)
  {
    if rs == [] then []
    else
      var front := rs[..|rs| - 1];
      assert forall k :: 0 <= k < |front| ==> rs[k] == front[k];
      Present(front) + (if rs[|rs| - 1].Some? then [rs[|rs| - 1].value] else [])
  }

  /** The reading of every listed file, in listing order. */
  function Readings(files: seq<string>, cedula: string): (rs: seq<Option<int>>)
    ensures |rs| == |files|
    ensures forall k :: 0 <= k < |files| ==> rs[k] == Reading(files[k], cedula)
  {
    if files == [] then []
    else Readings(files[..|files| - 1], cedula) + [Reading(files[|files| - 1], cedula)]
  }

  /** consecutivos: the readable prefixes of the files that count, in listing order. */
  function Consecutives(files: seq<string>, cedula: string): seq<int>
  {
    Present(Readings(files, cedula))
  }

  /** A number is collected exactly when some listed file counts and reads as it. */
  lemma ConsecutivesAreReadings(files: seq<string>, cedula: string)
    ensures forall x :: x in Consecutives(files, cedula) <==>
      exists k :: 0 <= k < |files| && CountsFor(files[k], cedula) && ConsecutiveOf(files[k]) == Some(x)
  {
    var rs := Readings(files, cedula);
    forall x | x in Consecutives(files, cedula)
      ensures exists k :: 0 <= k < |files| && CountsFor(files[k], cedula) && ConsecutiveOf(files[k]) == Some(x)
    {
      var k :| 0 <= k < |rs| && rs[k] == Some(x);
      assert Reading(files[k], cedula) == Some(x);
    }
    forall x, k | 0 <= k < |files| && CountsFor(files[k], cedula) && ConsecutiveOf(files[k]) == Some(x)
      ensures x in Consecutives(files, cedula)
    {
      assert rs[k] == Some(x);
    }
  }

  /** max(xs). */
  function MaxOf(xs: seq<int>): (m: int)
    requires xs != []
    ensures m in xs
    ensures forall k :: 0 <= k < |xs| ==> xs[k] <= m
  {
    if |xs| == 1 then xs[0]
    else
      var m := MaxOf(xs[..|xs| - 1]);
      assert forall k :: 0 <= k < |xs| - 1 ==> xs[k] == xs[..|xs| - 1][k];
      if xs[|xs| - 1] > m then xs[|xs| - 1] else m
  }

  /** max(consecutivos) + 1, or 1 when there is none. */
  function NextConsecutive(files: seq<string>, cedula: string): (n: int)
    ensures forall x :: x in Consecutives(files, cedula) ==> x < n
    ensures Consecutives(files, cedula) == [] ==> n == 1
    ensures Consecutives(files, cedula) != [] ==> n - 1 in Consecutives(files, cedula)
  {
    var cs := Consecutives(files, cedula);
    if cs == [] then 1
    else
      var m := MaxOf(cs);
      assert forall x :: x in cs ==> x <= m;
      m + 1
  }

  /** Every listed file that counts and reads as a number is below the next consecutive. */
  lemma NextExceedsListed(files: seq<string>, cedula: string, k: nat)
    requires k < |files| && CountsFor(files[k], cedula) && ConsecutiveOf(files[k]).Some?
    ensures ConsecutiveOf(files[k]).value < NextConsecutive(files, cedula)
  {
    assert ConsecutiveOf(files[k]).value in Consecutives(files, cedula);
  }

  /** The allocation loop of upload_receipt_file over the .pdf files of the folder. */
  method AllocateConsecutive(files: seq<string>, cedula: string) returns (n: int)
    ensures n == NextConsecutive(files, cedula)
  {
    var consecutivos: seq<int> := [];
    var i := 0;
    while i < |files|
      invariant 0 <= i <= |files|
      invariant consecutivos == Present(Readings(files[..i], cedula))
    {
      assert files[..i + 1][..i] == files[..i];
      ghost var before := Readings(files[..i], cedula);
      ghost var r := Reading(files[i], cedula);
      assert Readings(files[..i + 1], cedula) == before + [r];
      assert (before + [r])[..|before|] == before;
      if CountsFor(files[i], cedula) {
        var c := ConsecutiveOf(files[i]);
        if c.Some? {
          consecutivos := consecutivos + [c.value];
        }
      }
      i := i + 1;
    }
    assert files[..i] == files;
    if consecutivos == [] {
      n := 1;
    } else {
      var best := LargestOf(consecutivos);
      n := best + 1;
    }
  }

  /** max() over a non-empty list, scanning left to right. */
  method LargestOf(xs: seq<int>) returns (m: int)
    requires xs != []
    ensures m == MaxOf(xs)
  {
    m := xs[0];
    var j := 1;
    while j < |xs|
      invariant 1 <= j <= |xs|
      invariant m == MaxOf(xs[..j])
    {
      assert xs[..j + 1][..j] == xs[..j];
      if xs[j] > m {
        m := xs[j];
      }
      j := j + 1;
    }
    assert xs[..j] == xs;
  }

  /** f"{n:04d}_{cedula}.pdf". */
  function NewFilename(n: int, cedula: string): string
  {
    FormatPadded(n, 4) + "_" + cedula + ".pdf"
  }

  /** A zero-padded rendering holds only digits and a leading sign. */
  lemma PaddedHasNoUnderscore(n: int, width: nat)
    ensures '_' !in FormatPadded(n, width)
  {
    if n >= 0 {
      PadZerosValue(NatToString(n), width);
      DigitsHaveNoUnderscore(PadZeros(NatToString(n), width));
    } else {
      var digits := PadZeros(NatToString(-n), width - 1);
      PadZerosValue(NatToString(-n), width - 1);
      DigitsHaveNoUnderscore(digits);
      assert FormatPadded(n, width) == "-" + digits;
    }
  }

  lemma DigitsHaveNoUnderscore(s: string)
    requires IsDigitString(s)
    ensures '_' !in s
  {
    forall i | 0 <= i < |s| ensures s[i] != '_' {
      assert IsDigit(s[i]);
    }
  }

  /** split('_')[0] of "<a>_<b>" is `a` when `a` has no '_'. */
  lemma SplitHead(a: string, b: string)
    requires '_' !in a
    ensures Split(a + "_" + b, '_')[0] == a
  {
    var s := a + "_" + b;
    assert s[|a|] == '_';
    var i := IndexOf(s, '_');
    assert s[..|a|] == a;
    assert forall j :: 0 <= j < i ==> s[..i][j] == s[j];
    assert i == |a|;
  }

  /** "<head>_<cedula>.pdf" ends with ".pdf" and with "_<cedula>.pdf", whatever the head. */
  lemma SuffixedNameCounts(head: string, cedula: string)
    ensures CountsFor(head + "_" + cedula + ".pdf", cedula)
  {
    var tail := "_" + cedula + ".pdf";
    var name := head + tail;
    assert head + "_" + cedula + ".pdf" == name;
    assert name[|name| - |tail|..] == tail;
    assert tail[|tail| - 4..] == ".pdf";
    assert name[|name| - 4..] == tail[|tail| - 4..];
  }

  /** The allocated name counts for the cedula. */
  lemma NewFilenameCounts(n: int, cedula: string)
    ensures CountsFor(NewFilename(n, cedula), cedula)
  {
    SuffixedNameCounts(FormatPadded(n, 4), cedula);
  }

  /** The allocated name reads back as its own consecutive. */
  lemma NewFilenameReadsBack(n: int, cedula: string)
    ensures ConsecutiveOf(NewFilename(n, cedula)) == Some(n)
  {
    var head := FormatPadded(n, 4);
    PaddedHasNoUnderscore(n, 4);
    assert NewFilename(n, cedula) == head + "_" + (cedula + ".pdf");
    SplitHead(head, cedula + ".pdf");
    FormatPaddedParses(n, 4);
  }

  /** The new file name never collides with a .pdf already in the folder. */
  lemma NewFilenameIsFresh(files: seq<string>, cedula: string)
    ensures NewFilename(NextConsecutive(files, cedula), cedula) !in files
  {
    var n := NextConsecutive(files, cedula);
    NewFilenameCounts(n, cedula);
    NewFilenameReadsBack(n, cedula);
    forall k | 0 <= k < |files| && CountsFor(files[k], cedula) && ConsecutiveOf(files[k]).Some?
      ensures ConsecutiveOf(files[k]).value < n
    {
      NextExceedsListed(files, cedula, k);
    }
  }

  /** A non-negative consecutive is written with at least four digits. */
  lemma NewFilenameWidth(n: nat, cedula: string)
    ensures IsDigitString(FormatPadded(n, 4)) && |FormatPadded(n, 4)| >= 4
    ensures NatValue(FormatPadded(n, 4)) == n
  {
    PadZerosValue(NatToString(n), 4);
    NatToStringValue(n);
  }

  /* ---------------- upload_receipt_file ---------------- */

  /** public_url or remote_path or the local path, in that order, skipping empty ones. */
  function StoredPath(localPath: string, up: FtpService.UploadResult): (p: string)
    ensures up.publicUrl.Some? && up.publicUrl.value != "" ==> p == up.publicUrl.value
    ensures !(up.publicUrl.Some? && up.publicUrl.value != "") && up.remotePath.Some? && up.remotePath.value != ""
      ==> p == up.remotePath.value
    ensures (up.publicUrl.None? || up.publicUrl.value == "") && (up.remotePath.None? || up.remotePath.value == "")
      ==> p == localPath
  {
    if up.publicUrl.Some? && up.publicUrl.value != "" then up.publicUrl.value
    else if up.remotePath.Some? && up.remotePath.value != "" then up.remotePath.value
    else localPath
  }

  /** The upload directory "static/receipts/<folder>" joined with the file name. */
  function LocalPath(folder: string, name: string): string
  {
    "static/receipts/" + folder + "/" + name
  }

  datatype UploadError =
    | NotPdf
    | BadFolder
    | SaveFailed
    | MissingCedula
    | CreateFailed(cause: ReceiptError)

  /** What upload_receipt_file depends on besides its arguments. */
  datatype UploadWorld = UploadWorld(
    listing: seq<string>,               // os.listdir of the upload directory
    saveOk: bool,                       // whether writing the local copy succeeded
    ftp: FtpService.UploadResult,       // the pair ftp_upload returned
    onDisk: string -> bool)            // os.path.exists

  /** existing_files: the entries of the listing that end with ".pdf". */
  function PdfFiles(listing: seq<string>): (fs: seq<string>)
    ensures forall k :: 0 <= k < |fs| ==> EndsWith(fs[k], ".pdf") && fs[k] in listing
    ensures forall k :: 0 <= k < |listing| && EndsWith(listing[k], ".pdf") ==> listing[k] in fs
  {
    if listing == [] then []
    else
      var front := listing[..|listing| - 1];
      var rest := PdfFiles(front);
      assert forall k :: 0 <= k < |front| ==> listing[k] == front[k];
      assert forall x :: x in front ==> x in listing;
      if EndsWith(listing[|listing| - 1], ".pdf") then rest + [listing[|listing| - 1]] else rest
  }

  /**
   * What the handler's name `file` is bound to once the scan of existing_files
   * is over: the scan's loop variable is also called `file`, so it still holds
   * the uploaded body only when no ".pdf" was listed, and the last listed name
   * otherwise.
   */
  datatype FileBinding = UploadedBody | ListedName(name: string)

  function FileAfterScan(existing: seq<string>): (b: FileBinding)
    ensures b == UploadedBody <==> existing == []
    ensures existing != [] ==> b == ListedName(existing[|existing| - 1])
  {
    if existing == [] then UploadedBody else ListedName(existing[|existing| - 1])
  }

  /** No ".pdf" listed: no consecutive is read back, so numbering starts at 1. */
  lemma EmptyListingStartsAtOne(cedula: string)
    ensures NextConsecutive(PdfFiles([]), cedula) == 1
  {
    assert Readings([], cedula) == [];
  }

  /**
   * A single ".pdf" anywhere in the upload directory rebinds `file` to a name,
   * so the later copy from the upload's body reads an attribute a string does
   * not have.
   */
  lemma ListedPdfBreaksSave(listing: seq<string>, k: nat)
    requires k < |listing| && EndsWith(listing[k], ".pdf")
    ensures FileAfterScan(PdfFiles(listing)).ListedName?
  {
    assert listing[k] in PdfFiles(listing);
  }

  /**
   * upload_receipt_file as written. The save copies from the upload's body
   * through `file`, which the scan of existing_files has rebound to a name
   * whenever a ".pdf" is listed; the resulting error is reported as a failed
   * save. The row is then created with the stored path and create_receipt
   * checks that path on the local disk: without an upload it is the file just
   * written, which exists, but whenever the FTP upload returned a path the
   * check looks for a remote path locally.
   */
  method UploadReceiptFile(db: PaymentDb, filename: string, cedula: string, folder: string, w: UploadWorld)
    returns (r: Result<PaymentReceipt, UploadError>, name: string)
    requires db.Valid()
    modifies db
    ensures db.Valid() && db.users == old(db.users)
    ensures !EndsWith(Lower(filename), ".pdf") ==> r == Err(NotPdf)
    ensures EndsWith(Lower(filename), ".pdf") && !(folder == Recientes || folder == Anteriores) ==> r == Err(BadFolder)
    ensures r.Err? ==> db.receipts == old(db.receipts)
    ensures r.Ok? ==>
      name == NewFilename(NextConsecutive(PdfFiles(w.listing), cedula), cedula)
      && w.saveOk && cedula != ""
      && (StoredPath(LocalPath(folder, name), w.ftp) == LocalPath(folder, name) || w.onDisk(StoredPath(LocalPath(folder, name), w.ftp)))
      && r.value == PaymentReceipt(|old(db.receipts)| + 1, cedula, StoredPath(LocalPath(folder, name), w.ftp), name, true)
      && db.receipts == old(db.receipts) + [r.value]
    ensures r.Ok? ==> name !in w.listing
    ensures EndsWith(Lower(filename), ".pdf") && (folder == Recientes || folder == Anteriores) && PdfFiles(w.listing) != []
      ==> r == Err(SaveFailed)
    ensures r.Ok? ==> PdfFiles(w.listing) == [] && name == NewFilename(1, cedula)
    ensures HostedOffDisk(w) ==> r.Err?
    ensures
      var local := LocalPath(folder, NewFilename(1, cedula));
      var stored := StoredPath(local, w.ftp);
      EndsWith(Lower(filename), ".pdf") && (folder == Recientes || folder == Anteriores) && PdfFiles(w.listing) == []
      && w.saveOk && cedula != "" && (stored == local || w.onDisk(stored))
      && (forall k :: 0 <= k < |old(db.receipts)| ==> old(db.receipts)[k].filePath != stored)
      ==> r.Ok?
    ensures EndsWith(Lower(filename), ".pdf") && (folder == Recientes || folder == Anteriores) && PdfFiles(w.listing) == []
      && w.saveOk && cedula != "" && w.ftp == FtpService.UploadResult(None, None)
      && (forall k :: 0 <= k < |old(db.receipts)| ==> old(db.receipts)[k].filePath != LocalPath(folder, NewFilename(1, cedula)))
      ==> r.Ok?
  {
    name := "";
    if !EndsWith(Lower(filename), ".pdf") {
      return Err(NotPdf), name;
    }
    if !(folder == Recientes || folder == Anteriores) {
      return Err(BadFolder), name;
    }
    var existing := PdfFiles(w.listing);
    var n := AllocateConsecutive(existing, cedula);
    name := NewFilename(n, cedula);
    NewFilenameIsFresh(existing, cedula);
    var path := LocalPath(folder, name);
    if !w.saveOk || FileAfterScan(existing).ListedName? {
      return Err(SaveFailed), name;
    }
    EmptyListingStartsAtOne(cedula);
    if cedula == "" {
      return Err(MissingCedula), name;
    }
    var stored := StoredPath(path, w.ftp);
    if HostedOffDisk(w) {
      FtpUploadIsRefused(w, folder, name);
    }
    var created := CreateReceipt(db, cedula, stored, name, stored == path || w.onDisk(stored));
    if created.Err? {
      return Err(CreateFailed(created.error)), name;
    }
    return Ok(created.value), name;
  }

  /**
   * The hosting answered with a public URL or a remote path that lies outside
   * the local "static/" tree and is not a file on the local disk.
   */
  predicate HostedOffDisk(w: UploadWorld)
  {
    var hosted := StoredPath("", w.ftp);
    hosted != "" && !StartsWith(hosted, "static/") && !w.onDisk(hosted)
  }

  /**
   * Once the hosting has answered off the local disk, the existence argument
   * that upload_receipt_file hands to create_receipt is false for every
   * folder and name, so every such upload is refused.
   */
  lemma FtpUploadIsRefused(w: UploadWorld, folder: string, name: string)
    requires HostedOffDisk(w)
    ensures var stored := StoredPath(LocalPath(folder, name), w.ftp);
      stored != LocalPath(folder, name) && !w.onDisk(stored)
  {
    var local := LocalPath(folder, name);
    assert local[..7] == "static/";
    assert StartsWith(local, "static/");
  }

  /**
   * upload_receipt_file as evidently intended: the scan of existing_files does
   * not reuse the name of the upload, so the save depends only on the disk;
   * the existence check is made on the local copy that was just written, and
   * the row then records the stored (remote when uploaded) path.
   */
  method UploadReceiptFileChecked(db: PaymentDb, filename: string, cedula: string, folder: string, w: UploadWorld)
    returns (r: Result<PaymentReceipt, UploadError>, name: string)
    requires db.Valid()
    modifies db
    ensures db.Valid() && db.users == old(db.users)
    ensures !EndsWith(Lower(filename), ".pdf") ==> r == Err(NotPdf)
    ensures EndsWith(Lower(filename), ".pdf") && !(folder == Recientes || folder == Anteriores) ==> r == Err(BadFolder)
    ensures r.Err? ==> db.receipts == old(db.receipts)
    ensures r.Ok? ==>
      name == NewFilename(NextConsecutive(PdfFiles(w.listing), cedula), cedula)
      && r.value == PaymentReceipt(|old(db.receipts)| + 1, cedula, StoredPath(LocalPath(folder, name), w.ftp), name, true)
      && db.receipts == old(db.receipts) + [r.value]
    ensures EndsWith(Lower(filename), ".pdf") && (folder == Recientes || folder == Anteriores) && w.saveOk && cedula != ""
      && (forall k :: 0 <= k < |old(db.receipts)| ==> old(db.receipts)[k].filePath != StoredPath(LocalPath(folder, name), w.ftp))
      ==> r.Ok?
    ensures r.Ok? ==> name !in w.listing
  {
    name := "";
    if !EndsWith(Lower(filename), ".pdf") {
      return Err(NotPdf), name;
    }
    if !(folder == Recientes || folder == Anteriores) {
      return Err(BadFolder), name;
    }
    var existing := PdfFiles(w.listing);
    var n := AllocateConsecutive(existing, cedula);
    name := NewFilename(n, cedula);
    NewFilenameIsFresh(existing, cedula);
    var path := LocalPath(folder, name);
    if !w.saveOk {
      return Err(SaveFailed), name;
    }
    if cedula == "" {
      return Err(MissingCedula), name;
    }
    var stored := StoredPath(path, w.ftp);
    var created := CreateReceipt(db, cedula, stored, name, true);
    if created.Err? {
      return Err(CreateFailed(created.error)), name;
    }
    return Ok(created.value), name;
  }

  /* ---------------- rename and move ---------------- */

  /** "recientes" if "/recientes/" occurs in the path, else "anteriores". */
  function FolderOf(path: string): (f: string)
    ensures f == Recientes <==> Contains(path, "/recientes/")
    ensures f == Recientes || f == Anteriores
  {
    if Contains(path, "/recientes/") then Recientes else Anteriores
  }

  /**
   * A relative path with no folder segment before "recientes", such as the
   * remote path "recientes/<name>" stored when no base directory is set, is
   * read as "anteriores".
   */
  lemma RelativePathReadsAsAnteriores(name: string)
    requires '/' !in name
    ensures FolderOf(Recientes + "/" + name) == Anteriores
  {
    var p := Recientes + "/" + name;
    var needle := "/recientes/";
    assert forall t :: 0 <= t < 9 ==> p[t] == Recientes[t] != '/';
    assert forall t :: 10 <= t < |p| ==> p[t] == name[t - 10];
    forall i | 0 <= i <= |p| ensures !StartsWith(p[i..], needle) {
      if i + |needle| <= |p| {
        if p[i] == '/' {
          assert i == 9;
          assert p[i..][10] == p[19] != '/';
        } else {
          assert p[i..][0] != '/';
        }
      }
    }
    NotContains(p, needle);
  }

  /** new_name, with ".pdf" appended unless it already ends with it in any case. */
  function PdfName(newName: string): (n: string)
    ensures EndsWith(Lower(n), ".pdf")
    ensures EndsWith(Lower(newName), ".pdf") ==> n == newName
    ensures StartsWith(n, newName)
  {
    if EndsWith(Lower(newName), ".pdf") then newName
    else
      var n := newName + ".pdf";
      assert Lower(n) == Lower(newName) + Lower(".pdf");
      assert Lower(".pdf") == ".pdf";
      assert n[..|newName|] == newName;
      n
  }

  /** path.rsplit('/', 1)[0] + '/' + name. */
  function WithLastSegment(path: string, name: string): (p: string)
    ensures '/' in path ==> p == path[..LastIndexOf(path, '/')] + "/" + name
    ensures '/' !in path ==> p == path + "/" + name
    ensures EndsWith(p, "/" + name)
  {
    var head := if '/' in path then path[..LastIndexOf(path, '/')] else path;
    var p := head + "/" + name;
    assert p[|p| - |"/" + name|..] == "/" + name;
    p
  }

  /** Renaming keeps the directory part and makes the name the last segment. */
  lemma RenameKeepsDirectory(path: string, name: string)
    requires '/' in path && '/' !in name
    ensures var p := WithLastSegment(path, name);
      Basename(p) == name && p[..LastIndexOf(p, '/')] == path[..LastIndexOf(path, '/')]
  {
    var head := path[..LastIndexOf(path, '/')];
    var p := WithLastSegment(path, name);
    assert p == head + "/" + name;
    assert p[|head|] == '/';
    assert p[|head| + 1..] == name;
    var j := LastIndexOf(p, '/');
    assert forall t :: |head| < t < |p| ==> p[t] == name[t - |head| - 1];
    assert forall t :: j < t < |p| ==> p[j + 1..][t - j - 1] == p[t];
    assert j == |head|;
  }

  datatype PaymentError = NotFoundOrInactive | InvalidTarget | HostingFailed

  /** .filter(id == receipt_id, is_active == True).first(). */
  function FindActive(receipts: seq<PaymentReceipt>, id: nat): (k: Option<nat>)
    ensures k.Some? ==> k.value < |receipts| && receipts[k.value].id == id && receipts[k.value].isActive
    ensures k.Some? ==> forall j :: 0 <= j < k.value ==> !(receipts[j].id == id && receipts[j].isActive)
    ensures k.None? <==> forall j :: 0 <= j < |receipts| ==> !(receipts[j].id == id && receipts[j].isActive)
  {
    if receipts == [] then None
    else if receipts[0].id == id && receipts[0].isActive then Some(0)
    else
      var rest := FindActive(receipts[1..], id);
      if rest.Some? then Some(rest.value + 1) else None
  }

  /**
   * rename_receipt: the row's file name becomes the .pdf name and its path's
   * last segment is replaced by it, once the hosting rename succeeded.
   * `rename(folder, old, new)` is ftp_rename.
   */
  method RenameReceipt(db: PaymentDb, id: nat, newName: string, rename: (string, string, string) -> bool)
    returns (r: Result<PaymentReceipt, PaymentError>)
    requires db.Valid()
    modifies db
    ensures db.Valid() && db.users == old(db.users)
    ensures FindActive(old(db.receipts), id).None? ==> r == Err(NotFoundOrInactive) && db.receipts == old(db.receipts)
    ensures FindActive(old(db.receipts), id).Some? ==>
      var k := FindActive(old(db.receipts), id).value;
      var row := old(db.receipts)[k];
      var name := PdfName(newName);
      if rename(FolderOf(row.filePath), row.fileName, name) then
        r == Ok(row.(fileName := name, filePath := WithLastSegment(row.filePath, name)))
        && db.receipts == old(db.receipts)[k := r.value]
      else
        r == Err(HostingFailed) && db.receipts == old(db.receipts)
  {
    var found := FindActive(db.receipts, id);
    if found.None? {
      return Err(NotFoundOrInactive);
    }
    var k := found.value;
    var row := db.receipts[k];
    var folder := FolderOf(row.filePath);
    var name := PdfName(newName);
    if !rename(folder, row.fileName, name) {
      return Err(HostingFailed);
    }
    var updated := row.(fileName := name, filePath := WithLastSegment(row.filePath, name));
    db.receipts := db.receipts[k := updated];
    return Ok(updated);
  }

  /** The path a move stores: the returned path if absolute, else the folder segment swapped. */
  function MovedPath(path: string, current: string, target: string, returned: string): string
  {
    if StartsWith(returned, "/") then returned
    else ReplaceAll(path, "/" + current + "/", "/" + target + "/")
  }

  /** A replacement that finds its pattern leaves the replacement text in the result. */
  lemma {:induction false} ReplaceLeavesReplacement(s: string, pattern: string, replacement: string)
    requires |pattern| > 0 && Contains(s, pattern)
    ensures Contains(ReplaceAll(s, pattern, replacement), replacement)
    decreases |s|
  {
    var out := ReplaceAll(s, pattern, replacement);
    if StartsWith(s, pattern) {
      assert out == replacement + ReplaceAll(s[|pattern|..], pattern, replacement);
      assert StartsWith(out, replacement);
    } else {
      ReplaceLeavesReplacement(s[1..], pattern, replacement);
      assert out == [s[0]] + ReplaceAll(s[1..], pattern, replacement);
      assert out[1..] == ReplaceAll(s[1..], pattern, replacement);
    }
  }

  /**
   * A move into "recientes" that is answered with a relative path is seen as
   * being in "recientes" afterwards whenever the old path named
   * "/anteriores/"; an absolute answer is stored as given.
   */
  lemma MoveToRecientesIsSeen(path: string, returned: string)
    ensures !StartsWith(returned, "/") && Contains(path, "/anteriores/") ==>
      FolderOf(MovedPath(path, Anteriores, Recientes, returned)) == Recientes
    ensures StartsWith(returned, "/") ==> MovedPath(path, Anteriores, Recientes, returned) == returned
  {
    assert "/" + Anteriores + "/" == "/anteriores/";
    assert "/" + Recientes + "/" == "/recientes/";
    if !StartsWith(returned, "/") && Contains(path, "/anteriores/") {
      ReplaceLeavesReplacement(path, "/anteriores/", "/recientes/");
    }
  }

  /**
   * move_receipt: refuses a target outside the two folders, returns the row
   * untouched when it is already in the target, otherwise asks the hosting to
   * move it (`move(current, target, name)` is ftp_move) and rewrites the path.
   */
  method MoveReceipt(db: PaymentDb, id: nat, target: string, move: (string, string, string) -> Option<string>)
    returns (r: Result<PaymentReceipt, PaymentError>)
    requires db.Valid()
    modifies db
    ensures db.Valid() && db.users == old(db.users)
    ensures !(target == Recientes || target == Anteriores) ==> r == Err(InvalidTarget) && db.receipts == old(db.receipts)
    ensures (target == Recientes || target == Anteriores) && FindActive(old(db.receipts), id).None? ==>
      r == Err(NotFoundOrInactive) && db.receipts == old(db.receipts)
    ensures (target == Recientes || target == Anteriores) && FindActive(old(db.receipts), id).Some? ==>
      var k := FindActive(old(db.receipts), id).value;
      var row := old(db.receipts)[k];
      var current := FolderOf(row.filePath);
      if current == target then r == Ok(row) && db.receipts == old(db.receipts)
      else
        var answer := move(current, target, row.fileName);
        if answer.None? || answer.value == "" then r == Err(HostingFailed) && db.receipts == old(db.receipts)
        else
          r == Ok(row.(filePath := MovedPath(row.filePath, current, target, answer.value)))
          && db.receipts == old(db.receipts)[k := r.value]
  {
    if !(target == Recientes || target == Anteriores) {
      return Err(InvalidTarget);
    }
    var found := FindActive(db.receipts, id);
    if found.None? {
      return Err(NotFoundOrInactive);
    }
    var k := found.value;
    var row := db.receipts[k];
    var current := FolderOf(row.filePath);
    if current == target {
      return Ok(row);
    }
    var answer := move(current, target, row.fileName);
    if answer.None? || answer.value == "" {
      return Err(HostingFailed);
    }
    var updated := row.(filePath := MovedPath(row.filePath, current, target, answer.value));
    db.receipts := db.receipts[k := updated];
    return Ok(updated);
  }

  /**
   * delete_receipt_hosting: the active row is looked up, the hosting is asked
   * to delete its file from the folder its path names (`delete(folder, name)`
   * is ftp_delete), and only then is the row marked inactive; it stays in
   * the table.
   */
  method DeleteReceiptHosting(db: PaymentDb, id: nat, delete: (string, string) -> bool)
    returns (r: Result<(), PaymentError>)
    requires db.Valid()
    modifies db
    ensures db.Valid() && db.users == old(db.users)
    ensures FindActive(old(db.receipts), id).None? ==> r == Err(NotFoundOrInactive) && db.receipts == old(db.receipts)
    ensures FindActive(old(db.receipts), id).Some? ==>
      var k := FindActive(old(db.receipts), id).value;
      var row := old(db.receipts)[k];
      if delete(FolderOf(row.filePath), row.fileName) then
        r == Ok(()) && db.receipts == old(db.receipts)[k := row.(isActive := false)]
      else
        r == Err(HostingFailed) && db.receipts == old(db.receipts)
    ensures r.Ok? ==> FindActive(db.receipts, id).None?
  {
    var found := FindActive(db.receipts, id);
    if found.None? {
      return Err(NotFoundOrInactive);
    }
    var k := found.value;
    var row := db.receipts[k];
    if !delete(FolderOf(row.filePath), row.fileName) {
      return Err(HostingFailed);
    }
    db.receipts := db.receipts[k := row.(isActive := false)];
    return Ok(());
  }
}

=== FILE: permissions.dfy ===
/**
 * Role and permission gates of the HTTP API. The current user is the
 * dictionary the authentication layer decodes from the token; its "roles"
 * and "permissions" lists may be absent, and an absent list counts as empty.
 * "Super Administrador" passes every gate.
 */
module Permissions {
  import opened Wrappers

  const SuperAdmin := "Super Administrador"
  const Forbidden := 403

  /** The decoded token; `None` stands for a key that is not there. */
  datatype CurrentUser = CurrentUser(roles: Option<seq<string>>, permissions: Option<seq<string>>)

  /** What the 403 response names as missing. */
  datatype Denial =
    | MissingRole(role: string)
    | MissingPermission(permission: string)
    | MissingAnyRole(roles: seq<string>)
    | MissingAnyPermission(permissions: seq<string>)

  function RolesOf(user: CurrentUser): seq<string>
  {
    user.roles.GetOr([])
  }

  function PermissionsOf(user: CurrentUser): seq<string>
  {
    user.permissions.GetOr([])
  }

  /** is_super_admin. */
  predicate IsSuperAdmin(user: CurrentUser)
  {
    SuperAdmin in RolesOf(user)
  }

  /** any(x in held for x in required), scanning the required list in order. */
  function AnyHeld(required: seq<string>, held: seq<string>): (r: bool)
    ensures r <==> exists x :: x in required && x in held
  {
    if required == [] then false
    else if required[0] in held then true
    else
      assert forall x :: x in required && x != required[0] ==> x in required[1..];
      AnyHeld(required[1..], held)
  }

  /** require_role: the user comes through, or a 403 naming the role. */
  function RequireRole(requiredRole: string, user: CurrentUser): (r: Result<CurrentUser, Denial>)
    ensures r.Ok? ==> r.value == user
    ensures r.Err? ==> r.error == MissingRole(requiredRole)
  {
    if IsSuperAdmin(user) then Ok(user)
    else if requiredRole !in RolesOf(user) then Err(MissingRole(requiredRole))
    else Ok(user)
  }

  /** require_permission. */
  function RequirePermission(requiredPermission: string, user: CurrentUser): (r: Result<CurrentUser, Denial>)
    ensures r.Ok? ==> r.value == user
    ensures r.Err? ==> r.error == MissingPermission(requiredPermission)
  {
    if IsSuperAdmin(user) then Ok(user)
    else if requiredPermission !in PermissionsOf(user) then Err(MissingPermission(requiredPermission))
    else Ok(user)
  }

  /** require_any_role. */
  function RequireAnyRole(requiredRoles: seq<string>, user: CurrentUser): (r: Result<CurrentUser, Denial>)
    ensures r.Ok? ==> r.value == user
    ensures r.Err? ==> r.error == MissingAnyRole(requiredRoles)
  {
    if IsSuperAdmin(user) then Ok(user)
    else if !AnyHeld(requiredRoles, RolesOf(user)) then Err(MissingAnyRole(requiredRoles))
    else Ok(user)
  }

  /** require_any_permission. */
  function RequireAnyPermission(requiredPermissions: seq<string>, user: CurrentUser): (r: Result<CurrentUser, Denial>)
    ensures r.Ok? ==> r.value == user
    ensures r.Err? ==> r.error == MissingAnyPermission(requiredPermissions)
  {
    if IsSuperAdmin(user) then Ok(user)
    else if !AnyHeld(requiredPermissions, PermissionsOf(user)) then Err(MissingAnyPermission(requiredPermissions))
    else Ok(user)
  }

  /** check_permission, the boolean form. */
  predicate CheckPermission(user: CurrentUser, requiredPermission: string)
  {
    IsSuperAdmin(user) || requiredPermission in PermissionsOf(user)
  }

  /** check_role, the boolean form. */
  predicate CheckRole(user: CurrentUser, requiredRole: string)
  {
    IsSuperAdmin(user) || requiredRole in RolesOf(user)
  }

  /** The super administrator passes every gate, whatever it asks for. */
  lemma SuperAdminPassesEverything(user: CurrentUser, role: string, permission: string,
                                   roles: seq<string>, permissions: seq<string>)
    requires IsSuperAdmin(user)
    ensures RequireRole(role, user) == Ok(user)
    ensures RequirePermission(permission, user) == Ok(user)
    ensures RequireAnyRole(roles, user) == Ok(user)
    ensures RequireAnyPermission(permissions, user) == Ok(user)
    ensures CheckRole(user, role) && CheckPermission(user, permission)
  {
  }

  /** The dependency gates and the boolean helpers agree. */
  lemma GatesAgreeWithChecks(user: CurrentUser, role: string, permission: string)
    ensures RequireRole(role, user).Ok? <==> CheckRole(user, role)
    ensures RequirePermission(permission, user).Ok? <==> CheckPermission(user, permission)
  {
  }

  /** Otherwise an any-gate passes exactly when one required entry is held. */
  lemma AnyGatesAreIntersections(user: CurrentUser, roles: seq<string>, permissions: seq<string>)
    requires !IsSuperAdmin(user)
    ensures RequireAnyRole(roles, user).Ok? <==> exists x :: x in roles && x in RolesOf(user)
    ensures RequireAnyPermission(permissions, user).Ok? <==>
      exists x :: x in permissions && x in PermissionsOf(user)
  {
  }

  /** An empty requirement list locks out everybody but the super administrator. */
  lemma EmptyAnyListDenies(user: CurrentUser)
    requires !IsSuperAdmin(user)
    ensures RequireAnyRole([], user) == Err(MissingAnyRole([]))
    ensures RequireAnyPermission([], user) == Err(MissingAnyPermission([]))
  {
  }

  /** Asking for any of one role is asking for that role. */
  lemma SingletonAnyIsSingle(user: CurrentUser, role: string, permission: string)
    ensures RequireAnyRole([role], user).Ok? <==> RequireRole(role, user).Ok?
    ensures RequireAnyPermission([permission], user).Ok? <==> RequirePermission(permission, user).Ok?
  {
    assert forall x :: x in [role] <==> x == role;
    assert forall x :: x in [permission] <==> x == permission;
  }

  /** A token with no "roles" and no "permissions" key passes no gate that asks for something. */
  lemma MissingKeysAreEmpty(role: string, permission: string)
    ensures RequireRole(role, CurrentUser(None, None)).Err?
    ensures RequirePermission(permission, CurrentUser(None, None)).Err?
    ensures !CheckRole(CurrentUser(None, None), role)
    ensures !CheckPermission(CurrentUser(None, None), permission)
  {
  }

  /** Holding more roles and permissions never closes a gate. */
  lemma GatesAreMonotone(user: CurrentUser, more: CurrentUser, roles: seq<string>, permissions: seq<string>)
    requires forall x :: x in RolesOf(user) ==> x in RolesOf(more)
    requires forall x :: x in PermissionsOf(user) ==> x in PermissionsOf(more)
    ensures RequireAnyRole(roles, user).Ok? ==> RequireAnyRole(roles, more).Ok?
    ensures RequireAnyPermission(permissions, user).Ok? ==> RequireAnyPermission(permissions, more).Ok?
  {
  }
}

=== FILE: receipt_service.dfy ===
/**
 * The receipt service: the search the bot runs once an employee has given a
 * cedula and a date (one receipt per FTP folder, "recientes" then
 * "anteriores"), the single-folder search behind the two reply buttons, the
 * path logic that decides how a PDF is sent, and the creation of payment
 * rows. Each FTP connection is an `FtpSession` chosen per folder; downloads,
 * local file existence and WhatsApp sends are inputs.
 */
module ReceiptService {
  import opened Wrappers
  import opened Text
  import opened Sorting
  import opened Calendar
  import opened PaymentModels
  import opened ValidationService
  import opened FtpService
  import opened WhatsappMessaging

  const Recientes: string := "recientes"
  const Anteriores: string := "anteriores"

  /** The folders searched, in search order. */
  const RemoteFolders: seq<string> := [Recientes, Anteriores]

  /** The dict a search returns for one folder. */
  datatype ReceiptInfo = ReceiptInfo(cedula: string, filePath: string, fileName: string, folder: string, totalFound: nat)

  datatype ReceiptError =
    | Invalid(reason: ValidationError)
    | NoReceiptsForCedula
    | InvalidFolder(folder: string)
    | SearchFailed(cause: FtpError)
    | NoReceiptsInFolder(folder: string)
    | DownloadFailed
    | SendFailed
    | FileMissing
    | DuplicateFilePath
    | DuplicateCedula

  /** The remote path of a file in a folder; `base` is FTP_BASE_DIR, "" when unset. */
  function ReceiptPath(base: string, folder: string, name: string): (p: string)
    ensures EndsWith(p, "/" + folder + "/" + name)
    ensures base == "" ==> p == "/" + folder + "/" + name
  {
    var tail := "/" + folder + "/" + name;
    var p := if base != "" then StripTrailing(base, '/') + tail else tail;
    assert p[|p| - |tail|..] == tail;
    p
  }

  /** What one folder contributes to a search: its first match, if any. */
  function FolderReceipt(base: string, cedula: string, folder: string, session: FtpSession): (r: Option<ReceiptInfo>)
    ensures r.Some? <==> FindResult(base, folder, cedula, session).Ok? && |FindResult(base, folder, cedula, session).value| > 0
    ensures r.Some? ==> r.value.folder == folder && r.value.cedula == cedula
    ensures r.Some? ==> var found := FindResult(base, folder, cedula, session).value;
      r.value.totalFound == |found| && r.value.fileName in found
      && (forall k :: 0 <= k < |found| ==> StrLe(r.value.fileName, found[k]))
      && r.value.filePath == ReceiptPath(base, folder, r.value.fileName)
  {
    match FindResult(base, folder, cedula, session)
    case Ok(found) =>
      if |found| == 0 then None
      else
        assert forall k :: 0 < k < |found| ==> StrLe(found[0], found[k]);
        assert StrLe(found[0], found[0]) by { StrLeTotal(found[0], found[0]); }
        Some(ReceiptInfo(cedula, ReceiptPath(base, folder, found[0]), found[0], folder, |found|))
    case Err(_) => None
  }

  /** The receipts collected after visiting `folders` in order; a folder whose search fails is skipped. */
  function Collected(base: string, cedula: string, ftp: string -> FtpSession, folders: seq<string>): (rs: seq<ReceiptInfo>)
    ensures |rs| <= |folders|
  {
    if folders == [] then []
    else
      var rest := Collected(base, cedula, ftp, folders[..|folders| - 1]);
      var folder := folders[|folders| - 1];
      match FolderReceipt(base, cedula, folder, ftp(folder))
      case Some(x) => rest + [x]
      case None => rest
  }

  /** The two-folder search unrolled: the "recientes" receipt, if any, then the "anteriores" one. */
  lemma CollectedTwoFolders(base: string, cedula: string, ftp: string -> FtpSession)
    ensures var r := FolderReceipt(base, cedula, Recientes, ftp(Recientes));
      var a := FolderReceipt(base, cedula, Anteriores, ftp(Anteriores));
      Collected(base, cedula, ftp, RemoteFolders) == Listed(r) + Listed(a)
  {
    assert RemoteFolders[..1] == [Recientes];
    assert [Recientes][..0] == [];
    CollectedStep(base, cedula, ftp, RemoteFolders);
    CollectedStep(base, cedula, ftp, [Recientes]);
  }

  /** A receipt as a list of at most one. */
  function Listed(x: Option<ReceiptInfo>): seq<ReceiptInfo>
  {
    if x.Some? then [x.value] else []
  }

  /** One more folder adds its receipt, if any, at the end. */
  lemma CollectedStep(base: string, cedula: string, ftp: string -> FtpSession, folders: seq<string>)
    requires folders != []
    ensures Collected(base, cedula, ftp, folders) ==
      Collected(base, cedula, ftp, folders[..|folders| - 1])
      + Listed(FolderReceipt(base, cedula, folders[|folders| - 1], ftp(folders[|folders| - 1])))
  {
  }

  /**
   * The two-folder search keeps at most one receipt per folder, "recientes"
   * before "anteriores"; each kept receipt is the first (least) match of its
   * folder; a folder contributes iff its search succeeds with a match; a
   * cedula that is not all digits finds nothing.
   */
  lemma LastTwoShape(base: string, cedula: string, ftp: string -> FtpSession)
    ensures var rs := Collected(base, cedula, ftp, RemoteFolders);
      |rs| <= 2
      && (forall k :: 0 <= k < |rs| ==>
            ((rs[k].folder == Recientes || rs[k].folder == Anteriores)
            && FolderReceipt(base, cedula, rs[k].folder, ftp(rs[k].folder)) == Some(rs[k])))
      && (|rs| == 2 ==> rs[0].folder == Recientes && rs[1].folder == Anteriores)
      && (FolderReceipt(base, cedula, Recientes, ftp(Recientes)).Some? <==> exists k :: 0 <= k < |rs| && rs[k].folder == Recientes)
      && (FolderReceipt(base, cedula, Anteriores, ftp(Anteriores)).Some? <==> exists k :: 0 <= k < |rs| && rs[k].folder == Anteriores)
      && (!IsDigitString(cedula) ==> rs == [])
  {
    CollectedTwoFolders(base, cedula, ftp);
    var f := folder => FolderReceipt(base, cedula, folder, ftp(folder));
    assert f(Recientes) == FolderReceipt(base, cedula, Recientes, ftp(Recientes));
    assert f(Anteriores) == FolderReceipt(base, cedula, Anteriores, ftp(Anteriores));
    TwoFolderShape(Collected(base, cedula, ftp, RemoteFolders), f);
    if !IsDigitString(cedula) {
      assert f(Recientes).None? && f(Anteriores).None?;
    }
  }

  /** The shape of the two-folder result, for any per-folder search `f` that labels its receipt with its folder. */
  lemma TwoFolderShape(rs: seq<ReceiptInfo>, f: string -> Option<ReceiptInfo>)
    requires rs == Listed(f(Recientes)) + Listed(f(Anteriores))
    requires f(Recientes).Some? ==> f(Recientes).value.folder == Recientes
    requires f(Anteriores).Some? ==> f(Anteriores).value.folder == Anteriores
    ensures |rs| <= 2
    ensures forall k :: 0 <= k < |rs| ==>
      (rs[k].folder == Recientes || rs[k].folder == Anteriores) && f(rs[k].folder) == Some(rs[k])
    ensures |rs| == 2 ==> rs[0].folder == Recientes && rs[1].folder == Anteriores
    ensures f(Recientes).Some? <==> exists k :: 0 <= k < |rs| && rs[k].folder == Recientes
    ensures f(Anteriores).Some? <==> exists k :: 0 <= k < |rs| && rs[k].folder == Anteriores
    ensures f(Recientes).None? && f(Anteriores).None? ==> rs == []
  {
    var r := f(Recientes);
    var a := f(Anteriores);
    assert Recientes != Anteriores;
    if r.Some? && a.Some? {
      assert rs == [r.value, a.value];
      assert rs[0].folder == Recientes && rs[1].folder == Anteriores;
    } else if r.Some? {
      assert rs == [r.value];
      assert rs[0].folder == Recientes;
    } else if a.Some? {
      assert rs == [a.value];
      assert rs[0].folder == Anteriores;
    }
  }

  /** get_last_two_receipts: the loop over the two folders. */
  method GetLastTwoReceipts(base: string, cedula: string, ftp: string -> FtpSession)
    returns (r: Result<seq<ReceiptInfo>, ReceiptError>)
    ensures r.Ok? <==> Collected(base, cedula, ftp, RemoteFolders) != []
    ensures r.Ok? ==> r.value == Collected(base, cedula, ftp, RemoteFolders)
    ensures r.Err? ==> r.error == NoReceiptsForCedula
  {
    var folders := RemoteFolders;
    var results: seq<ReceiptInfo> := [];
    var i := 0;
    while i < |folders|
      invariant 0 <= i <= |folders|
      invariant results == Collected(base, cedula, ftp, folders[..i])
    {
      assert folders[..i + 1][..i] == folders[..i];
      var folder := folders[i];
      var matching := FindFilesByCedula(base, folder, cedula, ftp(folder));
      if matching.Ok? && |matching.value| > 0 {
        var selected := matching.value[0];
        results := results + [ReceiptInfo(cedula, ReceiptPath(base, folder, selected), selected, folder, |matching.value|)];
      }
      i := i + 1;
    }
    assert folders[..i] == folders;
    if results == [] {
      return Err(NoReceiptsForCedula);
    }
    return Ok(results);
  }

  /** The two reply buttons offered once receipts exist. */
  const SelectionButtons: seq<ButtonInput> := [
    DictButton(map["id" := "1", "title" := "Quincena anterior"]),
    DictButton(map["id" := "2", "title" := "Quincena actual"])]

  /** The selection buttons pass the interactive-message checks, so the request is always built. */
  lemma SelectionButtonsValid()
    ensures ValidButtons(SelectionButtons)
  {
    assert |"Quincena anterior"| == 17 && |"Quincena actual"| == 15;
    assert ValidButton(SelectionButtons[0]);
    assert ValidButton(SelectionButtons[1]);
  }

  /** What search_and_send_receipt returns; Ok(()) stands for (True, "options_sent"). */
  function SearchOutcome(cedula: string, dateText: string, currentYear: int, base: string, ftp: string -> FtpSession)
    : (r: Result<(), ReceiptError>)
    ensures ValidateCedulaFormat(cedula).Err? ==> r == Err(Invalid(CedulaNotNumeric))
    ensures ValidateCedulaFormat(cedula).Ok? && ValidateDateFormat(dateText, currentYear).Err?
      ==> r == Err(Invalid(ValidateDateFormat(dateText, currentYear).error))
    ensures r.Ok? <==> ValidateCedulaFormat(cedula).Ok? && ValidateDateFormat(dateText, currentYear).Ok?
                       && Collected(base, cedula, ftp, RemoteFolders) != []
    ensures r.Ok? ==> IsDigitString(cedula)
  {
    LastTwoShape(base, cedula, ftp);
    if ValidateCedulaFormat(cedula).Err? then Err(Invalid(CedulaNotNumeric))
    else if ValidateDateFormat(dateText, currentYear).Err? then Err(Invalid(ValidateDateFormat(dateText, currentYear).error))
    else if Collected(base, cedula, ftp, RemoteFolders) == [] then Err(NoReceiptsForCedula)
    else Ok(())
  }

  /**
   * search_and_send_receipt: validates, searches both folders and sends the
   * two selection buttons; the result of that send is ignored.
   */
  method SearchAndSendReceipt(cedula: string, dateText: string, currentYear: int, base: string,
                              ftp: string -> FtpSession, phone: string, post: Json -> bool)
    returns (r: Result<(), ReceiptError>, buttonsRequest: Option<Json>)
    ensures r == SearchOutcome(cedula, dateText, currentYear, base, ftp)
    ensures buttonsRequest.Some? <==> r.Ok?
  {
    var cedulaCheck := ValidateCedulaFormat(cedula);
    if cedulaCheck.Err? {
      return Err(Invalid(cedulaCheck.error)), None;
    }
    var dateCheck := ValidateDateFormat(dateText, currentYear);
    if dateCheck.Err? {
      return Err(Invalid(dateCheck.error)), None;
    }
    var found := GetLastTwoReceipts(base, cedula, ftp);
    if found.Err? {
      return Err(found.error), None;
    }
    SelectionButtonsValid();
    var _, request := SendInteractiveButtons(phone, "Comprobantes de pago", SelectionButtons, post);
    return Ok(()), request;
  }

  /** get_receipts_by_folder: one folder, the first match and the number of matches. */
  function GetReceiptsByFolder(base: string, cedula: string, folder: string, session: FtpSession)
    : (r: Result<ReceiptInfo, ReceiptError>)
    ensures folder != Recientes && folder != Anteriores ==> r == Err(InvalidFolder(folder))
    ensures r.Ok? <==> (folder == Recientes || folder == Anteriores) && FolderReceipt(base, cedula, folder, session).Some?
    ensures r.Ok? ==> r == Ok(FolderReceipt(base, cedula, folder, session).value)
  {
    if folder != Recientes && folder != Anteriores then Err(InvalidFolder(folder))
    else
      match FindResult(base, folder, cedula, session)
      case Err(e) => Err(SearchFailed(e))
      case Ok(found) =>
        if |found| == 0 then Err(NoReceiptsInFolder(folder))
        else Ok(ReceiptInfo(cedula, ReceiptPath(base, folder, found[0]), found[0], folder, |found|))
  }

  /** Asking for one folder gives exactly the receipt the two-folder search keeps for it. */
  lemma ByFolderAgreesWithLastTwo(base: string, cedula: string, ftp: string -> FtpSession, folder: string, x: ReceiptInfo)
    requires folder == Recientes || folder == Anteriores
    ensures GetReceiptsByFolder(base, cedula, folder, ftp(folder)) == Ok(x)
            <==> x in Collected(base, cedula, ftp, RemoteFolders) && x.folder == folder
  {
    LastTwoShape(base, cedula, ftp);
    var rs := Collected(base, cedula, ftp, RemoteFolders);
    if x in rs && x.folder == folder {
      var k :| 0 <= k < |rs| && rs[k] == x;
    }
  }

  /** The messages a send produces, in order. */
  datatype Outgoing =
    | Confirmation(to: string)
    | DocumentFile(to: string, path: string, fileName: string)
    | DocumentUrl(to: string, url: string, fileName: string)

  /**
   * _send_receipt_pdf_from_data: a confirmation, then the downloaded copy.
   * `download` is what download_to_temp returns, `sent` what the document send returns.
   */
  function SendReceiptFromData(info: ReceiptInfo, phone: string, download: Option<string>, sent: bool)
    : (r: (Result<(), ReceiptError>, seq<Outgoing>))
    ensures |r.1| >= 1 && r.1[0] == Confirmation(phone)
    ensures r.0.Ok? <==> download.Some? && download.value != "" && sent
    ensures download.None? ==> r == (Err(DownloadFailed), [Confirmation(phone)])
    ensures |r.1| == 2 <==> download.Some? && download.value != ""
    ensures |r.1| == 2 ==> r.1[1] == DocumentFile(phone, download.value, info.fileName)
  {
    if download.None? || download.value == "" then (Err(DownloadFailed), [Confirmation(phone)])
    else
      var out := [Confirmation(phone), DocumentFile(phone, download.value, info.fileName)];
      if sent then (Ok(()), out) else (Err(SendFailed), out)
  }

  /** The URL test of _send_receipt_pdf: http:// or https://, in any letter case. */
  predicate IsUrl(path: string)
  {
    StartsWith(Lower(path), "http://") || StartsWith(Lower(path), "https://")
  }

  /** The remote-FTP test of _send_receipt_pdf, with both of its disjuncts. */
  predicate IsRemoteFtpPath(path: string)
  {
    (StartsWith(path, "/") && (Contains(path, "/recientes/") || Contains(path, "/anteriores/")))
    || Contains(path, "recientes/") || Contains(path, "anteriores/")
  }

  lemma {:induction false} ContainsTail(s: string, c: char, t: string)
    requires Contains(s, [c] + t)
    ensures Contains(s, t)
  {
    var i := ContainsWitness(s, [c] + t);
    assert s[i..i + 1 + |t|] == [c] + t;
    assert s[i + 1..][..|t|] == s[i..i + 1 + |t|][1..];
    ContainsAt(s, t, i + 1);
  }

  /** The absolute-path disjunct adds nothing: a path is remote iff it contains "recientes/" or "anteriores/". */
  lemma RemoteTestIsFolderSubstring(path: string)
    ensures IsRemoteFtpPath(path) <==> Contains(path, "recientes/") || Contains(path, "anteriores/")
  {
    assert "/recientes/" == ['/'] + "recientes/";
    assert "/anteriores/" == ['/'] + "anteriores/";
    if Contains(path, "/recientes/") {
      ContainsTail(path, '/', "recientes/");
    }
    if Contains(path, "/anteriores/") {
      ContainsTail(path, '/', "anteriores/");
    }
  }

  /** A path ending in "/<folder>/<name>" contains "<folder>/". */
  lemma FolderSegmentContained(p: string, folder: string, name: string)
    requires EndsWith(p, "/" + folder + "/" + name)
    ensures Contains(p, folder + "/")
  {
    var needle := folder + "/";
    var tail := "/" + folder + "/" + name;
    assert tail[1..][..|needle|] == needle;
    assert p[|p| - |tail| + 1..][..|needle|] == needle;
    ContainsAt(p, needle, |p| - |tail| + 1);
  }

  /** Every path the searches build is recognised as a remote FTP path. */
  lemma SearchPathsAreRemote(base: string, folder: string, name: string)
    requires folder == Recientes || folder == Anteriores
    ensures IsRemoteFtpPath(ReceiptPath(base, folder, name))
  {
    FolderSegmentContained(ReceiptPath(base, folder, name), folder, name);
    assert folder + "/" == "recientes/" || folder + "/" == "anteriores/";
  }

  /**
   * _send_receipt_pdf for a receipt row. Local existence is checked only for a
   * path that is neither a URL nor a remote FTP path; a URL is sent by link,
   * a remote path by downloading it first, a local path directly.
   */
  function SendReceiptPdf(receipt: PaymentReceipt, phone: string, localExists: bool, download: Option<string>, sent: bool)
    : (r: (Result<(), ReceiptError>, seq<Outgoing>))
    ensures r.0 == Err(FileMissing) <==> !IsUrl(receipt.filePath) && !IsRemoteFtpPath(receipt.filePath) && !localExists
    ensures r.0 == Err(FileMissing) ==> r.1 == []
    ensures r.0.Ok? ==> sent && |r.1| == 2 && r.1[0] == Confirmation(phone)
    ensures r.0.Ok? && IsUrl(receipt.filePath) ==> r.1[1] == DocumentUrl(phone, receipt.filePath, receipt.fileName)
    ensures r.0.Ok? && !IsUrl(receipt.filePath) && IsRemoteFtpPath(receipt.filePath)
      ==> download.Some? && r.1[1] == DocumentFile(phone, download.value, receipt.fileName)
    ensures r.0.Ok? && !IsUrl(receipt.filePath) && !IsRemoteFtpPath(receipt.filePath)
      ==> r.1[1] == DocumentFile(phone, receipt.filePath, receipt.fileName)
    ensures r.0 == Err(DownloadFailed)
      <==> !IsUrl(receipt.filePath) && IsRemoteFtpPath(receipt.filePath) && (download.None? || download.value == "")
    ensures r.0 == Err(DownloadFailed) ==> r.1 == [Confirmation(phone)]
    ensures r.0 != Err(FileMissing) && r.0 != Err(DownloadFailed)
      ==> |r.1| == 2 && r.1[0] == Confirmation(phone) && (r.0.Ok? <==> sent) && (r.0.Err? ==> r.0.error == SendFailed)
  {
    var path := receipt.filePath;
    var url := IsUrl(path);
    var remote := IsRemoteFtpPath(path);
    if !url && !remote && !localExists then (Err(FileMissing), [])
    else if url then
      var out := [Confirmation(phone), DocumentUrl(phone, path, receipt.fileName)];
      (if sent then Ok(()) else Err(SendFailed), out)
    else if remote then
      if download.None? || download.value == "" then (Err(DownloadFailed), [Confirmation(phone)])
      else
        var out := [Confirmation(phone), DocumentFile(phone, download.value, receipt.fileName)];
        (if sent then Ok(()) else Err(SendFailed), out)
    else
      var out := [Confirmation(phone), DocumentFile(phone, path, receipt.fileName)];
      (if sent then Ok(()) else Err(SendFailed), out)
  }

  /** What send_selected_receipt is handed: a receipt row, or the dict of a search. */
  datatype Selected = FromRow(receipt: PaymentReceipt) | FromSearch(info: ReceiptInfo)

  /** send_selected_receipt: search results never go through the local-file check. */
  function SendSelectedReceipt(selected: Selected, phone: string, localExists: bool, download: Option<string>, sent: bool)
    : (r: (Result<(), ReceiptError>, seq<Outgoing>))
    ensures selected.FromSearch? ==> r.0 != Err(FileMissing)
    ensures selected.FromRow? && IsRemoteFtpPath(selected.receipt.filePath) ==> r.0 != Err(FileMissing)
    ensures r.0.Ok? ==> sent
    ensures selected.FromRow? ==> r == SendReceiptPdf(selected.receipt, phone, localExists, download, sent)
    ensures selected.FromSearch? ==> r == SendReceiptFromData(selected.info, phone, download, sent)
  {
    match selected
    case FromRow(receipt) => SendReceiptPdf(receipt, phone, localExists, download, sent)
    case FromSearch(info) => SendReceiptFromData(info, phone, download, sent)
  }

  /** get_user_receipts: the date is checked before the table look-up. */
  function GetUserReceipts(users: seq<PaymentUser>, receipts: seq<PaymentReceipt>, cedula: string, dateText: string, currentYear: int)
    : (r: Result<seq<PaymentReceipt>, ValidationError>)
    ensures ValidateDateFormat(dateText, currentYear).Err? ==> r == Err(ValidateDateFormat(dateText, currentYear).error)
    ensures r.Ok? ==> |r.value| > 0 && forall k :: 0 <= k < |r.value| ==> r.value[k] in receipts && r.value[k].isActive && r.value[k].cedula == cedula
    ensures r.Ok? ==> exists u :: u in users && u.isActive && u.cedula == cedula
    ensures ValidateDateFormat(dateText, currentYear).Ok?
      ==> r == FindUserReceipts(users, receipts, cedula, ValidateDateFormat(dateText, currentYear).value)
  {
    match ValidateDateFormat(dateText, currentYear)
    case Err(e) => Err(e)
    case Ok(date) => FindUserReceipts(users, receipts, cedula, date)
  }

  /** No two receipt rows share a file path. */
  predicate DistinctPaths(receipts: seq<PaymentReceipt>)
  {
    forall i, j :: 0 <= i < j < |receipts| ==> receipts[i].filePath != receipts[j].filePath
  }

  /** No two user rows share a cedula (the column is unique). */
  predicate DistinctCedulas(users: seq<PaymentUser>)
  {
    forall i, j :: 0 <= i < j < |users| ==> users[i].cedula != users[j].cedula
  }

  /** create_receipt: the file must exist and its path must be new; the row is active. */
  method CreateReceipt(db: PaymentDb, cedula: string, filePath: string, fileName: string, fileExists: bool)
    returns (r: Result<PaymentReceipt, ReceiptError>)
    requires db.Valid()
    modifies db
    ensures db.Valid() && db.users == old(db.users)
    ensures !fileExists ==> r == Err(FileMissing)
    ensures fileExists && (exists k :: 0 <= k < |old(db.receipts)| && old(db.receipts)[k].filePath == filePath)
      ==> r == Err(DuplicateFilePath)
    ensures fileExists && (forall k :: 0 <= k < |old(db.receipts)| ==> old(db.receipts)[k].filePath != filePath)
      ==> r.Ok?
    ensures r.Err? ==> db.receipts == old(db.receipts)
    ensures r.Ok? ==> r.value == PaymentReceipt(|old(db.receipts)| + 1, cedula, filePath, fileName, true)
                      && db.receipts == old(db.receipts) + [r.value]
    ensures DistinctPaths(old(db.receipts)) ==> DistinctPaths(db.receipts)
  {
    if !fileExists {
      return Err(FileMissing);
    }
    var i := 0;
    while i < |db.receipts|
      invariant 0 <= i <= |db.receipts|
      invariant forall k :: 0 <= k < i ==> db.receipts[k].filePath != filePath
    {
      if db.receipts[i].filePath == filePath {
        return Err(DuplicateFilePath);
      }
      i := i + 1;
    }
    var receipt := PaymentReceipt(|db.receipts| + 1, cedula, filePath, fileName, true);
    db.receipts := db.receipts + [receipt];
    return Ok(receipt);
  }

  /**
   * create_user: cedula format, then date format, then a duplicate cedula
   * (active or not), in that order; the new row is active.
   */
  method CreateUser(db: PaymentDb, cedula: string, name: string, dateText: string, currentYear: int)
    returns (r: Result<PaymentUser, ReceiptError>)
    requires db.Valid()
    modifies db
    ensures db.Valid() && db.receipts == old(db.receipts)
    ensures ValidateCedulaFormat(cedula).Err? ==> r == Err(Invalid(CedulaNotNumeric))
    ensures ValidateCedulaFormat(cedula).Ok? && ValidateDateFormat(dateText, currentYear).Err?
      ==> r == Err(Invalid(ValidateDateFormat(dateText, currentYear).error))
    ensures ValidateCedulaFormat(cedula).Ok? && ValidateDateFormat(dateText, currentYear).Ok?
      && (exists k :: 0 <= k < |old(db.users)| && old(db.users)[k].cedula == cedula)
      ==> r == Err(DuplicateCedula)
    ensures ValidateCedulaFormat(cedula).Ok? && ValidateDateFormat(dateText, currentYear).Ok?
      && (forall k :: 0 <= k < |old(db.users)| ==> old(db.users)[k].cedula != cedula)
      ==> r.Ok?
    ensures r.Err? ==> db.users == old(db.users)
    ensures r.Ok? ==> r.value == PaymentUser(|old(db.users)| + 1, cedula, name, Midnight(ValidateDateFormat(dateText, currentYear).value), true)
                      && db.users == old(db.users) + [r.value]
    ensures DistinctCedulas(old(db.users)) ==> DistinctCedulas(db.users)
  {
    var cedulaCheck := ValidateCedulaFormat(cedula);
    if cedulaCheck.Err? {
      return Err(Invalid(cedulaCheck.error));
    }
    var dateCheck := ValidateDateFormat(dateText, currentYear);
    if dateCheck.Err? {
      return Err(Invalid(dateCheck.error));
    }
    var i := 0;
    while i < |db.users|
      invariant 0 <= i <= |db.users|
      invariant forall k :: 0 <= k < i ==> db.users[k].cedula != cedula
    {
      if db.users[i].cedula == cedula {
        return Err(DuplicateCedula);
      }
      i := i + 1;
    }
    var user := PaymentUser(|db.users| + 1, cedula, name, Midnight(dateCheck.value), true);
    db.users := db.users + [user];
    return Ok(user);
  }
}

=== FILE: receipts_router.dfy ===
/**
 * The receipts router: the identifier extractor that reads an employee's
 * cedula out of a PDF file name, receipt ids of the form "<folder>_<name>",
 * and the batch protocol shared by the upload, delete and move endpoints.
 * Batches run one after another; inside a batch the items are taken in list
 * order, which is the order asyncio.gather hands their results back in.
 */
module ReceiptsRouter {
  import opened Wrappers
  import opened Text
  import opened FtpService
  import opened ReceiptService

  /* ---------------- extract_cedula_from_filename ---------------- */

  const NotFound: string := "N/A"

  /** Length of the leading run of ASCII digits. */
  function DigitRunLength(s: string): (k: nat)
    ensures k <= |s|
    ensures forall i :: 0 <= i < k ==> IsDigit(s[i])
    ensures k < |s| ==> !IsDigit(s[k])
  {
    if |s| == 0 || !IsDigit(s[0]) then 0 else 1 + DigitRunLength(s[1..])
  }

  /** `r` sits at position `i` of `s` and can be extended by a digit neither way. */
  predicate MaximalRunAt(s: string, r: string, i: nat)
  {
    IsDigitString(r) && i + |r| <= |s| && s[i..i + |r|] == r
    && (i == 0 || !IsDigit(s[i - 1]))
    && (i + |r| == |s| || !IsDigit(s[i + |r|]))
  }

  /** `r` is a maximal run of digits somewhere in `s`. */
  ghost predicate IsMaximalRun(s: string, r: string)
  {
    exists i: nat :: MaximalRunAt(s, r, i)
  }

  /** re.findall(r'\d+', s): the runs of digits, left to right. */
  function DigitRuns(s: string): (runs: seq<string>)
    ensures forall k :: 0 <= k < |runs| ==> IsDigitString(runs[k])
    decreases |s|
  {
    if s == [] then []
    else if !IsDigit(s[0]) then DigitRuns(s[1..])
    else
      var k := DigitRunLength(s);
      [s[..k]] + DigitRuns(s[k..])
  }

  /** A maximal run of a suffix is a maximal run of the whole text, unless it starts the suffix right after a digit. */
  lemma RunInSuffix(s: string, n: nat, r: string, i: nat)
    requires n <= |s| && MaximalRunAt(s[n..], r, i)
    requires i == 0 ==> n == 0 || !IsDigit(s[n - 1])
    ensures MaximalRunAt(s, r, n + i)
  {
    assert s[n + i..n + i + |r|] == s[n..][i..i + |r|];
    if i > 0 {
      assert s[n + i - 1] == s[n..][i - 1];
    }
  }

  /** Every run found is a maximal run of digits of the scanned text. */
  lemma {:induction false} DigitRunsAreMaximal(s: string)
    ensures forall k :: 0 <= k < |DigitRuns(s)| ==> IsMaximalRun(s, DigitRuns(s)[k])
    decreases |s|
  {
    if s == [] {
    } else if !IsDigit(s[0]) {
      var t := s[1..];
      DigitRunsAreMaximal(t);
      assert DigitRuns(s) == DigitRuns(t);
      ShiftMaximal(s, 1, DigitRuns(t));
    } else {
      var n := DigitRunLength(s);
      var t := s[n..];
      DigitRunsAreMaximal(t);
      if n < |s| {
        ShiftMaximal(s, n, DigitRuns(t));
      }
      assert s[0..n] == s[..n];
      assert MaximalRunAt(s, s[..n], 0);
      assert DigitRuns(s) == [s[..n]] + DigitRuns(t);
      ConsMaximal(s, s[..n], DigitRuns(t));
    }
  }

  lemma ConsMaximal(s: string, head: string, runs: seq<string>)
    requires IsMaximalRun(s, head)
    requires forall k :: 0 <= k < |runs| ==> IsMaximalRun(s, runs[k])
    ensures forall k :: 0 <= k < |[head] + runs| ==> IsMaximalRun(s, ([head] + runs)[k])
  {
    assert forall k :: 1 <= k < |[head] + runs| ==> ([head] + runs)[k] == runs[k - 1];
  }

  /**
   * Maximal runs of the suffix from `n` are maximal runs of `s` when no digit
   * joins them across the cut: the character before it or the one at it is
   * not a digit.
   */
  lemma ShiftMaximal(s: string, n: nat, runs: seq<string>)
    requires n <= |s|
    requires forall k :: 0 <= k < |runs| ==> IsMaximalRun(s[n..], runs[k])
    requires n == 0 || !IsDigit(s[n - 1]) || (n < |s| && !IsDigit(s[n]))
    ensures forall k :: 0 <= k < |runs| ==> IsMaximalRun(s, runs[k])
  {
    forall k | 0 <= k < |runs| ensures IsMaximalRun(s, runs[k]) {
      var r := runs[k];
      var i: nat :| MaximalRunAt(s[n..], r, i);
      assert i == 0 ==> s[n] == r[0];
      RunInSuffix(s, n, r, i);
    }
  }

  /** The leading run of digits of a text stops at the first non-digit, whatever follows it. */
  lemma RunLengthStopsAt(a: string, c: char, b: string)
    requires !IsDigit(c)
    ensures DigitRunLength(a + [c] + b) == DigitRunLength(a)
  {
    var s := a + [c] + b;
    var m := DigitRunLength(a);
    assert forall i :: 0 <= i < |a| ==> s[i] == a[i];
    assert forall i :: 0 <= i < m ==> IsDigit(s[i]);
    assert !IsDigit(s[m]);
  }

  /** A text made only of digits is one run. */
  lemma DigitRunsOfDigits(d: string)
    requires IsDigitString(d)
    ensures DigitRuns(d) == [d]
  {
    var k := DigitRunLength(d);
    assert d[..k] == d && d[k..] == [];
  }

  /** A leading non-digit is skipped on both sides of the cut. */
  lemma SplitSkip(a: string, c: char, b: string)
    requires a != [] && !IsDigit(a[0])
    ensures DigitRuns(a + [c] + b) == DigitRuns(a[1..] + [c] + b)
    ensures DigitRuns(a) == DigitRuns(a[1..])
  {
    assert (a + [c] + b)[1..] == a[1..] + [c] + b;
  }

  /** A leading run that ends inside `a` is the first run on both sides of the cut. */
  lemma SplitRun(a: string, c: char, b: string)
    requires !IsDigit(c) && a != [] && IsDigit(a[0]) && DigitRunLength(a) < |a|
    ensures var m := DigitRunLength(a);
      && DigitRuns(a + [c] + b) == [a[..m]] + DigitRuns(a[m..] + [c] + b)
      && DigitRuns(a) == [a[..m]] + DigitRuns(a[m..])
  {
    var s := a + [c] + b;
    var m := DigitRunLength(a);
    RunLengthStopsAt(a, c, b);
    assert s[..m] == a[..m];
    assert s[m..] == a[m..] + [c] + b;
  }

  /** A run that fills all of `a` is the first run, and the non-digit after it hands over to `b`. */
  lemma SplitWhole(a: string, c: char, b: string)
    requires !IsDigit(c) && a != [] && IsDigit(a[0]) && DigitRunLength(a) == |a|
    ensures DigitRuns(a + [c] + b) == [a] + DigitRuns(b)
    ensures DigitRuns(a) == [a]
  {
    var s := a + [c] + b;
    RunLengthStopsAt(a, c, b);
    assert s[..|a|] == a;
    assert s[|a|..] == [c] + b;
    assert ([c] + b)[1..] == b;
    DigitRunsOfDigits(a);
  }

  /**
   * A non-digit character cuts the text: the runs are those before it followed
   * by those after it, so no run is lost, merged or reordered.
   */
  lemma {:induction false} DigitRunsSplit(a: string, c: char, b: string)
    requires !IsDigit(c)
    ensures DigitRuns(a + [c] + b) == DigitRuns(a) + DigitRuns(b)
    decreases |a|
  {
    if a == [] {
      assert (a + [c] + b)[1..] == b;
    } else if !IsDigit(a[0]) {
      DigitRunsSplit(a[1..], c, b);
      SplitSkip(a, c, b);
    } else if DigitRunLength(a) < |a| {
      var m := DigitRunLength(a);
      DigitRunsSplit(a[m..], c, b);
      SplitRun(a, c, b);
      AppendAssoc([a[..m]], DigitRuns(a[m..]), DigitRuns(b));
    } else {
      SplitWhole(a, c, b);
    }
  }

  /** filename.replace('.pdf', '').replace('.PDF', ''). */
  function NameWithoutExt(filename: string): string
  {
    ReplaceAll(ReplaceAll(filename, ".pdf", ""), ".PDF", "")
  }

  /** An 8-digit run read as YYYYMMDD with year 1900-2100, month 1-12 and day 1-31, in every month. */
  predicate LooksLikeDate(n: string)
  {
    |n| == 8 && IsDigitString(n)
    && 1900 <= NatValue(n[..4]) <= 2100 && 1 <= NatValue(n[4..6]) <= 12 && 1 <= NatValue(n[6..]) <= 31
  }

  /** A 6-digit run read as HHMMSS with HH <= 23, MM <= 59 and SS <= 59. */
  predicate LooksLikeTime(n: string)
  {
    |n| == 6 && IsDigitString(n)
    && NatValue(n[..2]) <= 23 && NatValue(n[2..4]) <= 59 && NatValue(n[4..]) <= 59
  }

  /** A run that survives the filters: not a date, not a time, 6 to 12 digits. */
  predicate Candidate(n: string)
  {
    IsDigitString(n) && !LooksLikeDate(n) && !LooksLikeTime(n) && 6 <= |n| <= 12
  }

  /** valid_cedulas: the runs that survive the filters, in their original order. */
  function Candidates(runs: seq<string>): (c: seq<string>)
    ensures |c| <= |runs|
    ensures forall k :: 0 <= k < |c| ==> Candidate(c[k]) && c[k] in runs
    ensures forall k :: 0 <= k < |runs| && Candidate(runs[k]) ==> runs[k] in c
  {
    if runs == [] then []
    else
      var front := runs[..|runs| - 1];
      var rest := Candidates(front);
      var n := runs[|runs| - 1];
      assert forall k :: 0 <= k < |front| ==> runs[k] == front[k];
      assert forall x :: x in front ==> x in runs;
      if Candidate(n) then rest + [n] else rest
  }

  /** The filter keeps a single run exactly when it is a candidate. */
  lemma CandidatesOfOne(n: string)
    ensures Candidates([n]) == if Candidate(n) then [n] else []
  {
    assert [n][..0] == [];
  }

  /** Filtering a concatenation filters each part, keeping their order. */
  lemma {:induction false} CandidatesAppend(a: seq<string>, b: seq<string>)
    ensures Candidates(a + b) == Candidates(a) + Candidates(b)
    decreases |b|
  {
    if b == [] {
      assert a + b == a;
    } else {
      var front := b[..|b| - 1];
      var last := b[|b| - 1];
      CandidatesAppend(a, front);
      SplitLast(a, b);
      assert (a + b)[..|a + b| - 1] == a + front;
      var tail := if Candidate(last) then [last] else [];
      assert Candidates(a + b) == Candidates(a + front) + tail;
      assert Candidates(b) == Candidates(front) + tail;
      AppendAssoc(Candidates(a), Candidates(front), tail);
    }
  }

  /** The index of the earliest among the longest entries whose length lies in lo..hi. */
  function Longest(c: seq<string>, lo: nat, hi: nat): (r: Option<nat>)
    ensures r.Some? ==> r.value < |c| && lo <= |c[r.value]| <= hi
    ensures r.Some? ==> forall k :: 0 <= k < |c| && lo <= |c[k]| <= hi ==> |c[k]| <= |c[r.value]|
    ensures r.Some? ==> forall k :: 0 <= k < r.value && lo <= |c[k]| <= hi ==> |c[k]| < |c[r.value]|
    ensures r.None? <==> forall k :: 0 <= k < |c| ==> !(lo <= |c[k]| <= hi)
  {
    if c == [] then None
    else
      var front := c[..|c| - 1];
      var b := Longest(front, lo, hi);
      var x := c[|c| - 1];
      assert forall k :: 0 <= k < |front| ==> c[k] == front[k];
      if lo <= |x| <= hi && (b.None? || |x| > |c[b.value]|) then Some(|c| - 1) else b
  }

  /**
   * The ranking of the surviving runs: when some run has 8 to 10 digits, the
   * longest of those, else the longest run; the earliest among equal lengths.
   * (A stable sort by length with reverse=True keeps equal lengths in input
   * order, and max(key=len) returns the first maximum.)
   */
  predicate Preferred(c: seq<string>, i: nat)
    requires i < |c|
  {
    if exists k :: 0 <= k < |c| && 8 <= |c[k]| <= 10 then
      8 <= |c[i]| <= 10
      && (forall k :: 0 <= k < |c| && 8 <= |c[k]| <= 10 ==> |c[k]| <= |c[i]|)
      && (forall k :: 0 <= k < i && 8 <= |c[k]| <= 10 ==> |c[k]| < |c[i]|)
    else
      (forall k :: 0 <= k < |c| ==> |c[k]| <= |c[i]|)
      && (forall k :: 0 <= k < i ==> |c[k]| < |c[i]|)
  }

  /** The pick among the surviving runs: the preferred one, or "N/A" when none survives. */
  function PickCedula(c: seq<string>): (r: string)
    requires forall k :: 0 <= k < |c| ==> Candidate(c[k])
    ensures r == NotFound <==> c == []
    ensures r != NotFound ==> exists i :: 0 <= i < |c| && r == c[i] && Preferred(c, i)
  {
    if c == [] then NotFound
    else
      assert Candidate(c[0]);
      assert NotFound[0] == 'N';
      match Longest(c, 8, 10)
      case Some(i) =>
        assert c[i] != NotFound by { assert Candidate(c[i]); }
        c[i]
      case None =>
        assert 6 <= |c[0]| <= 12;
        var j := Longest(c, 6, 12).value;
        assert forall k :: 0 <= k < |c| ==> 6 <= |c[k]| <= 12 by {
          forall k | 0 <= k < |c| ensures 6 <= |c[k]| <= 12 { assert Candidate(c[k]); }
        }
        assert !exists k :: 0 <= k < |c| && 8 <= |c[k]| <= 10;
        assert Preferred(c, j);
        assert c[j] != NotFound by { assert Candidate(c[j]); }
        c[j]
  }

  /** extract_cedula_from_filename: "N/A" exactly when no run survives, else the preferred survivor. */
  function ExtractCedula(filename: string): (r: string)
    ensures var c := Candidates(DigitRuns(NameWithoutExt(filename)));
      && (r == NotFound <==> c == [])
      && (r != NotFound ==> exists i :: 0 <= i < |c| && r == c[i] && Preferred(c, i))
  {
    PickCedula(Candidates(DigitRuns(NameWithoutExt(filename))))
  }

  /**
   * What the extractor returns is a maximal digit run of the name without
   * ".pdf"/".PDF", 6 to 12 digits long, and neither date-like nor time-like.
   */
  lemma ExtractedIsSurvivingRun(filename: string)
    ensures var r := ExtractCedula(filename);
      r != NotFound ==>
        (6 <= |r| <= 12 && IsDigitString(r) && !LooksLikeDate(r) && !LooksLikeTime(r)
         && IsMaximalRun(NameWithoutExt(filename), r))
  {
    var s := NameWithoutExt(filename);
    var r := ExtractCedula(filename);
    if r != NotFound {
      var c := Candidates(DigitRuns(s));
      var i :| 0 <= i < |c| && r == c[i] && Preferred(c, i);
      assert r in DigitRuns(s);
      var k :| 0 <= k < |DigitRuns(s)| && DigitRuns(s)[k] == r;
      DigitRunsAreMaximal(s);
    }
  }

  /** The date test is not calendar-aware: 31 February 2023 is skipped as a date. */
  lemma February31LooksLikeDate()
    ensures LooksLikeDate("20230231")
  {
    var n := "20230231";
    assert n[..4] == "2023" && n[4..6] == "02" && n[6..] == "31";
    YearDigits();
    MonthDayDigits();
  }

  lemma YearDigits()
    ensures NatValue("2023") == 2023
  {
    assert "2023" == "202" + ['3'] && "202" == "20" + ['2'] && "20" == "2" + ['0'] && "2" == "" + ['2'];
    NatValueSnoc("", '2');
    NatValueSnoc("2", '0');
    NatValueSnoc("20", '2');
    NatValueSnoc("202", '3');
  }

  lemma MonthDayDigits()
    ensures NatValue("02") == 2 && NatValue("31") == 31
  {
    assert "02" == "0" + ['2'] && "0" == "" + ['0'];
    NatValueSnoc("", '0');
    NatValueSnoc("0", '2');
    assert "31" == "3" + ['1'] && "3" == "" + ['3'];
    NatValueSnoc("", '3');
    NatValueSnoc("3", '1');
  }

  /* ---------------- receipt ids ---------------- */

  predicate ValidFolder(f: string)
  {
    f == Recientes || f == Anteriores
  }

  /** f"{folder}_{name}", the id list_receipts hands out for each listed file. */
  function ReceiptId(folder: string, name: string): string
  {
    folder + "_" + name
  }

  /** receipt_id.split("_", 1), taken only when "_" occurs in the id. */
  function ParseReceiptId(id: string): (r: Option<(string, string)>)
    ensures r.Some? <==> '_' in id
    ensures r.Some? ==> '_' !in r.value.0 && id == ReceiptId(r.value.0, r.value.1)
  {
    if '_' in id then
      var i := IndexOf(id, '_');
      assert id == id[..i] + "_" + id[i + 1..];
      Some((id[..i], id[i + 1..]))
    else None
  }

  /** An id built from a folder without '_' parses back to that folder and name. */
  lemma ReceiptIdRoundTrip(folder: string, name: string)
    requires '_' !in folder
    ensures ParseReceiptId(ReceiptId(folder, name)) == Some((folder, name))
  {
    var id := ReceiptId(folder, name);
    assert id[|folder|] == '_';
    var i := IndexOf(id, '_');
    assert id[..|folder|] == folder;
    assert forall j :: 0 <= j < i ==> id[..i][j] == id[j];
    assert i == |folder|;
    assert id[..i] == folder;
    assert id[i + 1..] == name;
  }

  /** Both folder names are free of '_', so every listed id round-trips. */
  lemma ListedIdsRoundTrip(name: string)
    ensures ParseReceiptId(ReceiptId(Recientes, name)) == Some((Recientes, name))
    ensures ParseReceiptId(ReceiptId(Anteriores, name)) == Some((Anteriores, name))
  {
    assert forall i :: 0 <= i < |Recientes| ==> Recientes[i] != '_';
    assert forall i :: 0 <= i < |Anteriores| ==> Anteriores[i] != '_';
    ReceiptIdRoundTrip(Recientes, name);
    ReceiptIdRoundTrip(Anteriores, name);
  }

  /** The folder of an id when it parses and names one of the two folders. */
  function IdFolder(id: string): (f: Option<string>)
    ensures f.Some? <==> ParseReceiptId(id).Some? && ValidFolder(ParseReceiptId(id).value.0)
    ensures f.Some? ==> f.value == ParseReceiptId(id).value.0
  {
    match ParseReceiptId(id)
    case Some((folder, _)) => if ValidFolder(folder) then Some(folder) else None
    case None => None
  }

  datatype ItemFailure = InvalidId | UnknownFolder | AlreadyInTarget | FtpFailed

  /** download_receipt: the folder and file an id designates, or why it is refused with 400. */
  function ResolveDownload(id: string): (r: Result<(string, string), ItemFailure>)
    ensures r.Ok? <==> IdFolder(id).Some?
    ensures r.Ok? ==> id == ReceiptId(r.value.0, r.value.1) && ValidFolder(r.value.0)
    ensures '_' !in id ==> r == Err(InvalidId)
  {
    match ParseReceiptId(id)
    case None => Err(InvalidId)
    case Some((folder, name)) => if ValidFolder(folder) then Ok((folder, name)) else Err(UnknownFolder)
  }

  /* ---------------- batches ---------------- */

  const UploadWorkerLimit: nat := 3
  const DeleteWorkerLimit: nat := 5
  const MoveWorkerLimit: nat := 4

  /** min(n, limit): the pool size, which is also the batch size. */
  function WorkerCap(n: nat, limit: nat): (w: nat)
    ensures w <= n && w <= limit
    ensures w == n || w == limit
  {
    if n < limit then n else limit
  }

  /** items[i:i + size] for i in range(0, len(items), size). */
  function Batches<T>(items: seq<T>, size: nat): (bs: seq<seq<T>>)
    requires size > 0
    ensures forall k :: 0 <= k < |bs| ==> 0 < |bs[k]| <= size
    ensures forall k :: 0 <= k < |bs| - 1 ==> |bs[k]| == size
    decreases |items|
  {
    if items == [] then []
    else if |items| <= size then [items]
    else [items[..size]] + Batches(items[size..], size)
  }

  function Flatten<T>(bs: seq<seq<T>>): seq<T>
  {
    if bs == [] then [] else bs[0] + Flatten(bs[1..])
  }

  /** The batches are contiguous and cover the items exactly once, in order. */
  lemma {:induction false} BatchesCover<T>(items: seq<T>, size: nat)
    requires size > 0
    ensures Flatten(Batches(items, size)) == items
    decreases |items|
  {
    if |items| > size {
      BatchesCover(items[size..], size);
      assert items == items[..size] + items[size..];
    }
  }

  /** The batches from position i are the slice up to `end` followed by the batches from `end`. */
  lemma NextBatch<T>(items: seq<T>, size: nat, i: nat, end: nat)
    requires size > 0 && i < |items|
    requires end == if i + size < |items| then i + size else |items|
    ensures Batches(items[i..], size) == [items[i..end]] + Batches(items[end..], size)
  {
    if end < |items| {
      assert items[i..][..size] == items[i..end];
      assert items[i..][size..] == items[end..];
    } else {
      assert items[i..] == items[i..end];
    }
  }

  /**
   * The batch loop: for each slice, gather the per-item results and extend
   * `results` with them. Every item is processed exactly once and the results
   * come back in input order, whatever any single item yields.
   */
  method RunBatches<T, R>(items: seq<T>, size: nat, process: T -> R) returns (results: seq<R>, batches: seq<seq<T>>)
    requires size > 0
    ensures batches == Batches(items, size)
    ensures |results| == |items|
    ensures forall k :: 0 <= k < |items| ==> results[k] == process(items[k])
  {
    results := [];
    batches := [];
    var i := 0;
    while i < |items|
      invariant 0 <= i <= |items|
      invariant batches + Batches(items[i..], size) == Batches(items, size)
      invariant |results| == i
      invariant forall k :: 0 <= k < i ==> results[k] == process(items[k])
    {
      var end := if i + size < |items| then i + size else |items|;
      var batch := items[i..end];
      var j := 0;
      while j < |batch|
        invariant 0 <= j <= |batch|
        invariant |results| == i + j
        invariant forall k :: 0 <= k < i + j ==> results[k] == process(items[k])
      {
        results := results + [process(batch[j])];
        j := j + 1;
      }
      NextBatch(items, size, i, end);
      batches := batches + [batch];
      i := end;
    }
  }

  /** Cache keys of a set of folders. */
  function CacheKeys(folders: set<string>): set<string>
  {
    set f | f in folders :: CacheKey(f)
  }

  /** `for folder in affected_dirs: clear_metadata_cache(folder)`. */
  method ClearFolders(cache: MetadataCache, folders: set<string>)
    requires forall f :: f in folders ==> f != ""
    modifies cache
    ensures cache.entries == old(cache.entries) - CacheKeys(folders)
  {
    var left := folders;
    while left != {}
      invariant left <= folders
      invariant cache.entries == old(cache.entries) - CacheKeys(folders - left)
      decreases |left|
    {
      var f :| f in left;
      cache.ClearMetadataCache(Some(f));
      assert CacheKeys(folders - (left - {f})) == CacheKeys(folders - left) + {CacheKey(f)};
      left := left - {f};
    }
    assert folders - left == folders;
  }

  /* ---------------- upload ---------------- */

  /**
   * What one file meets at upload time: the clock reading and the two replies
   * of upload_file_to_ftp. The request's files are told apart by position, so
   * two files with the same name may meet different replies.
   */
  datatype UploadOracle = UploadOracle(stamp: string, first: bool, retry: bool)

  datatype UploadFailure = NotPdf | NoCedula | FtpUploadFailed

  datatype UploadResult =
    | Uploaded(storedName: string, originalName: string, cedula: string, folder: string)
    | UploadRejected(filename: string, failure: UploadFailure)

  /** One file's result and the number of upload calls it made. */
  datatype UploadStep = UploadStep(result: UploadResult, calls: nat)

  /** f"{name_without_ext}_{timestamp}.pdf". */
  function StoredName(filename: string, stamp: string): (r: string)
    ensures EndsWith(r, ".pdf")
    ensures StartsWith(r, NameWithoutExt(filename) + "_")
  {
    var r := NameWithoutExt(filename) + "_" + stamp + ".pdf";
    assert r[|r| - 4..] == ".pdf";
    assert r[..|NameWithoutExt(filename) + "_"|] == NameWithoutExt(filename) + "_";
    r
  }

  /** A name the extension test accepts: lower-cased, it ends with ".pdf". */
  predicate IsPdfName(filename: string)
  {
    EndsWith(Lower(filename), ".pdf")
  }

  /**
   * process_single_file: non-PDF names and names without a cedula are turned
   * away before any FTP call; otherwise the upload is tried, and tried once
   * more when the first attempt fails.
   */
  function UploadOne(filename: string, folder: string, o: UploadOracle): (s: UploadStep)
    ensures s.result.Uploaded? <==> IsPdfName(filename) && ExtractCedula(filename) != NotFound && (o.first || o.retry)
    ensures s.result.Uploaded? ==> s.result == Uploaded(StoredName(filename, o.stamp), filename, ExtractCedula(filename), folder)
    ensures s.result.UploadRejected? ==> s.result.filename == filename
    ensures s.calls == 0 <==> !IsPdfName(filename) || ExtractCedula(filename) == NotFound
    ensures s.calls == 2 <==> s.calls != 0 && !o.first
    ensures s.calls <= 2
  {
    if !IsPdfName(filename) then UploadStep(UploadRejected(filename, NotPdf), 0)
    else
      var cedula := ExtractCedula(filename);
      if cedula == NotFound then UploadStep(UploadRejected(filename, NoCedula), 0)
      else
        var calls := if o.first then 1 else 2;
        if o.first || o.retry then UploadStep(Uploaded(StoredName(filename, o.stamp), filename, cedula, folder), calls)
        else UploadStep(UploadRejected(filename, FtpUploadFailed), calls)
  }

  /** uploaded_files: the successful results, in order. */
  function UploadedOf(rs: seq<UploadResult>): (u: seq<UploadResult>)
    ensures |u| <= |rs|
    ensures forall k :: 0 <= k < |u| ==> u[k].Uploaded? && u[k] in rs
  {
    if rs == [] then []
    else
      var rest := UploadedOf(rs[..|rs| - 1]);
      assert forall x :: x in rs[..|rs| - 1] ==> x in rs;
      if rs[|rs| - 1].Uploaded? then rest + [rs[|rs| - 1]] else rest
  }

  /** failed_files: the rejected results, in order. */
  function FailedOf(rs: seq<UploadResult>): (f: seq<UploadResult>)
    ensures |f| <= |rs|
    ensures forall k :: 0 <= k < |f| ==> f[k].UploadRejected? && f[k] in rs
  {
    if rs == [] then []
    else
      var rest := FailedOf(rs[..|rs| - 1]);
      assert forall x :: x in rs[..|rs| - 1] ==> x in rs;
      if rs[|rs| - 1].UploadRejected? then rest + [rs[|rs| - 1]] else rest
  }

  /** Every result lands in exactly one of the two lists; none is dropped. */
  lemma {:induction false} UploadPartition(rs: seq<UploadResult>)
    ensures |UploadedOf(rs)| + |FailedOf(rs)| == |rs|
    ensures FailedOf(rs) == [] <==> forall k :: 0 <= k < |rs| ==> rs[k].Uploaded?
    ensures UploadedOf(rs) == [] <==> forall k :: 0 <= k < |rs| ==> rs[k].UploadRejected?
  {
    if rs != [] {
      var front := rs[..|rs| - 1];
      UploadPartition(front);
      assert forall k :: 0 <= k < |front| ==> rs[k] == front[k];
    }
  }

  /** The separating loop over `results`. */
  method PartitionUploads(rs: seq<UploadResult>) returns (uploaded: seq<UploadResult>, failed: seq<UploadResult>)
    ensures uploaded == UploadedOf(rs) && failed == FailedOf(rs)
  {
    uploaded := [];
    failed := [];
    var i := 0;
    while i < |rs|
      invariant 0 <= i <= |rs|
      invariant uploaded == UploadedOf(rs[..i]) && failed == FailedOf(rs[..i])
    {
      assert rs[..i + 1][..i] == rs[..i];
      if rs[i].Uploaded? {
        uploaded := uploaded + [rs[i]];
      } else {
        failed := failed + [rs[i]];
      }
      i := i + 1;
    }
    assert rs[..i] == rs;
  }

  datatype UploadReport = UploadReport(success: bool, uploaded: seq<UploadResult>, failed: seq<UploadResult>)

  /** Requests refused with 400 before any item runs. */
  datatype Rejection = NoItems | InvalidFolderParam

  function UploadResults(files: seq<string>, folder: string, ftp: nat -> UploadOracle): (rs: seq<UploadResult>)
    ensures |rs| == |files|
  {
    seq(|files|, k requires 0 <= k < |files| => UploadOne(files[k], folder, ftp(k)).result)
  }

  function UploadReportOf(files: seq<string>, folder: string, ftp: nat -> UploadOracle): UploadReport
  {
    var rs := UploadResults(files, folder, ftp);
    UploadReport(|FailedOf(rs)| == 0, UploadedOf(rs), FailedOf(rs))
  }

  /**
   * The upload report accounts for every file, succeeds exactly when every
   * file was a PDF with a cedula that reached the server within two tries,
   * and every uploaded entry carries the request's folder and a real cedula.
   */
  lemma UploadReportFacts(files: seq<string>, folder: string, ftp: nat -> UploadOracle)
    ensures var rep := UploadReportOf(files, folder, ftp);
      && |rep.uploaded| + |rep.failed| == |files|
      && (rep.success <==> forall k :: 0 <= k < |files| ==>
            (IsPdfName(files[k]) && ExtractCedula(files[k]) != NotFound && (ftp(k).first || ftp(k).retry)))
      && (forall k :: 0 <= k < |rep.uploaded| ==> rep.uploaded[k].folder == folder && rep.uploaded[k].cedula != NotFound)
  {
    var rs := UploadResults(files, folder, ftp);
    UploadPartition(rs);
    UploadResultsLabelled(files, folder, ftp);
    UploadedKeepLabels(rs, folder);
  }

  /** Each file's result: uploaded exactly when it qualifies, and then labelled with the folder and a cedula. */
  lemma UploadResultsLabelled(files: seq<string>, folder: string, ftp: nat -> UploadOracle)
    ensures var rs := UploadResults(files, folder, ftp);
      forall k :: 0 <= k < |files| ==>
        (rs[k].Uploaded? <==> IsPdfName(files[k]) && ExtractCedula(files[k]) != NotFound && (ftp(k).first || ftp(k).retry))
        && (rs[k].Uploaded? ==> rs[k].folder == folder && rs[k].cedula != NotFound)
  {
    var rs := UploadResults(files, folder, ftp);
    forall k | 0 <= k < |files|
      ensures rs[k].Uploaded? <==> IsPdfName(files[k]) && ExtractCedula(files[k]) != NotFound && (ftp(k).first || ftp(k).retry)
      ensures rs[k].Uploaded? ==> rs[k].folder == folder && rs[k].cedula != NotFound
    {
      assert rs[k] == UploadOne(files[k], folder, ftp(k)).result;
    }
  }

  /** The uploaded list keeps the labels every uploaded result carries. */
  lemma UploadedKeepLabels(rs: seq<UploadResult>, folder: string)
    requires forall k :: 0 <= k < |rs| && rs[k].Uploaded? ==> rs[k].folder == folder && rs[k].cedula != NotFound
    ensures forall k :: 0 <= k < |UploadedOf(rs)| ==> UploadedOf(rs)[k].folder == folder && UploadedOf(rs)[k].cedula != NotFound
  {
    forall k | 0 <= k < |UploadedOf(rs)|
      ensures UploadedOf(rs)[k].folder == folder && UploadedOf(rs)[k].cedula != NotFound
    {
      var j :| 0 <= j < |rs| && rs[j] == UploadedOf(rs)[k];
    }
  }

  /**
   * upload_multiple_receipts: refuses an empty list or an unknown folder;
   * otherwise runs every file in batches of min(n, 3), reports the split, and
   * clears the folder's cached listing exactly when something was uploaded.
   */
  method UploadMultipleReceipts(cache: MetadataCache, files: seq<string>, folder: string, ftp: nat -> UploadOracle)
    returns (r: Result<UploadReport, Rejection>)
    modifies cache
    ensures files == [] ==> r == Err(NoItems)
    ensures files != [] && !ValidFolder(folder) ==> r == Err(InvalidFolderParam)
    ensures files != [] && ValidFolder(folder) ==> r == Ok(UploadReportOf(files, folder, ftp))
    ensures cache.entries == if r.Ok? && r.value.uploaded != [] then old(cache.entries) - {CacheKey(folder)} else old(cache.entries)
  {
    if files == [] {
      return Err(NoItems);
    }
    if !ValidFolder(folder) {
      return Err(InvalidFolderParam);
    }
    var size := WorkerCap(|files|, UploadWorkerLimit);
    var items: seq<(nat, string)> := seq(|files|, k requires 0 <= k < |files| => (k, files[k]));
    var results, _ := RunBatches(items, size, (p: (nat, string)) => UploadOne(p.1, folder, ftp(p.0)).result);
    assert results == UploadResults(files, folder, ftp);
    var uploaded, failed := PartitionUploads(results);
    if uploaded != [] {
      cache.ClearMetadataCache(Some(folder));
    }
    return Ok(UploadReport(|failed| == 0, uploaded, failed));
  }

  /* ---------------- delete and move ---------------- */

  datatype ItemResult =
    | Done(id: string, folder: string, name: string)
    | Failed(id: string, failure: ItemFailure)

  /** process_single_delete, with delete_file_from_ftp as the oracle `delete`. */
  function DeleteOne(id: string, delete: (string, string) -> bool): (r: ItemResult)
    ensures r.id == id
    ensures r.Done? <==> IdFolder(id).Some? && delete(ParseReceiptId(id).value.0, ParseReceiptId(id).value.1)
    ensures r.Done? ==> ParseReceiptId(id) == Some((r.folder, r.name)) && ValidFolder(r.folder)
    ensures '_' !in id ==> r == Failed(id, InvalidId)
  {
    match ParseReceiptId(id)
    case None => Failed(id, InvalidId)
    case Some((folder, name)) =>
      if !ValidFolder(folder) then Failed(id, UnknownFolder)
      else if delete(folder, name) then Done(id, folder, name)
      else Failed(id, FtpFailed)
  }

  /** process_single_move, with move_file_in_ftp as the oracle `move`; `folder` of a result is the source. */
  function MoveOne(id: string, target: string, move: (string, string, string) -> bool): (r: ItemResult)
    ensures r.id == id
    ensures r.Done? <==> IdFolder(id).Some? && IdFolder(id).value != target
                         && move(ParseReceiptId(id).value.0, target, ParseReceiptId(id).value.1)
    ensures r.Done? ==> ParseReceiptId(id) == Some((r.folder, r.name)) && ValidFolder(r.folder) && r.folder != target
    ensures IdFolder(id) == Some(target) ==> r == Failed(id, AlreadyInTarget)
    ensures '_' !in id ==> r == Failed(id, InvalidId)
  {
    match ParseReceiptId(id)
    case None => Failed(id, InvalidId)
    case Some((source, name)) =>
      if !ValidFolder(source) then Failed(id, UnknownFolder)
      else if source == target then Failed(id, AlreadyInTarget)
      else if move(source, target, name) then Done(id, source, name)
      else Failed(id, FtpFailed)
  }

  /** deleted / moved: the ids of the successful results, in order. */
  function DoneIds(rs: seq<ItemResult>): (ids: seq<string>)
    ensures |ids| <= |rs|
    ensures forall x :: x in ids <==> exists k :: 0 <= k < |rs| && rs[k].Done? && rs[k].id == x
    ensures ids == [] <==> forall k :: 0 <= k < |rs| ==> !rs[k].Done?
  {
    if rs == [] then []
    else
      var front := rs[..|rs| - 1];
      var rest := DoneIds(front);
      assert forall k :: 0 <= k < |front| ==> rs[k] == front[k];
      if rs[|rs| - 1].Done? then rest + [rs[|rs| - 1].id] else rest
  }

  /** errors: the failures, in order. */
  function Failures(rs: seq<ItemResult>): (fs: seq<ItemFailure>)
    ensures |fs| <= |rs|
  {
    if rs == [] then []
    else
      var rest := Failures(rs[..|rs| - 1]);
      if rs[|rs| - 1].Failed? then rest + [rs[|rs| - 1].failure] else rest
  }

  /** Every result is counted once, as a success or as a failure. */
  lemma {:induction false} ItemPartition(rs: seq<ItemResult>)
    ensures |DoneIds(rs)| + |Failures(rs)| == |rs|
    ensures Failures(rs) == [] <==> forall k :: 0 <= k < |rs| ==> rs[k].Done?
  {
    if rs != [] {
      var front := rs[..|rs| - 1];
      ItemPartition(front);
      assert forall k :: 0 <= k < |front| ==> rs[k] == front[k];
    }
  }

  /** The separating loop over `results`. */
  method PartitionItems(rs: seq<ItemResult>) returns (done: seq<string>, errors: seq<ItemFailure>)
    ensures done == DoneIds(rs) && errors == Failures(rs)
  {
    done := [];
    errors := [];
    var i := 0;
    while i < |rs|
      invariant 0 <= i <= |rs|
      invariant done == DoneIds(rs[..i]) && errors == Failures(rs[..i])
    {
      assert rs[..i + 1][..i] == rs[..i];
      if rs[i].Done? {
        done := done + [rs[i].id];
      } else {
        errors := errors + [rs[i].failure];
      }
      i := i + 1;
    }
    assert rs[..i] == rs;
  }

  /** affected_dirs: the folders of the ids that parse to one of the two folders. */
  function FoldersOf(ids: seq<string>): (fs: set<string>)
    ensures forall f :: f in fs ==> ValidFolder(f)
  {
    set k | 0 <= k < |ids| && IdFolder(ids[k]).Some? :: IdFolder(ids[k]).value
  }

  /** The folder an id contributes to affected_dirs, if any. */
  function FolderSet(id: string): set<string>
  {
    if IdFolder(id).Some? then {IdFolder(id).value} else {}
  }

  lemma FoldersOfSnoc(ids: seq<string>, j: int)
    requires 0 <= j < |ids|
    ensures FoldersOf(ids[..j + 1]) == FoldersOf(ids[..j]) + FolderSet(ids[j])
  {
    var longer := ids[..j + 1];
    var shorter := ids[..j];
    assert forall k :: 0 <= k < j ==> longer[k] == shorter[k];
    assert longer[j] == ids[j];
  }

  /** The affected_dirs loop: add the folder of every id that names one. */
  method AffectedFolders(ids: seq<string>) returns (affected: set<string>)
    ensures affected == FoldersOf(ids)
  {
    affected := {};
    var j := 0;
    while j < |ids|
      invariant 0 <= j <= |ids|
      invariant affected == FoldersOf(ids[..j])
    {
      FoldersOfSnoc(ids, j);
      if '_' in ids[j] {
        var p := ParseReceiptId(ids[j]).value;
        if ValidFolder(p.0) {
          affected := affected + {p.0};
        }
      }
      j := j + 1;
    }
    assert ids[..j] == ids;
  }

  /** The handler's cache step after a delete: when anything was deleted, clear the affected_dirs. */
  method InvalidateDeleted(cache: MetadataCache, deleted: seq<string>)
    modifies cache
    ensures cache.entries == old(cache.entries) - CacheKeys(FoldersOf(deleted))
  {
    if deleted != [] {
      var affected := AffectedFolders(deleted);
      ClearFolders(cache, affected);
    } else {
      assert FoldersOf(deleted) == {};
      assert CacheKeys({}) == {};
      assert old(cache.entries) - {} == old(cache.entries);
    }
  }

  /** The source folders of the moved ids plus, when there is any, the target. */
  function MovedFolderSet(moved: seq<string>, target: string): set<string>
  {
    var fs := FoldersOf(moved);
    fs + (if fs == {} then {} else {target})
  }

  /** The handler's cache step after a move: when anything moved, clear the affected_dirs. */
  method InvalidateMoved(cache: MetadataCache, moved: seq<string>, target: string)
    requires target != ""
    modifies cache
    ensures cache.entries == old(cache.entries) - CacheKeys(MovedFolderSet(moved, target))
  {
    if moved != [] {
      var sources := AffectedFolders(moved);
      var affected := if sources == {} then {} else sources + {target};
      ClearFolders(cache, affected);
    } else {
      assert FoldersOf(moved) == {};
      assert CacheKeys({}) == {};
      assert old(cache.entries) - {} == old(cache.entries);
    }
  }

  datatype ItemReport = ItemReport(success: bool, done: seq<string>, errors: seq<ItemFailure>)

  function DeleteResults(ids: seq<string>, delete: (string, string) -> bool): (rs: seq<ItemResult>)
    ensures |rs| == |ids|
  {
    seq(|ids|, k requires 0 <= k < |ids| => DeleteOne(ids[k], delete))
  }

  function MoveResults(ids: seq<string>, target: string, move: (string, string, string) -> bool): (rs: seq<ItemResult>)
    ensures |rs| == |ids|
  {
    seq(|ids|, k requires 0 <= k < |ids| => MoveOne(ids[k], target, move))
  }

  function ItemReportOf(rs: seq<ItemResult>): ItemReport
  {
    ItemReport(|Failures(rs)| == 0, DoneIds(rs), Failures(rs))
  }

  /** The folders whose listing a delete must invalidate: those of the successful results. */
  function DoneFolders(rs: seq<ItemResult>): set<string>
  {
    set k | 0 <= k < |rs| && rs[k].Done? :: rs[k].folder
  }

  /** Each successful result names the folder its id parses to. */
  predicate DoneLabelled(rs: seq<ItemResult>)
  {
    forall k :: 0 <= k < |rs| && rs[k].Done? ==> IdFolder(rs[k].id) == Some(rs[k].folder)
  }

  /** For labelled results, the folders of the successful ids are the folders of the successful results. */
  lemma DoneFoldersOfIds(rs: seq<ItemResult>)
    requires DoneLabelled(rs)
    ensures FoldersOf(DoneIds(rs)) == DoneFolders(rs)
  {
    var done := DoneIds(rs);
    forall f | f in FoldersOf(done) ensures f in DoneFolders(rs) {
      var j :| 0 <= j < |done| && IdFolder(done[j]).Some? && IdFolder(done[j]).value == f;
      assert done[j] in done;
      var k :| 0 <= k < |rs| && rs[k].Done? && rs[k].id == done[j];
    }
    forall f | f in DoneFolders(rs) ensures f in FoldersOf(done) {
      var k :| 0 <= k < |rs| && rs[k].Done? && rs[k].folder == f;
      assert rs[k].id in done;
      var j :| 0 <= j < |done| && done[j] == rs[k].id;
    }
  }

  /**
   * The affected_dirs computed from the successful ids are exactly the
   * folders of the successful results: a delete invalidates the folders it
   * removed something from and no other.
   */
  lemma DeletedFoldersExact(ids: seq<string>, delete: (string, string) -> bool)
    ensures FoldersOf(DoneIds(DeleteResults(ids, delete))) == DoneFolders(DeleteResults(ids, delete))
  {
    var rs := DeleteResults(ids, delete);
    forall k | 0 <= k < |rs| && rs[k].Done? ensures IdFolder(rs[k].id) == Some(rs[k].folder) {
      assert rs[k] == DeleteOne(ids[k], delete);
    }
    DoneFoldersOfIds(rs);
  }

  /** The delete report counts every id once and succeeds exactly when every id was deleted. */
  lemma DeleteReportFacts(ids: seq<string>, delete: (string, string) -> bool)
    ensures var rep := ItemReportOf(DeleteResults(ids, delete));
      && |rep.done| + |rep.errors| == |ids|
      && (rep.success <==> forall k :: 0 <= k < |ids| ==>
            (IdFolder(ids[k]).Some? && delete(ParseReceiptId(ids[k]).value.0, ParseReceiptId(ids[k]).value.1)))
  {
    var rs := DeleteResults(ids, delete);
    ItemPartition(rs);
    assert forall k :: 0 <= k < |ids| ==> rs[k] == DeleteOne(ids[k], delete);
  }

  /**
   * delete_receipts_batch: refuses an empty list; otherwise deletes in
   * batches of min(n, 5) and clears the cached listing of every folder
   * something was deleted from.
   */
  method DeleteReceiptsBatch(cache: MetadataCache, ids: seq<string>, delete: (string, string) -> bool)
    returns (r: Result<ItemReport, Rejection>)
    modifies cache
    ensures ids == [] ==> r == Err(NoItems) && cache.entries == old(cache.entries)
    ensures ids != [] ==> r == Ok(ItemReportOf(DeleteResults(ids, delete)))
    ensures ids != [] ==> cache.entries == old(cache.entries) - CacheKeys(DoneFolders(DeleteResults(ids, delete)))
  {
    if ids == [] {
      return Err(NoItems);
    }
    var size := WorkerCap(|ids|, DeleteWorkerLimit);
    var results, _ := RunBatches(ids, size, (id: string) => DeleteOne(id, delete));
    assert results == DeleteResults(ids, delete);
    var deleted, errors := PartitionItems(results);
    DeletedFoldersExact(ids, delete);
    InvalidateDeleted(cache, deleted);
    return Ok(ItemReport(|errors| == 0, deleted, errors));
  }

  /** A move touches the source folder of each moved receipt and, when anything moved, the target. */
  function MoveFolders(rs: seq<ItemResult>, target: string): set<string>
  {
    DoneFolders(rs) + (if DoneFolders(rs) == {} then {} else {target})
  }

  /** The move report counts every id once and succeeds exactly when every id was moved. */
  lemma MoveReportFacts(ids: seq<string>, target: string, move: (string, string, string) -> bool)
    ensures var rep := ItemReportOf(MoveResults(ids, target, move));
      && |rep.done| + |rep.errors| == |ids|
      && (rep.success <==> forall k :: 0 <= k < |ids| ==>
            (IdFolder(ids[k]).Some? && IdFolder(ids[k]).value != target
             && move(ParseReceiptId(ids[k]).value.0, target, ParseReceiptId(ids[k]).value.1)))
  {
    var rs := MoveResults(ids, target, move);
    ItemPartition(rs);
    assert forall k :: 0 <= k < |ids| ==> rs[k] == MoveOne(ids[k], target, move);
  }

  /** The folders computed by the move handler's loop are the sources of the moved ids plus the target. */
  lemma MovedFoldersExact(ids: seq<string>, target: string, move: (string, string, string) -> bool)
    ensures var rs := MoveResults(ids, target, move);
      MovedFolderSet(DoneIds(rs), target) == MoveFolders(rs, target)
  {
    var rs := MoveResults(ids, target, move);
    forall k | 0 <= k < |rs| && rs[k].Done? ensures IdFolder(rs[k].id) == Some(rs[k].folder) {
      assert rs[k] == MoveOne(ids[k], target, move);
    }
    DoneFoldersOfIds(rs);
  }

  /**
   * move_receipts: refuses an empty list or an unknown target; otherwise
   * moves in batches of min(n, 4) and clears the cached listings of the
   * source folders of the moved receipts and of the target.
   */
  method MoveReceipts(cache: MetadataCache, ids: seq<string>, target: string, move: (string, string, string) -> bool)
    returns (r: Result<ItemReport, Rejection>)
    modifies cache
    ensures ids == [] ==> r == Err(NoItems)
    ensures ids != [] && !ValidFolder(target) ==> r == Err(InvalidFolderParam)
    ensures r.Err? ==> cache.entries == old(cache.entries)
    ensures ids != [] && ValidFolder(target) ==>
      r == Ok(ItemReportOf(MoveResults(ids, target, move)))
      && cache.entries == old(cache.entries) - CacheKeys(MoveFolders(MoveResults(ids, target, move), target))
  {
    if ids == [] {
      return Err(NoItems);
    }
    if !ValidFolder(target) {
      return Err(InvalidFolderParam);
    }
    var size := WorkerCap(|ids|, MoveWorkerLimit);
    var results, _ := RunBatches(ids, size, (id: string) => MoveOne(id, target, move));
    assert results == MoveResults(ids, target, move);
    var moved, errors := PartitionItems(results);
    MovedFoldersExact(ids, target, move);
    InvalidateMoved(cache, moved, target);
    return Ok(ItemReport(|errors| == 0, moved, errors));
  }
}

=== FILE: sorting.dfy ===
/**
 * Python's `sorted()` on a list of strings: code-point order, compared
 * character by character, a proper prefix first.
 */
module Sorting {
  /** `a <= b` on Python strings. */
  predicate StrLe(a: string, b: string)
  {
    |a| == 0 || (|b| > 0 && (a[0] < b[0] || (a[0] == b[0] && StrLe(a[1..], b[1..]))))
  }

  lemma {:induction false} StrLeTotal(a: string, b: string)
    ensures StrLe(a, b) || StrLe(b, a)
  {
    if |a| > 0 && |b| > 0 && a[0] == b[0] {
      StrLeTotal(a[1..], b[1..]);
    }
  }

  lemma {:induction false} StrLeTransitive(a: string, b: string, c: string)
    requires StrLe(a, b) && StrLe(b, c)
    ensures StrLe(a, c)
  {
    if |a| > 0 && a[0] == b[0] && b[0] == c[0] {
      StrLeTransitive(a[1..], b[1..], c[1..]);
    }
  }

  lemma {:induction false} StrLeAntisymmetric(a: string, b: string)
    requires StrLe(a, b) && StrLe(b, a)
    ensures a == b
  {
    if |a| > 0 {
      StrLeAntisymmetric(a[1..], b[1..]);
      assert a == [a[0]] + a[1..] && b == [b[0]] + b[1..];
    }
  }

  predicate Sorted(s: seq<string>)
  {
    forall i, j :: 0 <= i < j < |s| ==> StrLe(s[i], s[j])
  }

  /** Every element of `s` is at or above `b`. */
  predicate Above(b: string, s: seq<string>)
  {
    forall j :: 0 <= j < |s| ==> StrLe(b, s[j])
  }

  /** A bound below every element of a sorted list heads a sorted list. */
  lemma SortedCons(h: string, t: seq<string>)
    requires Sorted(t) && Above(h, t)
    ensures Sorted([h] + t)
  {
    var r := [h] + t;
    forall i, j | 0 <= i < j < |r| ensures StrLe(r[i], r[j]) {
      assert r[j] == t[j - 1];
      if i > 0 {
        assert r[i] == t[i - 1];
      }
    }
  }

  /** A bound of `x` and of every element of `t` bounds any list with their elements. */
  lemma AboveByMultiset(b: string, x: string, t: seq<string>, r: seq<string>)
    requires StrLe(b, x) && Above(b, t)
    requires multiset(r) == multiset(t) + multiset{x}
    ensures Above(b, r)
  {
    forall j | 0 <= j < |r| ensures StrLe(b, r[j]) {
      assert r[j] in multiset(r);
      if r[j] != x {
        assert r[j] in multiset(t);
        var k :| 0 <= k < |t| && t[k] == r[j];
      }
    }
  }

  /** Below the head of a sorted list is below all of it. */
  lemma AboveHead(x: string, s: seq<string>)
    requires Sorted(s) && |s| > 0 && StrLe(x, s[0])
    ensures Above(x, s)
  {
    forall j | 0 < j < |s| ensures StrLe(x, s[j]) { StrLeTransitive(x, s[0], s[j]); }
  }

  /** Inserts `x` into a sorted list before the first element above it. */
  function Insert(x: string, s: seq<string>): (r: seq<string>)
    requires Sorted(s)
    ensures Sorted(r)
    ensures multiset(r) == multiset(s) + multiset{x}
  {
    if |s| == 0 then [x]
    else if StrLe(x, s[0]) then
      AboveHead(x, s);
      SortedCons(x, s);
      [x] + s
    else
      StrLeTotal(x, s[0]);
      var rest := Insert(x, s[1..]);
      assert s == [s[0]] + s[1..];
      AboveByMultiset(s[0], x, s[1..], rest);
      SortedCons(s[0], rest);
      [s[0]] + rest
  }

  /** sorted(items): an ordered permutation of the input. */
  function Sort(s: seq<string>): (r: seq<string>)
    ensures Sorted(r)
    ensures multiset(r) == multiset(s)
  {
    if |s| == 0 then []
    else
      assert s == [s[0]] + s[1..];
      Insert(s[0], Sort(s[1..]))
  }
}

=== FILE: templates.dfy ===
/**
 * Template names and the template-language memo of the WhatsApp Business
 * templates module: the name normaliser that turns a free-form title into a
 * name the Graph API accepts, and the per-process cache of template
 * languages that falls back to Colombian Spanish.
 */
module Templates {
  import opened Wrappers
  import opened Text

  /** The characters `[a-z0-9]` keeps. */
  predicate IsNameChar(c: char)
  {
    'a' <= c <= 'z' || '0' <= c <= '9'
  }

  /** A name as the API accepts it: non-empty, `[a-z0-9_]` only, single inner underscores. */
  predicate IsTemplateName(r: string)
  {
    && |r| > 0
    && OverNameChars(r)
    && r[0] != '_'
    && r[|r| - 1] != '_'
    && NoDoubleUnderscore(r)
  }

  /** Every character is a letter, a digit or '_'. */
  predicate OverNameChars(s: string)
  {
    forall i :: 0 <= i < |s| ==> IsNameChar(s[i]) || s[i] == '_'
  }

  predicate NoDoubleUnderscore(s: string)
  {
    forall i :: 0 <= i < |s| - 1 && s[i] == '_' ==> s[i + 1] != '_'
  }

  /** The letters and digits of `s`, in order. */
  function Kept(s: string): (r: string)
    ensures |r| <= |s|
    ensures forall i :: 0 <= i < |r| ==> IsNameChar(r[i])
  {
    if s == [] then []
    else Kept(s[..|s| - 1]) + (if IsNameChar(s[|s| - 1]) then [s[|s| - 1]] else [])
  }

  /** The characters of `s` other than '_', in order. */
  function NonUnderscores(s: string): (r: string)
    ensures |r| <= |s|
  {
    if s == [] then []
    else NonUnderscores(s[..|s| - 1]) + (if s[|s| - 1] != '_' then [s[|s| - 1]] else [])
  }

  lemma {:induction false} NonUnderscoresAppend(a: string, b: string)
    ensures NonUnderscores(a + b) == NonUnderscores(a) + NonUnderscores(b)
    decreases |b|
  {
    if b != [] {
      assert (a + b)[..|a + b| - 1] == a + b[..|b| - 1];
      NonUnderscoresAppend(a, b[..|b| - 1]);
    } else {
      assert a + b == a;
    }
  }

  /** re.sub(r'[^a-z0-9]', '_', s): every other character becomes '_'. */
  function Mask(s: string): (r: string)
    ensures |r| == |s|
    ensures OverNameChars(r)
    ensures forall i :: 0 <= i < |r| && IsNameChar(s[i]) ==> r[i] == s[i]
    ensures forall i :: 0 <= i < |r| && !IsNameChar(s[i]) ==> r[i] == '_'
  {
    if s == [] then []
    else
      var init := s[..|s| - 1];
      var c := s[|s| - 1];
      var r := Mask(init) + [if IsNameChar(c) then c else '_'];
      assert forall i :: 0 <= i < |init| ==> r[i] == Mask(init)[i] && s[i] == init[i];
      r
  }

  /** The mask keeps exactly the letters and digits as its non-underscore characters. */
  lemma {:induction false} MaskKeptLetters(s: string)
    ensures NonUnderscores(Mask(s)) == Kept(s)
    decreases |s|
  {
    if s != [] {
      var init := s[..|s| - 1];
      MaskKeptLetters(init);
      assert Mask(s)[..|s| - 1] == Mask(init);
    }
  }

  /** re.sub(r'_+', '_', s): every run of underscores becomes one. */
  function Squash(s: string): (r: string)
    ensures |r| <= |s|
    ensures |r| == 0 <==> |s| == 0
    ensures |s| > 0 ==> r[0] == s[0] && r[|r| - 1] == s[|s| - 1]
    ensures OverNameChars(s) ==> OverNameChars(r)
    ensures NoDoubleUnderscore(r)
  {
    if s == [] then []
    else
      var init := s[..|s| - 1];
      var c := s[|s| - 1];
      var p := Squash(init);
      assert OverNameChars(s) ==> OverNameChars(init) by {
        assert forall i :: 0 <= i < |init| ==> init[i] == s[i];
      }
      if c == '_' && |p| > 0 && p[|p| - 1] == '_' then
        p
      else
        var r := p + [c];
        assert r[..|r| - 1] == p;
        r
  }

  /** Squashing drops only underscores: the other characters stay, in order. */
  lemma {:induction false} SquashKeepsLetters(s: string)
    ensures NonUnderscores(Squash(s)) == NonUnderscores(s)
    decreases |s|
  {
    if s != [] {
      var init := s[..|s| - 1];
      var c := s[|s| - 1];
      var p := Squash(init);
      SquashKeepsLetters(init);
      if !(c == '_' && |p| > 0 && p[|p| - 1] == '_') {
        assert (p + [c])[..|p|] == p;
      }
    }
  }

  /** A string with no double underscore is left alone by Squash. */
  lemma {:induction false} SquashKeepsSingles(s: string)
    requires NoDoubleUnderscore(s)
    ensures Squash(s) == s
    decreases |s|
  {
    if s != [] {
      var init := s[..|s| - 1];
      assert NoDoubleUnderscore(init) by {
        forall i | 0 <= i < |init| - 1 && init[i] == '_' ensures init[i + 1] != '_' {
          assert init[i] == s[i] && init[i + 1] == s[i + 1];
        }
      }
      SquashKeepsSingles(init);
      if |init| > 0 && s[|s| - 1] == '_' {
        assert s[|s| - 2] == init[|init| - 1];
      }
    }
  }

  /** s.lstrip('_'). */
  function DropLeading(s: string): (r: string)
    ensures |r| <= |s| && r == s[|s| - |r|..]
    ensures r != [] ==> r[0] != '_'
    ensures forall i :: 0 <= i < |s| - |r| ==> s[i] == '_'
    decreases |s|
  {
    if s != [] && s[0] == '_' then DropLeading(s[1..]) else s
  }

  /** s.rstrip('_'). */
  function DropTrailing(s: string): (r: string)
    ensures |r| <= |s| && r == s[..|r|]
    ensures r != [] ==> r[|r| - 1] != '_'
    ensures forall i :: |r| <= i < |s| ==> s[i] == '_'
    decreases |s|
  {
    if s != [] && s[|s| - 1] == '_' then DropTrailing(s[..|s| - 1]) else s
  }

  /** Underscores only ever fall off the ends: the other characters survive in order. */
  lemma DropLeadingKeeps(s: string)
    ensures NonUnderscores(DropLeading(s)) == NonUnderscores(s)
  {
    var r := DropLeading(s);
    var front := s[..|s| - |r|];
    assert s == front + r;
    NonUnderscoresAppend(front, r);
    AllUnderscores(front);
  }

  lemma DropTrailingKeeps(s: string)
    ensures NonUnderscores(DropTrailing(s)) == NonUnderscores(s)
  {
    var r := DropTrailing(s);
    var back := s[|r|..];
    assert s == r + back;
    NonUnderscoresAppend(r, back);
    AllUnderscores(back);
  }

  lemma {:induction false} AllUnderscores(s: string)
    requires forall i :: 0 <= i < |s| ==> s[i] == '_'
    ensures NonUnderscores(s) == []
    decreases |s|
  {
    if s != [] {
      AllUnderscores(s[..|s| - 1]);
    }
  }

  /** s.strip('_'). */
  function StripUnderscores(s: string): (r: string)
    ensures r == [] || (r[0] != '_' && r[|r| - 1] != '_')
    ensures NoDoubleUnderscore(s) ==> NoDoubleUnderscore(r)
    ensures OverNameChars(s) ==> OverNameChars(r)
  {
    StripIsSlice(s);
    DropTrailing(DropLeading(s))
  }

  /** Stripping removes only underscores. */
  lemma StripKeepsOthers(s: string)
    ensures NonUnderscores(StripUnderscores(s)) == NonUnderscores(s)
  {
    DropLeadingKeeps(s);
    DropTrailingKeeps(DropLeading(s));
  }

  lemma StripIsSlice(s: string)
    ensures var r := DropTrailing(DropLeading(s)); r == [] || (r[0] != '_' && r[|r| - 1] != '_')
    ensures OverNameChars(s) ==> OverNameChars(DropTrailing(DropLeading(s)))
    ensures NoDoubleUnderscore(s) ==> NoDoubleUnderscore(DropTrailing(DropLeading(s)))
  {
    TrimmedSlice(s, DropLeading(s), DropTrailing(DropLeading(s)));
  }

  /** The facts above, for any suffix `l` of `s` and prefix `r` of `l` bare at the cut ends. */
  lemma TrimmedSlice(s: string, l: string, r: string)
    requires |l| <= |s| && l == s[|s| - |l|..] && (l != [] ==> l[0] != '_')
    requires |r| <= |l| && r == l[..|r|] && (r != [] ==> r[|r| - 1] != '_')
    ensures r == [] || (r[0] != '_' && r[|r| - 1] != '_')
    ensures OverNameChars(s) ==> OverNameChars(r)
    ensures NoDoubleUnderscore(s) ==> NoDoubleUnderscore(r)
  {
    PrefixOfSuffix(s, l, r, |s| - |l|);
    SliceKeepsChars(s, |s| - |l|, |s| - |l| + |r|, r);
    SliceKeepsSingles(s, |s| - |l|, |s| - |l| + |r|, r);
    if r != [] {
      assert r[0] == l[0];
    }
  }

  /** A slice keeps the alphabet of its string. */
  lemma SliceKeepsChars(s: string, a: nat, b: nat, r: string)
    requires a <= b <= |s| && r == s[a..b]
    ensures OverNameChars(s) ==> OverNameChars(r)
  {
    assert forall i :: 0 <= i < b - a ==> r[i] == s[a + i];
  }

  /** A slice keeps the single underscores of its string. */
  lemma SliceKeepsSingles(s: string, a: nat, b: nat, r: string)
    requires a <= b <= |s| && r == s[a..b]
    ensures NoDoubleUnderscore(s) ==> NoDoubleUnderscore(r)
  {
    assert forall i :: 0 <= i < b - a ==> r[i] == s[a + i];
  }

  /** A word that is already bare of underscores at both ends is kept. */
  lemma StripKeepsBare(s: string)
    requires s != [] && s[0] != '_' && s[|s| - 1] != '_'
    ensures StripUnderscores(s) == s
  {
  }

  const FallbackName := "template"

  /** The normaliser: lower-case, mask, squash, strip, and fall back to "template". */
  function FormatTemplateName(name: string): (r: string)
    ensures IsTemplateName(r)
    ensures Kept(Lower(name)) == [] ==> r == FallbackName
    ensures Kept(Lower(name)) != [] ==> Kept(r) == Kept(Lower(name))
  {
    var masked := Mask(Lower(name));
    var squashed := Squash(masked);
    var stripped := StripUnderscores(squashed);
    MaskKeptLetters(Lower(name));
    SquashKeepsLetters(masked);
    StripKeepsOthers(squashed);
    if stripped == [] then
      assert IsTemplateName(FallbackName) by {
        assert forall i :: 0 <= i < |FallbackName| ==> IsNameChar(FallbackName[i]);
      }
      FallbackName
    else
      assert Kept(stripped) == NonUnderscores(stripped) by {
        NameCharsKeptAsNonUnderscores(stripped);
      }
      stripped
  }

  /** On a string over `[a-z0-9_]`, the letters and digits are the non-underscores. */
  lemma {:induction false} NameCharsKeptAsNonUnderscores(s: string)
    requires OverNameChars(s)
    ensures Kept(s) == NonUnderscores(s)
    decreases |s|
  {
    if s != [] {
      NameCharsKeptAsNonUnderscores(s[..|s| - 1]);
    }
  }

  /** A name that is already valid comes back unchanged. */
  lemma TemplateNameIsFixed(x: string)
    requires IsTemplateName(x)
    ensures FormatTemplateName(x) == x
  {
    assert Lower(x) == x by {
      forall i | 0 <= i < |x| ensures Lower(x)[i] == x[i] {
        assert IsNameChar(x[i]) || x[i] == '_';
      }
    }
    assert Mask(x) == x;
    SquashKeepsSingles(x);
    StripKeepsBare(x);
  }

  /** Normalising twice is normalising once. */
  lemma FormatTemplateNameIdempotent(name: string)
    ensures FormatTemplateName(FormatTemplateName(name)) == FormatTemplateName(name)
  {
    TemplateNameIsFixed(FormatTemplateName(name));
  }

  /** Lower-casing leaves `[a-z0-9_]` alone. */
  lemma LowerKeepsNameChars(x: string)
    requires OverNameChars(x)
    ensures Lower(x) == x
  {
    forall i | 0 <= i < |x| ensures Lower(x)[i] == x[i] {
      assert IsNameChar(x[i]) || x[i] == '_';
    }
  }

  /** Lower-case and mask work character by character, so they distribute over a concatenation. */
  lemma MaskLowerConcat(x: string, sep: string, y: string)
    requires OverNameChars(x) && OverNameChars(y)
    ensures Mask(Lower(x + sep + y)) == x + Mask(Lower(sep)) + y
  {
    var n := x + sep + y;
    var u := Mask(Lower(sep));
    var m := Mask(Lower(n));
    forall i | 0 <= i < |n| ensures m[i] == (x + u + y)[i] {
      assert Lower(n)[i] == LowerChar(n[i]);
      if i < |x| {
        assert n[i] == x[i];
        assert IsNameChar(x[i]) || x[i] == '_';
      } else if i < |x| + |sep| {
        assert n[i] == sep[i - |x|];
        assert Lower(sep)[i - |x|] == LowerChar(sep[i - |x|]);
      } else {
        assert n[i] == y[i - |x| - |sep|];
        assert IsNameChar(y[i - |x| - |sep|]) || y[i - |x| - |sep|] == '_';
      }
    }
  }

  /** Squashing a run of underscores after a valid name leaves one underscore. */
  lemma {:induction false} SquashRunAfterName(x: string, u: string)
    requires IsTemplateName(x)
    requires u != [] && forall i :: 0 <= i < |u| ==> u[i] == '_'
    ensures Squash(x + u) == x + "_"
    decreases |u|
  {
    var init := (x + u)[..|x + u| - 1];
    if |u| == 1 {
      assert init == x;
      SquashKeepsSingles(x);
    } else {
      assert init == x + u[..|u| - 1];
      SquashRunAfterName(x, u[..|u| - 1]);
    }
  }

  /** Text with single underscores that does not start with one is appended by Squash unchanged. */
  lemma {:induction false} SquashAppendBare(w: string, y: string)
    requires NoDoubleUnderscore(y) && (y != [] ==> y[0] != '_')
    ensures Squash(w + y) == Squash(w) + y
    decreases |y|
  {
    if y == [] {
      assert w + y == w;
    } else {
      var front := y[..|y| - 1];
      assert NoDoubleUnderscore(front) by {
        forall i | 0 <= i < |front| - 1 && front[i] == '_' ensures front[i + 1] != '_' {
          assert front[i] == y[i] && front[i + 1] == y[i + 1];
        }
      }
      SquashAppendBare(w, front);
      assert (w + y)[..|w + y| - 1] == w + front;
      if |front| > 0 && y[|y| - 1] == '_' {
        assert y[|y| - 2] == front[|front| - 1];
      }
      AppendAssoc(Squash(w), front, [y[|y| - 1]]);
      assert front + [y[|y| - 1]] == y;
    }
  }

  /** Two valid names joined by one underscore make a valid name. */
  lemma JoinedIsName(x: string, y: string)
    requires IsTemplateName(x) && IsTemplateName(y)
    ensures IsTemplateName(x + "_" + y)
  {
    var z := x + "_" + y;
    assert forall i :: 0 <= i < |x| ==> z[i] == x[i];
    assert forall j :: 0 <= j < |y| ==> z[|x| + 1 + j] == y[j];
    assert z[|x|] == '_';
    forall i | 0 <= i < |z| - 1 && z[i] == '_' ensures z[i + 1] != '_' {
      if i < |x| {
        assert z[i + 1] == (if i + 1 < |x| then x[i + 1] else '_');
      } else if i > |x| {
        assert z[i] == y[i - |x| - 1];
      }
    }
  }

  /**
   * Where the separators go: between two valid names, any run of characters
   * outside `[a-z0-9]` (spaces, dashes, accented letters) becomes exactly one
   * '_', and the names on either side come through unchanged.
   */
  lemma SeparatorBecomesOneUnderscore(x: string, sep: string, y: string)
    requires IsTemplateName(x) && IsTemplateName(y)
    requires sep != [] && forall i :: 0 <= i < |sep| ==> !IsNameChar(LowerChar(sep[i]))
    ensures FormatTemplateName(x + sep + y) == x + "_" + y
  {
    var u := Mask(Lower(sep));
    forall i | 0 <= i < |u| ensures u[i] == '_' {
      assert Lower(sep)[i] == LowerChar(sep[i]);
    }
    MaskLowerConcat(x, sep, y);
    SquashAppendBare(x + u, y);
    SquashRunAfterName(x, u);
    JoinedIsName(x, y);
    StripKeepsBare(x + "_" + y);
  }

  /** One entry of the templates listing; `None` stands for a missing key. */
  datatype TemplateInfo = TemplateInfo(name: Option<string>, language: Option<string>)

  const DefaultLanguage := "es_CO"

  /**
   * The language the listing scan finds: the first entry with the name, with
   * "es_CO" when it has no language; `None` when no entry matches or an entry
   * before the match has no name (the KeyError the scan catches).
   */
  function ListedLanguage(listing: seq<TemplateInfo>, name: string): (r: Option<string>)
    ensures r.Some? <==>
      exists i :: 0 <= i < |listing| && listing[i].name == Some(name) && NamedBefore(listing, i)
    ensures r.Some? ==>
      exists i :: 0 <= i < |listing| && listing[i].name == Some(name) && NamedBefore(listing, i)
        && NoMatchBefore(listing, name, i) && r.value == listing[i].language.GetOr(DefaultLanguage)
  {
    if listing == [] then None
    else if listing[0].name.None? then
      assert forall i :: 0 < i < |listing| ==> !NamedBefore(listing, i);
      None
    else if listing[0].name.value == name then
      Some(listing[0].language.GetOr(DefaultLanguage))
    else
      var rest := ListedLanguage(listing[1..], name);
      ListedFurtherOn(listing, name, rest);
      rest
  }

  /** What the scan finds behind a named non-matching first entry is what it finds for the listing. */
  lemma ListedFurtherOn(listing: seq<TemplateInfo>, name: string, rest: Option<string>)
    requires listing != [] && listing[0].name.Some? && listing[0].name.value != name
    requires rest.Some? <==>
      exists i :: 0 <= i < |listing[1..]| && listing[1..][i].name == Some(name) && NamedBefore(listing[1..], i)
    requires rest.Some? ==>
      exists i :: 0 <= i < |listing[1..]| && listing[1..][i].name == Some(name) && NamedBefore(listing[1..], i)
        && NoMatchBefore(listing[1..], name, i) && rest.value == listing[1..][i].language.GetOr(DefaultLanguage)
    ensures rest.Some? <==>
      exists i :: 0 <= i < |listing| && listing[i].name == Some(name) && NamedBefore(listing, i)
    ensures rest.Some? ==>
      exists i :: 0 <= i < |listing| && listing[i].name == Some(name) && NamedBefore(listing, i)
        && NoMatchBefore(listing, name, i) && rest.value == listing[i].language.GetOr(DefaultLanguage)
  {
    NamedBeforeShift(listing);
    assert forall i :: 0 < i < |listing| ==> listing[1..][i - 1] == listing[i];
    if rest.Some? {
      var j :| 0 <= j < |listing[1..]| && listing[1..][j].name == Some(name) && NamedBefore(listing[1..], j)
        && NoMatchBefore(listing[1..], name, j) && rest.value == listing[1..][j].language.GetOr(DefaultLanguage);
      assert NoMatchBefore(listing, name, j + 1);
    }
  }

  /** Every entry before `i` has a name. */
  predicate NamedBefore(listing: seq<TemplateInfo>, i: int)
    requires 0 <= i <= |listing|
  {
    forall j :: 0 <= j < i ==> listing[j].name.Some?
  }

  /** No entry before `i` carries the name. */
  predicate NoMatchBefore(listing: seq<TemplateInfo>, name: string, i: int)
    requires 0 <= i <= |listing|
  {
    forall j :: 0 <= j < i ==> listing[j].name != Some(name)
  }

  lemma NamedBeforeShift(listing: seq<TemplateInfo>)
    requires listing != [] && listing[0].name.Some?
    ensures forall i :: 0 < i < |listing| ==> (NamedBefore(listing, i) <==> NamedBefore(listing[1..], i - 1))
  {
    forall i | 0 < i < |listing|
      ensures NamedBefore(listing, i) <==> NamedBefore(listing[1..], i - 1)
    {
      assert forall j :: 0 < j < i ==> listing[1..][j - 1] == listing[j];
    }
  }

  /** The module-level memo of template languages. */
  class TemplateLanguageCache {
    var languages: map<string, string>

    constructor ()
      ensures languages == map[]
    {
      languages := map[];
    }

    /**
     * get_template_language: a cached name answers from the cache; otherwise
     * the listing (`None` when the request fails or has no data) is scanned,
     * and the answer, "es_CO" by default, is cached.
     */
    method GetTemplateLanguage(name: string, listing: Option<seq<TemplateInfo>>) returns (lang: string)
      modifies this
      ensures name in old(languages) ==> lang == old(languages)[name] && languages == old(languages)
      ensures name !in old(languages) && listing.Some? ==>
        lang == ListedLanguage(listing.value, name).GetOr(DefaultLanguage)
      ensures name !in old(languages) && listing.None? ==> lang == DefaultLanguage
      ensures languages == old(languages)[name := lang]
    {
      if name in languages {
        return languages[name];
      }
      lang := DefaultLanguage;
      if listing.Some? {
        var entries := listing.value;
        var i := 0;
        while i < |entries|
          invariant 0 <= i <= |entries|
          invariant lang == DefaultLanguage
          invariant ListedLanguage(entries, name) == ListedLanguage(entries[i..], name)
        {
          var entry := entries[i];
          assert entries[i..][1..] == entries[i + 1..];
          if entry.name.None? {
            break;
          }
          if entry.name.value == name {
            lang := entry.language.GetOr(DefaultLanguage);
            break;
          }
          i := i + 1;
        }
      }
      languages := languages[name := lang];
    }
  }
}

=== FILE: text.dfy ===
/**
 * The handful of Python string operations the repository relies on
 * (str.lower, str.strip, str.split, str.replace, str.isdigit, int(), format
 * with zero padding, os.path.basename), written out over `seq<char>`.
 */
module Text {
  import opened Wrappers

  /** str.isspace for one character: every code point Python treats as white space. */
  predicate IsSpace(c: char)
  {
    var k := c as int;
    k == 32 || 9 <= k <= 13 || 28 <= k <= 31 || k == 0x85 || k == 0xA0 || k == 0x1680
    || 0x2000 <= k <= 0x200A || k == 0x2028 || k == 0x2029 || k == 0x202F || k == 0x205F || k == 0x3000
  }

  /** `\d` in a regular expression and str.isdigit, restricted to ASCII digits. */
  predicate IsDigit(c: char) { '0' <= c <= '9' }

  predicate IsLowerAsciiLetter(c: char) { 'a' <= c <= 'z' }

  /** str.isdigit: non-empty and made of digits only. */
  predicate IsDigitString(s: string)
  {
    |s| > 0 && forall i :: 0 <= i < |s| ==> IsDigit(s[i])
  }

  /** str.lower for one character, for the ASCII and Latin-1 upper-case letters. */
  function LowerChar(c: char): (r: char)
    ensures IsSpace(r) <==> IsSpace(c)
    ensures IsDigit(r) <==> IsDigit(c)
    ensures 'A' <= c <= 'Z' ==> 'a' <= r <= 'z'
  {
    if 'A' <= c <= 'Z' then (c as int + 32) as char
    else if 0xC0 <= c as int <= 0xDE && c as int != 0xD7 then (c as int + 32) as char
    else c
  }

  function Lower(s: string): (r: string)
    ensures |r| == |s|
  {
    seq(|s|, i requires 0 <= i < |s| => LowerChar(s[i]))
  }

  lemma LowerCharIdempotent(c: char)
    ensures LowerChar(LowerChar(c)) == LowerChar(c)
  {
  }

  /** Lower-casing twice is lower-casing once. */
  lemma LowerIdempotent(s: string)
    ensures Lower(Lower(s)) == Lower(s)
  {
    forall i | 0 <= i < |s| ensures Lower(Lower(s))[i] == Lower(s)[i] {
      LowerCharIdempotent(s[i]);
    }
  }

  /** `s.lower().strip()` applied to its own result changes nothing. */
  lemma {:induction false} LowerStripIdempotent(s: string)
    ensures Strip(Lower(Strip(Lower(s)))) == Strip(Lower(s))
  {
    LowerIsLower(s);
    StrippedStaysLower(Lower(s));
    StripTwice(Lower(s));
  }

  /** Every character is its own lower case. */
  predicate IsLower(x: string)
  {
    forall k :: 0 <= k < |x| ==> LowerChar(x[k]) == x[k]
  }

  lemma LowerIsLower(s: string)
    ensures IsLower(Lower(s))
  {
    forall k | 0 <= k < |s| ensures LowerChar(Lower(s)[k]) == Lower(s)[k] {
      LowerCharIdempotent(s[k]);
    }
  }

  lemma LowerKeepsLower(x: string)
    requires IsLower(x)
    ensures Lower(x) == x
  {
  }

  lemma StrippedStaysLower(x: string)
    requires IsLower(x)
    ensures Lower(Strip(x)) == Strip(x)
  {
    var y := Strip(x);
    var i := StripSlice(x);
    assert forall k :: 0 <= k < |y| ==> y[k] == x[i + k];
    LowerKeepsLower(y);
  }

  /** Strip keeps a contiguous slice of its argument; `i` is where it starts. */
  lemma StripSlice(x: string) returns (i: nat)
    ensures i + |Strip(x)| <= |x| && Strip(x) == x[i..i + |Strip(x)|]
  {
    var t := TrimStart(x);
    var y := TrimEnd(t);
    i := |x| - |t|;
    PrefixOfSuffix(x, t, y, i);
  }

  lemma PrefixOfSuffix(x: string, t: string, y: string, i: nat)
    requires i <= |x| && t == x[i..] && |y| <= |t| && y == t[..|y|]
    ensures i + |y| <= |x| && y == x[i..i + |y|]
  {
    assert forall k :: 0 <= k < |y| ==> y[k] == t[k] == x[i + k];
  }

  /** Stripping twice is stripping once. */
  lemma StripTwice(x: string)
    ensures Strip(Strip(x)) == Strip(x)
  {
    var t := TrimStart(x);
    var y := TrimEnd(t);
    if y != [] {
      assert y[0] == t[0];
    }
    StripKeepsTrimmed(y);
  }

  /** Strip leaves a string with no white space at either end as it is. */
  lemma StripKeepsTrimmed(y: string)
    requires y != [] ==> !IsSpace(y[0]) && !IsSpace(y[|y| - 1])
    ensures Strip(y) == y
  {
    assert TrimStart(y) == y;
  }

  /** Removes leading white space. */
  function TrimStart(s: string): (r: string)
    ensures |r| <= |s| && r == s[|s| - |r|..]
    ensures r != [] ==> !IsSpace(r[0])
  {
    if |s| > 0 && IsSpace(s[0]) then TrimStart(s[1..]) else s
  }

  /** Removes trailing white space. */
  function TrimEnd(s: string): (r: string)
    ensures |r| <= |s| && r == s[..|r|]
    ensures r != [] ==> !IsSpace(r[|r| - 1])
  {
    if |s| > 0 && IsSpace(s[|s| - 1]) then TrimEnd(s[..|s| - 1]) else s
  }

  /** str.strip() with no argument. */
  function Strip(s: string): string
  {
    TrimEnd(TrimStart(s))
  }

  /** str.lstrip(c) for a single character. */
  function StripLeading(s: string, c: char): (r: string)
    ensures |r| <= |s| && r == s[|s| - |r|..]
    ensures r != [] ==> r[0] != c
  {
    if |s| > 0 && s[0] == c then StripLeading(s[1..], c) else s
  }

  /** str.rstrip(c) for a single character. */
  function StripTrailing(s: string, c: char): (r: string)
    ensures |r| <= |s| && r == s[..|r|]
    ensures r != [] ==> r[|r| - 1] != c
  {
    if |s| > 0 && s[|s| - 1] == c then StripTrailing(s[..|s| - 1], c) else s
  }

  /** str.strip(c) for a single character. */
  function StripChar(s: string, c: char): string
  {
    StripTrailing(StripLeading(s, c), c)
  }

  predicate StartsWith(s: string, prefix: string)
  {
    |prefix| <= |s| && s[..|prefix|] == prefix
  }

  predicate EndsWith(s: string, suffix: string)
  {
    |suffix| <= |s| && s[|s| - |suffix|..] == suffix
  }

  /** Peeling the last element off the right operand of a concatenation. */
  lemma SplitLast<T>(a: seq<T>, b: seq<T>)
    requires b != []
    ensures a + b == (a + b[..|b| - 1]) + [b[|b| - 1]]
    ensures b == b[..|b| - 1] + [b[|b| - 1]]
  {
  }

  /** Concatenation is associative. */
  lemma AppendAssoc<T>(x: seq<T>, y: seq<T>, z: seq<T>)
    ensures (x + y) + z == x + (y + z)
  {
  }

  /** Python's `sub in s`. */
  predicate Contains(s: string, sub: string)
    decreases |s|
  {
    StartsWith(s, sub) || (|s| > 0 && Contains(s[1..], sub))
  }

  lemma {:induction false} ContainsAt(s: string, sub: string, i: nat)
    requires i <= |s| && StartsWith(s[i..], sub)
    ensures Contains(s, sub)
    decreases i
  {
    if i > 0 {
      assert s[1..][i - 1..] == s[i..];
      ContainsAt(s[1..], sub, i - 1);
    }
  }

  lemma {:induction false} ContainsWitness(s: string, sub: string) returns (i: nat)
    requires Contains(s, sub)
    ensures i + |sub| <= |s| && s[i..i + |sub|] == sub
    decreases |s|
  {
    if StartsWith(s, sub) {
      i := 0;
    } else {
      var j := ContainsWitness(s[1..], sub);
      i := j + 1;
      assert s[i..i + |sub|] == s[1..][j..j + |sub|];
    }
  }

  /** `sub in s` fails when `sub` starts at no position of `s`. */
  lemma {:induction false} NotContains(s: string, sub: string)
    requires forall i :: 0 <= i <= |s| ==> !StartsWith(s[i..], sub)
    ensures !Contains(s, sub)
    decreases |s|
  {
    assert s[0..] == s;
    if |s| > 0 {
      forall i | 0 <= i <= |s[1..]| ensures !StartsWith(s[1..][i..], sub) {
        assert s[1..][i..] == s[i + 1..];
      }
      NotContains(s[1..], sub);
    }
  }

  /** The first position of `c` in `s`. */
  function IndexOf(s: string, c: char): (i: nat)
    requires c in s
    ensures i < |s| && s[i] == c && c !in s[..i]
  {
    if s[0] == c then 0 else 1 + IndexOf(s[1..], c)
  }

  /** The last position of `c` in `s`. */
  function LastIndexOf(s: string, c: char): (i: nat)
    requires c in s
    ensures i < |s| && s[i] == c && c !in s[i + 1..]
  {
    if s[|s| - 1] == c then |s| - 1 else LastIndexOf(s[..|s| - 1], c)
  }

  /** str.split(sep) for a one-character separator: never empty, keeps empty pieces. */
  function Split(s: string, sep: char): (parts: seq<string>)
    ensures |parts| >= 1
    ensures sep in s ==> |parts| >= 2
    ensures sep !in s ==> parts == [s]
    ensures forall k :: 0 <= k < |parts| ==> sep !in parts[k]
    decreases |s|
  {
    if sep !in s then [s]
    else
      var i := IndexOf(s, sep);
      [s[..i]] + Split(s[i + 1..], sep)
  }

  /** Length of the leading run of non-space characters. */
  function WordLength(s: string): (k: nat)
    ensures k <= |s|
    ensures forall i :: 0 <= i < k ==> !IsSpace(s[i])
    ensures k < |s| ==> IsSpace(s[k])
  {
    if |s| == 0 || IsSpace(s[0]) then 0 else 1 + WordLength(s[1..])
  }

  /** str.split() with no argument: the maximal runs of non-space characters. */
  function Words(s: string): (ws: seq<string>)
    ensures forall k :: 0 <= k < |ws| ==> |ws[k]| > 0
    decreases |s|
  {
    if s == [] then []
    else if IsSpace(s[0]) then Words(s[1..])
    else
      var k := WordLength(s);
      [s[..k]] + Words(s[k..])
  }

  /** os.path.basename for '/'-separated paths. */
  function Basename(path: string): (b: string)
    ensures '/' !in b
    ensures EndsWith(path, b)
  {
    if '/' in path then path[LastIndexOf(path, '/') + 1..] else path
  }

  /** str.replace(pattern, replacement): left to right, non-overlapping. */
  function ReplaceAll(s: string, pattern: string, replacement: string): string
    requires |pattern| > 0
    decreases |s|
  {
    if |s| < |pattern| then s
    else if s[..|pattern|] == pattern then replacement + ReplaceAll(s[|pattern|..], pattern, replacement)
    else [s[0]] + ReplaceAll(s[1..], pattern, replacement)
  }

  lemma {:induction false} ReplaceAllAbsent(s: string, pattern: string, replacement: string)
    requires |pattern| > 0 && !Contains(s, pattern)
    ensures ReplaceAll(s, pattern, replacement) == s
    decreases |s|
  {
    if |s| >= |pattern| {
      assert !StartsWith(s, pattern);
      ReplaceAllAbsent(s[1..], pattern, replacement);
    }
  }

  /** ", ".join(items) and friends. */
  function Join(items: seq<string>, sep: string): string
  {
    if |items| == 0 then ""
    else if |items| == 1 then items[0]
    else items[0] + sep + Join(items[1..], sep)
  }

  function DigitValue(c: char): nat
    requires IsDigit(c)
  {
    c as int - '0' as int
  }

  function DigitChar(d: nat): (c: char)
    requires d < 10
    ensures IsDigit(c) && DigitValue(c) == d
  {
    ('0' as int + d) as char
  }

  /** The number written by a string of decimal digits (0 for the empty string). */
  function NatValue(s: string): nat
    requires forall i :: 0 <= i < |s| ==> IsDigit(s[i])
  {
    if |s| == 0 then 0 else 10 * NatValue(s[..|s| - 1]) + DigitValue(s[|s| - 1])
  }

  /** One more digit on the right: the value is shifted by one place. */
  lemma NatValueSnoc(s: string, c: char)
    requires forall i :: 0 <= i < |s| ==> IsDigit(s[i])
    requires IsDigit(c)
    ensures NatValue(s + [c]) == 10 * NatValue(s) + DigitValue(c)
  {
    assert (s + [c])[..|s|] == s;
  }

  function Pow10(k: nat): (p: nat)
    ensures p >= 1
  {
    if k == 0 then 1 else 10 * Pow10(k - 1)
  }

  /** A string of k digits denotes a number below 10^k. */
  lemma {:induction false} NatValueBound(s: string)
    requires forall i :: 0 <= i < |s| ==> IsDigit(s[i])
    ensures NatValue(s) < Pow10(|s|)
  {
    if |s| > 0 {
      NatValueBound(s[..|s| - 1]);
    }
  }

  /** str(n) for a natural number: decimal, no leading zeros. */
  function NatToString(n: nat): (s: string)
    ensures IsDigitString(s)
    ensures |s| > 1 ==> s[0] != '0'
  {
    if n < 10 then [DigitChar(n)] else NatToString(n / 10) + [DigitChar(n % 10)]
  }

  lemma {:induction false} NatToStringValue(n: nat)
    ensures NatValue(NatToString(n)) == n
  {
    if n >= 10 {
      var s := NatToString(n);
      assert s[..|s| - 1] == NatToString(n / 10);
      NatToStringValue(n / 10);
    }
  }

  /** Left-pads with '0' up to `width` characters. */
  function PadZeros(s: string, width: int): (r: string)
    ensures |r| >= |s| && |r| >= width
    ensures EndsWith(r, s)
    ensures forall i :: 0 <= i < |r| - |s| ==> r[i] == '0'
    decreases width - |s|
  {
    if |s| >= width then s else PadZeros(['0'] + s, width)
  }

  lemma {:induction false} LeadingZeroValue(t: string)
    requires forall i :: 0 <= i < |t| ==> IsDigit(t[i])
    ensures NatValue(['0'] + t) == NatValue(t)
    decreases |t|
  {
    if |t| > 0 {
      var u := ['0'] + t;
      assert u[..|u| - 1] == ['0'] + t[..|t| - 1];
      LeadingZeroValue(t[..|t| - 1]);
    }
  }

  /** f"{n:0{width}d}": the sign counts towards the width, as in Python. */
  function FormatPadded(n: int, width: nat): string
  {
    if n >= 0 then PadZeros(NatToString(n), width)
    else "-" + PadZeros(NatToString(-n), width - 1)
  }

  /** The digits after an optional sign, as int() reads them. */
  function ParseSigned(t: string): Option<int>
  {
    if |t| > 0 && (t[0] == '-' || t[0] == '+') then
      (if IsDigitString(t[1..]) then
         var v: int := NatValue(t[1..]);
         Some(if t[0] == '-' then -v else v)
       else None)
    else if IsDigitString(t) then Some(NatValue(t))
    else None
  }

  /** int(s) on a string: surrounding white space, an optional sign, decimal digits. */
  function ParseInt(s: string): Option<int>
  {
    ParseSigned(Strip(s))
  }

  lemma {:induction false} PadZerosValue(s: string, width: int)
    requires IsDigitString(s)
    ensures IsDigitString(PadZeros(s, width))
    ensures NatValue(PadZeros(s, width)) == NatValue(s)
    decreases width - |s|
  {
    if |s| < width {
      LeadingZeroValue(s);
      PadZerosValue(['0'] + s, width);
    }
  }

  lemma StripDigitsOnly(t: string)
    requires forall i :: 0 <= i < |t| ==> !IsSpace(t[i])
    ensures Strip(t) == t
  {
  }

  lemma ParseDigits(t: string)
    requires IsDigitString(t)
    ensures ParseInt(t) == Some(NatValue(t) as int)
  {
    NoSpaceInDigits(t);
    StripDigitsOnly(t);
    UnsignedParse(t);
  }

  lemma UnsignedParse(t: string)
    requires IsDigitString(t)
    ensures ParseSigned(t) == Some(NatValue(t) as int)
  {
    assert IsDigit(t[0]);
  }

  lemma NoSpaceInDigits(t: string)
    requires IsDigitString(t)
    ensures forall i :: 0 <= i < |t| ==> !IsSpace(t[i])
  {
    forall i | 0 <= i < |t| ensures !IsSpace(t[i]) {
      assert IsDigit(t[i]);
    }
  }

  lemma ParseNegative(t: string, m: nat)
    requires IsDigitString(t) && NatValue(t) == m
    ensures ParseInt("-" + t) == Some(-(m as int))
  {
    var u := "-" + t;
    assert u[1..] == t;
    NoSpaceInDigits(t);
    forall i | 0 <= i < |u| ensures !IsSpace(u[i]) {
      if i > 0 { assert u[i] == t[i - 1]; }
    }
    StripDigitsOnly(u);
  }

  /** A zero-padded decimal rendering reads back as its number. */
  lemma PaddedDigitsParse(m: nat, width: nat)
    ensures ParseInt(FormatPadded(m, width)) == Some(m as int)
  {
    var d := PadZeros(NatToString(m), width);
    PadZerosValue(NatToString(m), width);
    NatToStringValue(m);
    ParseDigits(d);
    assert FormatPadded(m, width) == d;
  }

  /** The same behind a minus sign, which takes one place of the width. */
  lemma SignedPaddedDigitsParse(m: nat, width: nat)
    requires m > 0
    ensures ParseInt(FormatPadded(-(m as int), width)) == Some(-(m as int))
  {
    var d := PadZeros(NatToString(m), width - 1);
    PadZerosValue(NatToString(m), width - 1);
    NatToStringValue(m);
    ParseNegative(d, m);
    assert FormatPadded(-(m as int), width) == "-" + d;
  }

  lemma {:induction false} NonNegativePaddedParses(n: int, width: nat)
    requires n >= 0
    ensures ParseInt(FormatPadded(n, width)) == Some(n)
  {
    PaddedDigitsParse(n, width);
  }

  lemma {:induction false} NegativePaddedParses(n: int, width: nat)
    requires n < 0
    ensures ParseInt(FormatPadded(n, width)) == Some(n)
  {
    SignedPaddedDigitsParse(-n, width);
  }

  /** int(f"{n:0{w}d}") == n: the padded rendering reads back as the same number. */
  lemma FormatPaddedParses(n: int, width: nat)
    ensures ParseInt(FormatPadded(n, width)) == Some(n)
  {
    if n >= 0 {
      NonNegativePaddedParses(n, width);
    } else {
      NegativePaddedParses(n, width);
    }
  }
}

=== FILE: validation_service.dfy ===
/**
 * Validation of what an employee types into the chat (identity number and
 * expedition date) and the look-ups in the payment tables that the bot and
 * the receipt service rely on.
 */
module ValidationService {
  import opened Wrappers
  import opened Text
  import opened Calendar
  import opened PaymentModels

  /** Why a validation refused; each case stands for the message the user is shown. */
  datatype ValidationError =
    | CedulaNotNumeric
    | BadDateFormat
    | YearOutOfRange(latestYear: int)
    | MonthOutOfRange
    | DayOutOfRange
    | DayNotInMonth(day: int, month: int)
    | UserNotFound
    | ExpeditionDateMismatch
    | NoReceipts
    | CedulaNotRegistered

  /** re.sub(r'[^\d]', '', s): the digits of `s`, in order. */
  function DigitsOf(s: string): (d: string)
    ensures forall i :: 0 <= i < |d| ==> IsDigit(d[i])
  {
    if s == [] then [] else (if IsDigit(s[0]) then [s[0]] else []) + DigitsOf(s[1..])
  }

  lemma {:induction false} DigitsOfEmpty(s: string)
    ensures DigitsOf(s) == [] <==> forall i :: 0 <= i < |s| ==> !IsDigit(s[i])
  {
    if s != [] {
      DigitsOfEmpty(s[1..]);
      assert forall i :: 1 <= i < |s| ==> s[i] == s[1..][i - 1];
    }
  }

  /** validate_cedula_format: accepted exactly when the input holds at least one digit. */
  function ValidateCedulaFormat(cedula: string): (r: Result<(), ValidationError>)
    ensures r.Ok? <==> exists i :: 0 <= i < |cedula| && IsDigit(cedula[i])
    ensures r.Err? ==> r.error == CedulaNotNumeric
  {
    DigitsOfEmpty(cedula);
    if IsDigitString(DigitsOf(cedula)) then Ok(()) else Err(CedulaNotNumeric)
  }

  /** The groups (day, month, year) of `(\d{1,2})/(\d{1,2})/(\d{4})` matched against all of `s`. */
  function MatchDateGroups(s: string): (g: Option<(nat, nat, nat)>)
    ensures g.Some? ==> g.value.2 < 10000
  {
    var parts := Split(s, '/');
    if |parts| == 3 && 1 <= |parts[0]| <= 2 && 1 <= |parts[1]| <= 2 && |parts[2]| == 4
       && IsDigitString(parts[0]) && IsDigitString(parts[1]) && IsDigitString(parts[2])
    then
      NatValueBound(parts[2]);
      Some((NatValue(parts[0]), NatValue(parts[1]), NatValue(parts[2])))
    else None
  }

  /** re.match with the anchors `^...$`: `$` also matches just before a final newline. */
  function MatchDatePattern(s: string): (g: Option<(nat, nat, nat)>)
    ensures g.Some? ==> g.value.2 < 10000
  {
    match MatchDateGroups(s)
    case Some(g) => Some(g)
    case None => if |s| > 0 && s[|s| - 1] == '\n' then MatchDateGroups(s[..|s| - 1]) else None
  }

  /**
   * validate_date_format: DD/MM/YYYY with a year between 1900 and the current
   * year, checked in the source's order (year, month, 1..31, month length).
   */
  function ValidateDateFormat(s: string, currentYear: int): (r: Result<CalendarDate, ValidationError>)
    ensures r.Ok? ==> 1900 <= r.value.year <= currentYear
    ensures r.Ok? ==> MatchDatePattern(s) == Some((r.value.day, r.value.month, r.value.year))
    ensures MatchDatePattern(s).None? ==> r == Err(BadDateFormat)
    ensures MatchDatePattern(s).Some? ==>
      var g := MatchDatePattern(s).value;
      var day := g.0;
      var month := g.1;
      var year := g.2;
      && (r == Err(YearOutOfRange(currentYear)) <==> year < 1900 || year > currentYear)
      && (r == Err(MonthOutOfRange) <==> 1900 <= year <= currentYear && !(1 <= month <= 12))
      && (r == Err(DayOutOfRange) <==> 1900 <= year <= currentYear && 1 <= month <= 12 && !(1 <= day <= 31))
      && (r == Err(DayNotInMonth(day, month)) <==>
            1900 <= year <= currentYear && 1 <= month <= 12 && 1 <= day <= 31 && day > DaysInMonth(year, month))
      && (r.Ok? <==> 1900 <= year <= currentYear && 1 <= month <= 12 && 1 <= day <= DaysInMonth(year, month))
      && (r.Ok? ==> r.value == Date(year, month, day))
  {
    match MatchDatePattern(s)
    case None => Err(BadDateFormat)
    case Some((day, month, year)) =>
      if year < 1900 || year > currentYear then Err(YearOutOfRange(currentYear))
      else if month < 1 || month > 12 then Err(MonthOutOfRange)
      else if day < 1 || day > 31 then Err(DayOutOfRange)
      else if day > DaysInMonth(year, month) then Err(DayNotInMonth(day, month))
      else Ok(Date(year, month, day))
  }

  /** The date written the way the bot asks for it: DD/MM/YYYY. */
  function RenderDate(d: CalendarDate): string
  {
    FormatPadded(d.day, 2) + "/" + FormatPadded(d.month, 2) + "/" + NatToString(d.year)
  }

  lemma {:induction false} NatToStringShort(n: nat)
    ensures n < 10 ==> |NatToString(n)| == 1
    ensures 10 <= n < 100 ==> |NatToString(n)| == 2
    ensures 100 <= n < 1000 ==> |NatToString(n)| == 3
    ensures 1000 <= n < 10000 ==> |NatToString(n)| == 4
  {
    if n >= 10 { NatToStringShort(n / 10); }
  }

  /** A day or month rendered with two digits reads back as itself. */
  lemma TwoDigits(n: nat)
    requires 1 <= n <= 31
    ensures |FormatPadded(n, 2)| == 2 && IsDigitString(FormatPadded(n, 2))
    ensures NatValue(FormatPadded(n, 2)) == n
  {
    NatToStringShort(n);
    PadZerosValue(NatToString(n), 2);
    NatToStringValue(n);
  }

  lemma SplitFirst(a: string, rest: string)
    requires '/' !in a
    ensures Split(a + "/" + rest, '/') == [a] + Split(rest, '/')
  {
    var s := a + "/" + rest;
    assert s[|a|] == '/' && s[..|a|] == a;
    assert IndexOf(s, '/') == |a|;
    assert s[|a| + 1..] == rest;
  }

  lemma SplitThree(a: string, b: string, c: string)
    requires '/' !in a && '/' !in b && '/' !in c
    ensures Split(a + "/" + b + "/" + c, '/') == [a, b, c]
  {
    assert a + "/" + b + "/" + c == a + "/" + (b + "/" + c);
    SplitFirst(a, b + "/" + c);
    SplitFirst(b, c);
  }

  lemma DigitsHaveNoSlash(s: string)
    requires IsDigitString(s)
    ensures '/' !in s
  {
  }

  lemma GroupsOfJoin(dd: string, mm: string, yy: string)
    requires IsDigitString(dd) && IsDigitString(mm) && IsDigitString(yy)
    requires |dd| <= 2 && |mm| <= 2 && |yy| == 4
    ensures MatchDateGroups(dd + "/" + mm + "/" + yy) == Some((NatValue(dd), NatValue(mm), NatValue(yy)))
  {
    DigitsHaveNoSlash(dd);
    DigitsHaveNoSlash(mm);
    DigitsHaveNoSlash(yy);
    SplitThree(dd, mm, yy);
  }

  /** What the bot tells the user to type is accepted and yields the same date. */
  lemma {:induction false} RenderedDateAccepted(d: CalendarDate, currentYear: int)
    requires 1900 <= d.year <= currentYear
    ensures ValidateDateFormat(RenderDate(d), currentYear) == Ok(d)
  {
    TwoDigits(d.day);
    TwoDigits(d.month);
    NatToStringShort(d.year);
    NatToStringValue(d.year);
    GroupsOfJoin(FormatPadded(d.day, 2), FormatPadded(d.month, 2), NatToString(d.year));
    assert MatchDatePattern(RenderDate(d)) == Some((d.day, d.month, d.year));
    AcceptedGroups(RenderDate(d), currentYear, d);
  }

  lemma AcceptedGroups(s: string, currentYear: int, d: CalendarDate)
    requires MatchDatePattern(s) == Some((d.day, d.month, d.year))
    requires 1900 <= d.year <= currentYear
    ensures ValidateDateFormat(s, currentYear) == Ok(d)
  {
    assert 1 <= d.month <= 12 && 1 <= d.day <= DaysInMonth(d.year, d.month);
    assert Date(d.year, d.month, d.day) == d;
  }

  /** The first active row of payment_users with this cedula; None matches no row. */
  function ActiveUser(users: seq<PaymentUser>, cedula: Option<string>): (u: Option<PaymentUser>)
    ensures u.Some? ==> u.value in users && u.value.isActive && Some(u.value.cedula) == cedula
    ensures u.None? ==> forall k :: 0 <= k < |users| ==> !(users[k].isActive && Some(users[k].cedula) == cedula)
  {
    if users == [] then None
    else if users[0].isActive && Some(users[0].cedula) == cedula then Some(users[0])
    else ActiveUser(users[1..], cedula)
  }

  /**
   * The source's tolerance: the stored moment is at most 24 hours away from
   * midnight of the given date (`datetime.strptime` gives midnight).
   */
  predicate WithinOneDay(stored: Moment, given: CalendarDate)
  {
    -86400 <= Seconds(stored) - Seconds(Midnight(given)) <= 86400
  }

  /** validate_user_data: the registered, active employee whose expedition date matches within a day. */
  function ValidateUserData(users: seq<PaymentUser>, cedula: Option<string>, date: CalendarDate): (r: Result<PaymentUser, ValidationError>)
    ensures r.Ok? ==> r.value in users && r.value.isActive && Some(r.value.cedula) == cedula
    ensures r.Ok? ==> WithinOneDay(r.value.expeditionDate, date)
    ensures ActiveUser(users, cedula).Some? ==>
      (r.Ok? <==> WithinOneDay(ActiveUser(users, cedula).value.expeditionDate, date))
      && (r.Ok? ==> r.value == ActiveUser(users, cedula).value)
    ensures r == Err(UserNotFound) <==> forall k :: 0 <= k < |users| ==> !(users[k].isActive && Some(users[k].cedula) == cedula)
    ensures r.Err? ==> r.error == UserNotFound || r.error == ExpeditionDateMismatch
  {
    match ActiveUser(users, cedula)
    case None => Err(UserNotFound)
    case Some(u) =>
      if !WithinOneDay(u.expeditionDate, date) then Err(ExpeditionDateMismatch) else Ok(u)
  }

  /**
   * For a row stored at midnight the tolerance is a calendar-day one: it
   * accepts the stored date and its neighbours, and nothing further.
   */
  lemma MidnightToleranceIsCalendarDays(stored: CalendarDate, given: CalendarDate)
    ensures WithinOneDay(Midnight(stored), given) <==> -1 <= DayNumber(stored) - DayNumber(given) <= 1
  {
  }

  /** The stored date, the day before and the day after are accepted; two days after is not. */
  lemma ToleranceIsOneCalendarDay(stored: CalendarDate)
    requires stored.year < 9999
    ensures WithinOneDay(Midnight(stored), stored)
    ensures WithinOneDay(Midnight(stored), NextDay(stored)) && WithinOneDay(Midnight(NextDay(stored)), stored)
    ensures NextDay(stored).year < 9999 ==> !WithinOneDay(Midnight(stored), NextDay(NextDay(stored)))
  {
    NextDayNumber(stored);
    if NextDay(stored).year < 9999 {
      NextDayNumber(NextDay(stored));
    }
  }

  /**
   * A stored time of day shifts the window: a row stored after midnight
   * refuses the previous calendar day, while the next day is always accepted.
   */
  lemma TimeOfDayShiftsTolerance(stored: Moment, given: CalendarDate)
    requires stored.date.year < 9999 && given.year < 9999 && NextDay(given) == stored.date
    ensures (stored.hour > 0 || stored.minute > 0 || stored.second > 0) ==> !WithinOneDay(stored, given)
    ensures WithinOneDay(stored, NextDay(stored.date))
  {
    NextDayNumber(given);
    NextDayNumber(stored.date);
  }

  /** Row `k` is an active receipt of `cedula` and no earlier row is. */
  predicate FirstActiveReceiptAt(receipts: seq<PaymentReceipt>, cedula: string, k: int)
  {
    0 <= k < |receipts| && receipts[k].isActive && receipts[k].cedula == cedula
    && forall j :: 0 <= j < k ==> !(receipts[j].isActive && receipts[j].cedula == cedula)
  }

  /** Behind a first row that does not match, the first match moves one place along. */
  lemma FirstActiveShifts(receipts: seq<PaymentReceipt>, cedula: string, k: int)
    requires receipts != [] && !(receipts[0].isActive && receipts[0].cedula == cedula)
    requires FirstActiveReceiptAt(receipts[1..], cedula, k)
    ensures FirstActiveReceiptAt(receipts, cedula, k + 1) && receipts[k + 1] == receipts[1..][k]
  {
    assert forall j :: 1 <= j < k + 1 ==> receipts[j] == receipts[1..][j - 1];
  }

  /** The active receipt rows with this cedula, in table order. */
  function ActiveReceipts(receipts: seq<PaymentReceipt>, cedula: string): (r: seq<PaymentReceipt>)
    ensures forall k :: 0 <= k < |r| ==> r[k] in receipts && r[k].isActive && r[k].cedula == cedula
    ensures |r| == 0 <==> forall k :: 0 <= k < |receipts| ==> !(receipts[k].isActive && receipts[k].cedula == cedula)
    ensures forall k :: 0 <= k < |receipts| && receipts[k].isActive && receipts[k].cedula == cedula ==> receipts[k] in r
    ensures |r| > 0 ==> exists k :: FirstActiveReceiptAt(receipts, cedula, k) && receipts[k] == r[0]
  {
    if receipts == [] then []
    else
      var rest := ActiveReceipts(receipts[1..], cedula);
      if receipts[0].isActive && receipts[0].cedula == cedula then [receipts[0]] + rest
      else
        assert |rest| > 0 ==> exists k :: FirstActiveReceiptAt(receipts, cedula, k) && receipts[k] == rest[0] by {
          if |rest| > 0 {
            var k' :| FirstActiveReceiptAt(receipts[1..], cedula, k') && receipts[1..][k'] == rest[0];
            FirstActiveShifts(receipts, cedula, k');
          }
        }
        rest
  }

  /** find_user_receipts: the user must validate first, then at least one active receipt must exist. */
  function FindUserReceipts(users: seq<PaymentUser>, receipts: seq<PaymentReceipt>, cedula: string, date: CalendarDate)
    : (r: Result<seq<PaymentReceipt>, ValidationError>)
    ensures r.Ok? <==> ValidateUserData(users, Some(cedula), date).Ok? && |ActiveReceipts(receipts, cedula)| > 0
    ensures r.Ok? ==> |r.value| > 0 && forall k :: 0 <= k < |r.value| ==> r.value[k] in receipts && r.value[k].cedula == cedula && r.value[k].isActive
    ensures r.Ok? ==> r.value == ActiveReceipts(receipts, cedula)
    ensures r.Ok? ==> forall k :: 0 <= k < |receipts| && receipts[k].isActive && receipts[k].cedula == cedula ==> receipts[k] in r.value
    ensures ValidateUserData(users, Some(cedula), date).Err? ==> r == Err(ValidateUserData(users, Some(cedula), date).error)
    ensures ValidateUserData(users, Some(cedula), date).Ok? && r.Err? ==> r.error == NoReceipts
  {
    match ValidateUserData(users, Some(cedula), date)
    case Err(e) => Err(e)
    case Ok(_) =>
      var found := ActiveReceipts(receipts, cedula);
      if |found| == 0 then Err(NoReceipts) else Ok(found)
  }

  /** get_latest_receipt: the first active receipt row of a validated user (table order, not date order). */
  function GetLatestReceipt(users: seq<PaymentUser>, receipts: seq<PaymentReceipt>, cedula: string, date: CalendarDate)
    : (r: Result<PaymentReceipt, ValidationError>)
    ensures r.Ok? ==> r.value.isActive && r.value.cedula == cedula
    ensures r.Ok? ==> exists k :: FirstActiveReceiptAt(receipts, cedula, k) && receipts[k] == r.value
    ensures r.Ok? <==> FindUserReceipts(users, receipts, cedula, date).Ok?
  {
    match FindUserReceipts(users, receipts, cedula, date)
    case Err(e) => Err(e)
    case Ok(found) => Ok(found[0])
  }

  /** is_cedula_registered: registered means an active row with exactly this cedula. */
  function IsCedulaRegistered(users: seq<PaymentUser>, cedula: string): (r: Result<PaymentUser, ValidationError>)
    ensures r.Ok? <==> exists k :: 0 <= k < |users| && users[k].isActive && users[k].cedula == cedula
    ensures r.Ok? ==> r.value in users && r.value.cedula == cedula && r.value.isActive
  {
    match ActiveUser(users, Some(cedula))
    case None => Err(CedulaNotRegistered)
    case Some(u) => Ok(u)
  }
}

=== FILE: websocket_manager.dfy ===
/**
 * The WebSocket connection registry: the sockets following one phone's chat,
 * keyed by phone number, and the sockets following every chat. A phone key
 * is present exactly while at least one socket follows it. Sockets are
 * identities; the accept handshake and the JSON frames are not modelled,
 * and which sends raise is given as the set of failing sockets.
 */
module WebsocketManager {

  type Socket = nat

  /** No phone key maps to an empty set. */
  predicate NoEmptySets(m: map<string, set<Socket>>)
  {
    forall p :: p in m ==> m[p] != {}
  }

  /**
   * The registry after `gone` is discarded from the phone's set and the key
   * is deleted once the set is empty; an unknown phone is left alone.
   */
  function Discarded(m: map<string, set<Socket>>, phone: string, gone: set<Socket>): (r: map<string, set<Socket>>)
    ensures forall q :: q != phone ==> (q in r <==> q in m)
    ensures forall q :: q != phone && q in m ==> r[q] == m[q]
    ensures phone in r <==> phone in m && m[phone] - gone != {}
    ensures phone in r ==> r[phone] == m[phone] - gone
    ensures NoEmptySets(m) ==> NoEmptySets(r)
  {
    if phone !in m then m
    else if m[phone] - gone == {} then m - {phone}
    else m[phone := m[phone] - gone]
  }

  /** Discarding in two steps is discarding the union. */
  lemma DiscardedTwice(m: map<string, set<Socket>>, phone: string, a: set<Socket>, b: set<Socket>)
    ensures Discarded(Discarded(m, phone, a), phone, b) == Discarded(m, phone, a + b)
  {
    var once := Discarded(m, phone, a);
    if phone in m {
      assert m[phone] - a - b == m[phone] - (a + b);
    }
    assert phone !in m ==> once == m;
  }

  /** Discarding nothing the phone holds changes nothing. */
  lemma DiscardedNothing(m: map<string, set<Socket>>, phone: string, gone: set<Socket>)
    requires NoEmptySets(m)
    requires phone in m ==> m[phone] * gone == {}
    ensures Discarded(m, phone, gone) == m
  {
    if phone in m {
      forall x | x in m[phone] ensures x !in gone {
        assert x !in m[phone] * gone;
      }
      assert m[phone] - gone == m[phone];
    }
  }

  class ConnectionManager {
    var activeConnections: map<string, set<Socket>>
    var generalConnections: set<Socket>

    ghost predicate Valid()
      reads this
    {
      NoEmptySets(activeConnections)
    }

    constructor ()
      ensures Valid()
      ensures activeConnections == map[] && generalConnections == {}
    {
      activeConnections := map[];
      generalConnections := {};
    }

    /** connect: the socket joins the phone's set, which is created when absent. */
    method Connect(websocket: Socket, phone: string)
      requires Valid()
      modifies this
      ensures Valid()
      ensures phone in activeConnections
      ensures activeConnections[phone] ==
        (if phone in old(activeConnections) then old(activeConnections)[phone] else {}) + {websocket}
      ensures forall q :: q != phone ==> (q in activeConnections <==> q in old(activeConnections))
      ensures forall q :: q != phone && q in old(activeConnections) ==> activeConnections[q] == old(activeConnections)[q]
      ensures generalConnections == old(generalConnections)
    {
      if phone !in activeConnections {
        activeConnections := activeConnections[phone := {}];
      }
      activeConnections := activeConnections[phone := activeConnections[phone] + {websocket}];
    }

    /** connect_general. */
    method ConnectGeneral(websocket: Socket)
      requires Valid()
      modifies this
      ensures Valid()
      ensures generalConnections == old(generalConnections) + {websocket}
      ensures activeConnections == old(activeConnections)
    {
      generalConnections := generalConnections + {websocket};
    }

    /** disconnect: a no-op for an unknown phone; the key goes when its set empties. */
    method Disconnect(websocket: Socket, phone: string)
      requires Valid()
      modifies this
      ensures Valid()
      ensures activeConnections == Discarded(old(activeConnections), phone, {websocket})
      ensures generalConnections == old(generalConnections)
    {
      if phone in activeConnections {
        activeConnections := activeConnections[phone := activeConnections[phone] - {websocket}];
        if activeConnections[phone] == {} {
          activeConnections := activeConnections - {phone};
        }
      }
    }

    /** disconnect_general. */
    method DisconnectGeneral(websocket: Socket)
      requires Valid()
      modifies this
      ensures Valid()
      ensures generalConnections == old(generalConnections) - {websocket}
      ensures activeConnections == old(activeConnections)
    {
      generalConnections := generalConnections - {websocket};
    }

    /**
     * send_message_to_phone: every socket of the phone is sent to; the ones
     * in `failing` are collected and then disconnected one by one. The
     * result is the set of sockets the message reached.
     */
    method SendMessageToPhone(phone: string, failing: set<Socket>) returns (reached: set<Socket>)
      requires Valid()
      modifies this
      ensures Valid()
      ensures activeConnections == Discarded(old(activeConnections), phone, failing)
      ensures reached == (if phone in old(activeConnections) then old(activeConnections)[phone] - failing else {})
      ensures generalConnections == old(generalConnections)
    {
      reached := {};
      if phone !in activeConnections {
        return;
      }
      var targets := activeConnections[phone];
      var pending := targets;
      var disconnected: seq<Socket> := [];
      while pending != {}
        invariant pending <= targets
        invariant reached == (targets - pending) - failing
        invariant forall w :: w in disconnected <==> w in (targets - pending) * failing
        decreases pending
      {
        var w :| w in pending;
        if w in failing {
          disconnected := disconnected + [w];
        } else {
          reached := reached + {w};
        }
        pending := pending - {w};
      }
      ghost var start := activeConnections;
      ghost var gone: set<Socket> := {};
      var k := 0;
      DiscardedNothing(start, phone, {});
      while k < |disconnected|
        invariant 0 <= k <= |disconnected|
        invariant Valid()
        invariant forall w :: w in gone <==> w in disconnected[..k]
        invariant activeConnections == Discarded(start, phone, gone)
        invariant generalConnections == old(generalConnections)
      {
        assert disconnected[..k + 1] == disconnected[..k] + [disconnected[k]];
        DiscardedTwice(start, phone, gone, {disconnected[k]});
        Disconnect(disconnected[k], phone);
        gone := gone + {disconnected[k]};
        k := k + 1;
      }
      assert disconnected[..k] == disconnected;
      assert gone == targets * failing;
      assert start[phone] - targets * failing == start[phone] - failing;
    }

    /** send_message_to_all: the general sockets whose send raised are discarded. */
    method SendMessageToAll(failing: set<Socket>) returns (reached: set<Socket>)
      requires Valid()
      modifies this
      ensures Valid()
      ensures generalConnections == old(generalConnections) - failing
      ensures reached == old(generalConnections) - failing
      ensures activeConnections == old(activeConnections)
    {
      var targets := generalConnections;
      var pending := targets;
      var disconnected: seq<Socket> := [];
      reached := {};
      while pending != {}
        invariant pending <= targets
        invariant reached == (targets - pending) - failing
        invariant forall w :: w in disconnected <==> w in (targets - pending) * failing
        decreases pending
      {
        var w :| w in pending;
        if w in failing {
          disconnected := disconnected + [w];
        } else {
          reached := reached + {w};
        }
        pending := pending - {w};
      }
      ghost var gone: set<Socket> := {};
      var k := 0;
      while k < |disconnected|
        invariant 0 <= k <= |disconnected|
        invariant Valid()
        invariant forall w :: w in gone <==> w in disconnected[..k]
        invariant generalConnections == targets - gone
        invariant activeConnections == old(activeConnections)
      {
        assert disconnected[..k + 1] == disconnected[..k] + [disconnected[k]];
        DisconnectGeneral(disconnected[k]);
        gone := gone + {disconnected[k]};
        k := k + 1;
      }
      assert disconnected[..k] == disconnected;
      assert gone == targets * failing;
    }
  }

  /** Connecting then disconnecting a socket that was not there restores the registry. */
  lemma ConnectThenDisconnect(m: map<string, set<Socket>>, phone: string, websocket: Socket)
    requires NoEmptySets(m)
    requires phone in m ==> websocket !in m[phone]
    ensures Discarded(m[phone := (if phone in m then m[phone] else {}) + {websocket}], phone, {websocket}) == m
  {
    var joined := m[phone := (if phone in m then m[phone] else {}) + {websocket}];
    if phone in m {
      assert joined[phone] - {websocket} == m[phone];
    }
  }
}

=== FILE: whatsapp_models.dfy ===
/**
 * The whatsapp_users table. Besides the declared columns (phone number,
 * name, last interaction, active flag, inactivity-warning flag) every row
 * carries the conversation state and the conversation data that the bot
 * reads and writes, although the table declaration does not list them.
 * Rows are kept in insertion order; the phone number is the primary key.
 */
module WhatsappModels {
  import opened Wrappers

  /**
   * conversation_state: Idle stands for None and for the empty string (both
   * falsy); any other string the bot does not know is Unrecognised.
   */
  datatype ConvState = Idle | WaitingCedula | WaitingDate | WaitingReceiptSelection | Unrecognised(name: string)

  /** conversation_data once decoded: the stored cedula and the receipts_found flag. */
  datatype ConvData = ConvData(cedula: Option<string>, receiptsFound: bool)

  /** A row of whatsapp_users; times are seconds. */
  datatype Contact = Contact(
    phone: string,
    name: string,
    lastInteraction: int,
    isActive: bool,
    warningSent: bool,
    state: ConvState,
    data: Option<ConvData>)

  /** A row of the messages table as the webhook writes it. */
  datatype MessageRow = MessageRow(id: string, phone: string, content: string, sender: string)

  predicate DistinctPhones(rows: seq<Contact>)
  {
    forall i, j :: 0 <= i < j < |rows| ==> rows[i].phone != rows[j].phone
  }

  /** The position of the row with this phone number: the query `.filter(phone_number == p).first()`. */
  function FindPhone(rows: seq<Contact>, phone: string): (r: Option<nat>)
    ensures r.Some? ==> r.value < |rows| && rows[r.value].phone == phone
    ensures r.Some? ==> forall j :: 0 <= j < r.value ==> rows[j].phone != phone
    ensures r.None? <==> forall j :: 0 <= j < |rows| ==> rows[j].phone != phone
  {
    if rows == [] then None
    else if rows[0].phone == phone then Some(0)
    else
      match FindPhone(rows[1..], phone)
      case Some(k) => Some(k + 1)
      case None => None
  }

  /** The whatsapp_users table. */
  class ContactTable {
    var rows: seq<Contact>

    ghost predicate Valid()
      reads this
    {
      DistinctPhones(rows)
    }

    constructor ()
      ensures Valid() && rows == []
    {
      rows := [];
    }
  }

  /** The messages table. */
  class MessageLog {
    var rows: seq<MessageRow>

    constructor ()
      ensures rows == []
    {
      rows := [];
    }
  }
}

=== FILE: whatsapp_users.dfy ===
/**
 * Contact upkeep: the upsert every inbound message goes through, the
 * last-interaction touch and the deletion of a contact. A name typed by an
 * operator is never overwritten; only the default name (the phone number)
 * is replaced by the WhatsApp profile name.
 */
module WhatsappUsers {
  import opened Wrappers
  import opened WhatsappModels

  /** The row create_or_update_whatsapp_user inserts for an unknown phone. */
  function NewContact(phone: string, name: string, now: int): (c: Contact)
    ensures c.phone == phone && c.lastInteraction == now
    ensures c.name == (if name != "" then name else phone)
    ensures c.isActive && !c.warningSent && c.state == Idle && c.data == None
  {
    Contact(phone, if name != "" then name else phone, now, true, false, Idle, None)
  }

  /** The row after create_or_update_whatsapp_user touched an existing one. */
  function Refreshed(c: Contact, name: string, now: int): (r: Contact)
    ensures r.lastInteraction == now
    ensures r.name == (if name != "" && c.name == c.phone then name else c.name)
    ensures r == c.(lastInteraction := now, name := r.name)
  {
    c.(lastInteraction := now, name := if name != "" && c.name == c.phone then name else c.name)
  }

  /** The table after create_or_update_whatsapp_user(phone, name) at time `now`. */
  function Upsert(rows: seq<Contact>, phone: string, name: string, now: int): (r: seq<Contact>)
    ensures FindPhone(rows, phone).Some? ==> r == rows[FindPhone(rows, phone).value := Refreshed(rows[FindPhone(rows, phone).value], name, now)]
    ensures FindPhone(rows, phone).None? ==> r == rows + [NewContact(phone, name, now)]
  {
    match FindPhone(rows, phone)
    case Some(k) => rows[k := Refreshed(rows[k], name, now)]
    case None => rows + [NewContact(phone, name, now)]
  }

  /**
   * After the upsert the phone has exactly one row, touched at `now`; a
   * custom name survives; phone numbers stay distinct; no other row changes.
   */
  lemma UpsertProperties(rows: seq<Contact>, phone: string, name: string, now: int)
    requires DistinctPhones(rows)
    ensures var r := Upsert(rows, phone, name, now);
      DistinctPhones(r)
      && FindPhone(r, phone).Some?
      && r[FindPhone(r, phone).value].lastInteraction == now
      && (forall j :: 0 <= j < |rows| && rows[j].phone != phone ==> r[j] == rows[j])
      && (|r| == |rows| <==> FindPhone(rows, phone).Some?)
  {
    var r := Upsert(rows, phone, name, now);
    match FindPhone(rows, phone)
    case Some(k) =>
      assert r[k].phone == phone;
      assert FindPhone(r, phone) == Some(k) by {
        assert forall j :: 0 <= j < k ==> r[j].phone != phone;
      }
    case None =>
      assert r[|rows|].phone == phone;
      assert FindPhone(r, phone) == Some(|rows|) by {
        assert forall j :: 0 <= j < |rows| ==> r[j].phone != phone;
      }
  }

  /** A custom name, one that differs from the phone number, is never replaced. */
  lemma CustomNameKept(rows: seq<Contact>, phone: string, name: string, now: int)
    requires DistinctPhones(rows)
    requires FindPhone(rows, phone).Some? && rows[FindPhone(rows, phone).value].name != phone
    ensures var r := Upsert(rows, phone, name, now);
      FindPhone(r, phone) == FindPhone(rows, phone) && r[FindPhone(r, phone).value].name == rows[FindPhone(rows, phone).value].name
  {
    var k := FindPhone(rows, phone).value;
    var r := Upsert(rows, phone, name, now);
    assert r[k].phone == phone;
    assert FindPhone(r, phone) == Some(k) by {
      assert forall j :: 0 <= j < k ==> r[j].phone != phone;
    }
  }

  /** create_or_update_whatsapp_user. */
  method CreateOrUpdateWhatsappUser(table: ContactTable, phone: string, name: string, now: int) returns (c: Contact)
    requires table.Valid()
    modifies table
    ensures table.Valid()
    ensures table.rows == Upsert(old(table.rows), phone, name, now)
    ensures FindPhone(table.rows, phone).Some? && c == table.rows[FindPhone(table.rows, phone).value]
  {
    UpsertProperties(table.rows, phone, name, now);
    var k := FindPhone(table.rows, phone);
    match k {
      case Some(i) =>
        c := Refreshed(table.rows[i], name, now);
        table.rows := table.rows[i := c];
      case None =>
        c := NewContact(phone, name, now);
        table.rows := table.rows + [c];
    }
  }

  /** update_user_last_interaction: True iff the phone has a row; only that row's time changes. */
  method UpdateUserLastInteraction(table: ContactTable, phone: string, now: int) returns (ok: bool)
    requires table.Valid()
    modifies table
    ensures table.Valid()
    ensures ok <==> FindPhone(old(table.rows), phone).Some?
    ensures ok ==> var k := FindPhone(old(table.rows), phone).value;
      table.rows == old(table.rows)[k := old(table.rows)[k].(lastInteraction := now)]
    ensures !ok ==> table.rows == old(table.rows)
  {
    var k := FindPhone(table.rows, phone);
    if k.None? {
      return false;
    }
    table.rows := table.rows[k.value := table.rows[k.value].(lastInteraction := now)];
    return true;
  }

  /** The table without the row of `phone`. */
  function Without(rows: seq<Contact>, phone: string): (r: seq<Contact>)
    ensures forall j :: 0 <= j < |r| ==> r[j].phone != phone
    ensures forall c :: c in rows && c.phone != phone ==> c in r
    ensures forall c :: c in r ==> c in rows
    ensures |r| <= |rows|
  {
    if rows == [] then []
    else if rows[0].phone == phone then Without(rows[1..], phone)
    else [rows[0]] + Without(rows[1..], phone)
  }

  /** delete_whatsapp_user: True iff the row existed; exactly that row is removed. */
  method DeleteWhatsappUser(table: ContactTable, phone: string) returns (ok: bool)
    requires table.Valid()
    modifies table
    ensures table.Valid()
    ensures ok <==> FindPhone(old(table.rows), phone).Some?
    ensures table.rows == Without(old(table.rows), phone)
    ensures ok ==> |table.rows| == |old(table.rows)| - 1
  {
    var k := FindPhone(table.rows, phone);
    if k.None? {
      WithoutAbsent(table.rows, phone);
      return false;
    }
    WithoutOne(table.rows, phone, k.value);
    table.rows := table.rows[..k.value] + table.rows[k.value + 1..];
    return true;
  }

  lemma {:induction false} WithoutAbsent(rows: seq<Contact>, phone: string)
    requires forall j :: 0 <= j < |rows| ==> rows[j].phone != phone
    ensures Without(rows, phone) == rows
  {
    if rows != [] {
      WithoutAbsent(rows[1..], phone);
    }
  }

  /** Removing the one row of a phone is the same as cutting it out of the sequence. */
  lemma {:induction false} WithoutOne(rows: seq<Contact>, phone: string, k: nat)
    requires DistinctPhones(rows) && k < |rows| && rows[k].phone == phone
    ensures Without(rows, phone) == rows[..k] + rows[k + 1..]
    ensures DistinctPhones(rows[..k] + rows[k + 1..])
  {
    CutKeepsDistinct(rows, k);
    if k == 0 {
      WithoutAbsent(rows[1..], phone);
    } else {
      assert rows[0].phone != phone;
      TailDistinct(rows);
      WithoutOne(rows[1..], phone, k - 1);
      CutOfTail(rows, k);
    }
  }

  lemma TailDistinct(rows: seq<Contact>)
    requires DistinctPhones(rows) && rows != []
    ensures DistinctPhones(rows[1..])
  {
    forall i, j | 0 <= i < j < |rows[1..]| ensures rows[1..][i].phone != rows[1..][j].phone {
      assert rows[1..][i] == rows[i + 1] && rows[1..][j] == rows[j + 1];
    }
  }

  lemma CutOfTail<T>(rows: seq<T>, k: nat)
    requires 0 < k < |rows|
    ensures [rows[0]] + (rows[1..][..k - 1] + rows[1..][k..]) == rows[..k] + rows[k + 1..]
  {
  }

  lemma CutKeepsDistinct(rows: seq<Contact>, k: nat)
    requires DistinctPhones(rows) && k < |rows|
    ensures DistinctPhones(rows[..k] + rows[k + 1..])
  {
    var cut := rows[..k] + rows[k + 1..];
    forall i, j | 0 <= i < j < |cut| ensures cut[i].phone != cut[j].phone {
      var i' := if i < k then i else i + 1;
      var j' := if j < k then j else j + 1;
      assert cut[i] == rows[i'] && cut[j] == rows[j'];
    }
  }
}

=== FILE: wrappers.dfy ===
/** Option and Result values shared by every module of the model. */
module Wrappers {
  datatype Option<+T> = None | Some(value: T)
  {
    function GetOr(default: T): T
    {
      match this
      case None => default
      case Some(v) => v
    }
  }

  /** An operation that either produces a value or reports why it refused. */
  datatype Result<+T, +E> = Ok(value: T) | Err(error: E)
}
